=== FILE: README.md ===
# jdb in Dafny

jdb is a header-only C++ object-relational layer over SQLite. A *model* is a
class template `DataClass<Name, Primary<Keys...>, Foreign<Refers...>, Fields...>`
holding one `Data` cell (null, bool, int64, double or string) per field. A
`Repository<Model>` turns reads and writes of models into SQL text and runs it
through a `Database`. `SqliteDatabase` is that database: it creates the tables,
runs statements, nests transactions, and applies numbered migrations.
`CompoundModel<Models...>` joins several models, and its repository reads them
back from one `INNER JOIN`.

This project models that core and proves what it promises:

- `wrappers.dfy` (module `Wrappers`): `Option`, `Result`, `Outcome`, and the
  "first failure wins" walk used by every loop that throws part-way.
- `strings.dfy` (module `Strings`): joining with a separator, the decimal text
  of integers, and `std::quoted`.
- `data_class.dfy` (module `DataClass`): schemas, `Data`, instances as
  `Record` values, and the `Model` class over an array of cells. Also the
  name checks, `index_of`, `get_keys`, `operator[]` and `to_string`.
- `database.dfy` (module `Database`): the SQL text of `insert`, `update`,
  `remove` and the key `WHERE`, as pure functions. Beside each is the method
  that writes it into a stream the way the source does.
- `engine.dfy` (module `Engine`): SQLite itself, as an `Oracle` value. The
  oracle maps the history of statements sent so far and the next statement to
  either result rows or an error. The module also holds the runs of the
  database operations and of transaction callbacks, as functions over that
  history.
- `sqlite.dfy` (module `Sqlite`): the `SqliteDatabase` class. Its state is the
  oracle, the history, the transaction flag and queue, and the migrations.
  Each method is proved equal to the matching run in `Engine`, `Ddl` or
  `Migrations`.
- `ddl.dfy` (module `Ddl`): `create_ddl` and its checks.
- `migrations.dfy` (module `Migrations`): `add_migration`, the sort by id, and
  `build`.
- `repositories.dfy` (module `Repositories`): `Repository<Model>`.
- `compound.dfy` (module `Compound`): the `CompoundModel` class.
- `compound_repository.dfy` (module `CompoundRepositories`):
  `Repository<CompoundModel<...>>`.
- `deferred.dfy` (module `Deferred`): `InsertValue`, `UpdateValue` and
  `RemoveValue`, which queue writes and run them from the destructor.

How the C++ becomes Dafny:

- **Models.** Templates become runtime values. A model class becomes a
  `Schema`, a model's type argument becomes a position or a `Schema`
  parameter, and a callback (`std::function<void(Database&)>`) becomes an
  `Action` script of steps. A script step runs a statement, performs a write
  (optionally with its error caught), requests a nested transaction, or
  throws.
- **Errors.** Exceptions become `Result`/`Outcome` values carrying the
  exception's text.
- **The engine.** The SQLite engine and the row id it reports are parameters
  (the `Oracle`). Every proof holds for every engine.
- **In-place updates.** Objects the source updates in place are classes with
  `modifies` clauses: `Model`, `CompoundModel`, `SqliteDatabase`, the
  repositories and `ValueBuilder`. Each of their methods is proved against a
  function of the old state.

Where the code and the documentation disagree, the model follows the code,
with three exceptions: three places in the code are evidently not what the
authors meant.

- `build` reads the version from the first column
  (include/jdb/database/SqliteDatabase.hpp:152).
- `create_ddl` writes the FOREIGN KEY clauses with no separator between them
  (include/jdb/database/SqliteDatabase.hpp:318-324).
- The recursive calls of `Repository::for_each_where` and `for_each_order`
  leave out the stream argument (include/jdb/database/Repository.hpp:292,
  include/jdb/database/Repository.hpp:305). So with two or more fields they
  do not compile.

The first two are modelled both as written and as intended (see
"## Findings"). The `SqliteDatabase` class and the runs it is proved against
use the intended behaviour, so they read the version from the "version"
column and send the corrected CREATE TABLE text (for SQLite, which also
accepts table constraints with no comma between them, that difference may be
only in the text). The third is modelled as
intended: " AND " and ", " between the fields.

One more behaviour is modelled as written although it may not be meant: a
transaction whose callback throws leaves the transaction flag set
(include/jdb/database/SqliteDatabase.hpp:48-72), so every later transaction
request is only queued and never runs (Engine.Req).

## Model

| member | source | states |
|---|---|---|
| DataClass.FieldNames | include/jdb/database/DataClass.hpp:306-309 | the name array the constructor fills has one entry per field, field i's name at i |
| DataClass.ReferNames | include/jdb/database/DataClass.hpp:167-170 | the local field names of Foreign<Refers...>, one per reference, in order |
| DataClass.GetInt | include/jdb/database/DataClass.hpp:242-248 | a value exactly for an int64 cell, and then its payload |
| DataClass.GetDecimal | include/jdb/database/DataClass.hpp:250-256 | a value exactly for a double cell, and then its payload |
| DataClass.GetText | include/jdb/database/DataClass.hpp:258-264 | a value exactly for a string cell, and then its payload |
| DataClass.GetBool | include/jdb/database/DataClass.hpp:237-240 | get_bool goes through get_int: it answers exactly for int64 cells (nonzero is true), and a bool cell gives none |
| DataClass.Equals | include/jdb/database/DataClass.hpp:266 | equal exactly when the cells hold the same alternative with the same payload |
| DataClass.Assigned | include/jdb/database/DataClass.hpp:214-228 | assigning an empty optional keeps the cell; assigning a value replaces it |
| DataClass.Show | include/jdb/database/DataClass.hpp:278-289 | null writes nothing, a bool writes true/false, an int64 writes decimal text that parses back to it, a string writes itself |
| DataClass.LexLeTotal | include/jdb/database/DataClass.hpp:311 | the string order std::sort uses relates every pair |
| DataClass.LexLeAntisymmetric | include/jdb/database/DataClass.hpp:311 | two names each not after the other are equal |
| DataClass.LexLeTransitive | include/jdb/database/DataClass.hpp:311 | the order is transitive |
| DataClass.InsertSorted | include/jdb/database/DataClass.hpp:311 | inserting a name into a sorted list keeps it sorted |
| DataClass.SortNamesSorted | include/jdb/database/DataClass.hpp:311 | the sorted arrangement is sorted |
| DataClass.SortNamesMembers | include/jdb/database/DataClass.hpp:311 | sorting loses and invents no name |
| DataClass.SortNamesDistinct | include/jdb/database/DataClass.hpp:311 | sorting keeps the names distinct exactly when they were distinct |
| DataClass.AdjacentDuplicate | include/jdb/database/DataClass.hpp:312-313 | in a sorted list, a repeat exists exactly when some name equals its left neighbour (what std::unique finds) |
| DataClass.InsertInPlace | include/jdb/database/DataClass.hpp:311 | one insertion pass leaves the prefix equal to the sorted insertion, the rest untouched |
| DataClass.SortInPlace | include/jdb/database/DataClass.hpp:311 | the array ends up holding the sorted arrangement of what it held |
| DataClass.FindAdjacent | include/jdb/database/DataClass.hpp:312-313 | true exactly when some element equals its left neighbour |
| DataClass.HasDuplicate | include/jdb/database/DataClass.hpp:311-313 | sort then unique reports a duplicate exactly when the names are not distinct |
| DataClass.CheckPrimary | include/jdb/database/DataClass.hpp:99-111 | passes exactly when the key names are distinct, else "Duplicated primary key" |
| DataClass.CheckForeign | include/jdb/database/DataClass.hpp:166-178 | passes exactly when the referencing field names are distinct, else "Duplicated foreign key" |
| DataClass.CheckFields | include/jdb/database/DataClass.hpp:305-317 | passes exactly when the field names are distinct, else the "Duplicated fields" error naming the model |
| DataClass.IndexOf | include/jdb/database/DataClass.hpp:426-437 | -1 exactly when no field has the name, otherwise the offset position of the first field with that name |
| DataClass.IndexOfOwnName | include/jdb/database/DataClass.hpp:426-437 | with distinct names, a field's own name finds that field's position |
| DataClass.Empty | include/jdb/database/DataClass.hpp:409 | a default-constructed instance is well formed and every cell is null |
| DataClass.Lookup | include/jdb/database/DataClass.hpp:351-360 | operator[] succeeds exactly when the name is declared, gives the first matching cell, else the "not available" error |
| DataClass.Write | include/jdb/database/DataClass.hpp:362-371 | assignment through operator[] fails exactly on an undeclared name; otherwise only the found cell changes, to the assigned value |
| DataClass.WriteThenLookup | include/jdb/database/DataClass.hpp:362-371 | a written value reads back, and every other name reads what it read before |
| DataClass.Matching | include/jdb/database/DataClass.hpp:337-341 | the get_fields scan yields no more fields than the model has |
| DataClass.MatchingDistinct | include/jdb/database/DataClass.hpp:337-341 | with distinct names, a key's scan yields exactly its one field |
| DataClass.MatchingAbsent | include/jdb/database/DataClass.hpp:337-341 | a name no field carries yields nothing |
| DataClass.MatchingMembers | include/jdb/database/DataClass.hpp:337-341 | the scan yields exactly the fields whose name is the key |
| DataClass.KeyFieldsOf | include/jdb/database/DataClass.hpp:326-343 | get_keys with no keys yields no fields |
| DataClass.KeyFieldsOfFails | include/jdb/database/DataClass.hpp:326-343 | get_keys fails exactly when some key is not a field |
| DataClass.KeyFieldsOfFirstMissing | include/jdb/database/DataClass.hpp:326-343 | a failure names the first key that is not a field, with "Inexistent primary key" |
| DataClass.KeyFieldsOfFailure | include/jdb/database/DataClass.hpp:326-343 | both halves: failure exactly on a missing key, naming the first one |
| DataClass.KeyFieldsOfSuccess | include/jdb/database/DataClass.hpp:326-343 | on distinct names, one field per key in key order, each a field of the model |
| DataClass.KeyFieldsOfPrefixFailure | include/jdb/database/DataClass.hpp:326-343 | a key missing among the first k ends the walk with that error |
| DataClass.EntriesAt | include/jdb/database/DataClass.hpp:379-395 | entry i of to_string is field i written with cell i |
| DataClass.Render | include/jdb/database/DataClass.hpp:373-400 | to_string fails exactly for a model without fields, with that model's error |
| DataClass.RenderedTextReadsBack | include/jdb/database/DataClass.hpp:386-393 | the value part of a text entry unquotes back to the text, whatever quotes it holds |
| DataClass.Model.constructor | include/jdb/database/DataClass.hpp:409 | a fresh cell array holding the all-null instance of the schema |
| DataClass.Model.Get | include/jdb/database/DataClass.hpp:351-360 | the const operator[] on the array is Lookup of the instance |
| DataClass.Model.Assign | include/jdb/database/DataClass.hpp:362-371 | assignment in place: on an undeclared name nothing changes and the error is returned, otherwise the instance becomes Write's result |
| DataClass.Model.ToString | include/jdb/database/DataClass.hpp:373-400 | the field-by-field loop under a first flag writes exactly Render of the instance |
| Database.Rejection | include/jdb/database/Database.hpp:107-159 | an error exactly when the column's type does not accept the cell |
| Database.Kept | include/jdb/database/Database.hpp:78-90 | the positions written are increasing, none is a null cell of a field with a default, and every other position is among them |
| Database.Values | include/jdb/database/Database.hpp:96-161 | a successful value list has one value per written column |
| Database.ColumnsKept | include/jdb/database/Database.hpp:78-90 | the k-th column named is the field at the k-th written position |
| Database.ValuesKept | include/jdb/database/Database.hpp:96-161 | the k-th value is the literal of the cell at the k-th written position, so each value lands in its own column |
| Database.ValuesFails | include/jdb/database/Database.hpp:96-161 | the statement fails exactly when a written cell is refused by its column |
| Database.ValuesFirstRejection | include/jdb/database/Database.hpp:96-161 | a failure carries the rejection of the first refused written cell |
| Database.ValuesFailure | include/jdb/database/Database.hpp:96-161 | both halves of the above |
| Database.ValuesPrefixFailure | include/jdb/database/Database.hpp:96-161 | a refusal among the first fields ends the statement with that error |
| Database.KeyPredicates | include/jdb/database/Database.hpp:282-309 | one condition per key field |
| Database.KeyPredicatesRead | include/jdb/database/Database.hpp:282-309 | condition i tests key i against the cell of the record's field that is that key |
| Database.KeyCellIsCell | include/jdb/database/Database.hpp:289 | the key condition reads the key field's own cell |
| Database.Pairs | include/jdb/database/Database.hpp:184-248 | the SET list pairs column k with value k as "c = v" |
| Database.WriteFailsOnlyOnMissingKey | include/jdb/database/Database.hpp:71-270 | for an instance whose cells all suit their columns, insert fails exactly for a model without fields (with "No fields available"), remove exactly when a key is not a field, and update on either |
| Database.InsertUpdateAgree | include/jdb/database/Database.hpp:71-246 | insert fails exactly when the model has no fields or update's value pass refuses a cell: both refuse the same cells |
| Database.InsertSql | include/jdb/database/Database.hpp:71-163 | insert's text fails exactly for a model without fields (get_fields throws, DataClass.hpp:420-424) or a written cell its column refuses |
| Database.UpdateSql | include/jdb/database/Database.hpp:177-253 | update's text fails exactly for a model without fields, a refused cell, or a key that is not a field |
| Database.DeleteSql | include/jdb/database/Database.hpp:256-266 | remove's text fails exactly when a key is not a field |
| Database.CellAt | include/jdb/database/Database.hpp:79 | operator[] on field i gives cell i |
| Database.WriteColumns | include/jdb/database/Database.hpp:76-92 | the column loop writes the written columns joined by ", " |
| Database.WriteValue | include/jdb/database/Database.hpp:96-161 | one value step extends the value list or reports the cell's rejection |
| Database.WriteValues | include/jdb/database/Database.hpp:92-163 | the value loop writes the value list joined by ", ", or fails with the first rejection |
| Database.BuildInsert | include/jdb/database/Database.hpp:71-163 | the stream insert builds is the INSERT text; a model without fields fails at the first get_fields |
| Database.AppendCondition | include/jdb/database/Database.hpp:282-309 | one key condition is appended, after " AND " unless first |
| Database.WhereForKey | include/jdb/database/Database.hpp:282-309 | one key's scan appends a condition for every field of that name |
| Database.ScanField | include/jdb/database/Database.hpp:282-309 | one field of the scan adds its condition exactly when its name matches |
| Database.WhereForKeyAt | include/jdb/database/Database.hpp:282-309 | a missing key gives the "Inexistent primary key" error, otherwise that key's conditions are appended |
| Database.BuildWhere | include/jdb/database/Database.hpp:276-310 | the stream written is the key WHERE text, or the first missing key's error |
| Database.WriteSetting | include/jdb/database/Database.hpp:184-248 | one SET step extends the pairs or reports the rejection |
| Database.WriteSettings | include/jdb/database/Database.hpp:182-248 | the SET loop writes the "c = v" pairs joined by ", ", or fails with the first rejection |
| Database.BuildUpdate | include/jdb/database/Database.hpp:177-253 | the stream update builds is the UPDATE text; a model without fields fails at get_fields |
| Database.BuildDelete | include/jdb/database/Database.hpp:256-266 | the stream remove builds is the DELETE text |
| Engine.Classify | include/jdb/database/SqliteDatabase.hpp:94-104 | a blob fails with "Type not implemented"; otherwise the cell keeps its kind and payload |
| Engine.ClassifyRow | include/jdb/database/SqliteDatabase.hpp:91-105 | the row succeeds exactly when no cell is a blob, then cell i classifies to value i |
| Engine.QueryResult | include/jdb/database/SqliteDatabase.hpp:78-119 | every failure ends with ": " and the statement; an engine error is rethrown with it; no rows leaves the state as it was |
| Engine.ExecuteRun | include/jdb/database/SqliteDatabase.hpp:29-30 | running a statement appends it to the history, and it passes exactly when the query passes |
| Engine.Fill | include/jdb/database/Database.hpp:37-43 | the fill succeeds exactly when every column is declared, and fails naming an undeclared one |
| Engine.FillReadsBack | include/jdb/database/Database.hpp:39-43 | after filling distinct declared columns each reads back its value, and other names read as before |
| Engine.AssignRunIsFill | include/jdb/database/Repository.hpp:386-388 | n assignments from a position are the fill of those columns and values |
| Engine.AssignRunWhole | include/jdb/database/Database.hpp:327-329 | a run over a whole row is the fill of the row |
| Engine.FillRecord | include/jdb/database/Database.hpp:37-45 | a repeated field name fails construction first; a success is a well-formed instance of the schema |
| Engine.FindRun | include/jdb/database/Database.hpp:28-51 | find_by_rowid sends exactly its SELECT |
| Engine.FindRunFirstRow | include/jdb/database/Database.hpp:35-50 | no row gives nothing; otherwise the model filled from the first row |
| Engine.InsertRun | include/jdb/database/Database.hpp:71-175 | an INSERT text error (no fields, a refused cell) sends nothing; otherwise the INSERT goes first, and a result is an instance of the same schema |
| Engine.InsertRunRereads | include/jdb/database/Database.hpp:165-174 | a refused INSERT is the failure with nothing more sent; an accepted one is followed by `SELECT * from <T> WHERE ROWID = <last rowid>`, no row back is "unable to recover model sequence", and otherwise the result is the model read from the first row |
| Engine.UpdateRun | include/jdb/database/Database.hpp:177-254 | an UPDATE text error sends nothing; otherwise the UPDATE is executed |
| Engine.RemoveRun | include/jdb/database/Database.hpp:256-270 | a DELETE text error sends nothing; otherwise the DELETE is sent, and success is true |
| Engine.Req | include/jdb/database/SqliteDatabase.hpp:48-72 | inside a transaction the callback is only queued; outside, BEGIN, then COMMIT on success or ROLLBACK on failure, with the flag and queue cleared on success |
| Engine.RunSteps | include/jdb/database/SqliteDatabase.hpp:59 | a callback's steps only extend the history and queue its requests in order |
| Engine.StepRun | include/jdb/database/SqliteDatabase.hpp:59 | one step only extends the history and queues its request |
| Engine.Drain | include/jdb/database/SqliteDatabase.hpp:61-65 | draining the queue only extends the history and stays inside the transaction |
| Engine.RunPlainInside | include/jdb/database/SqliteDatabase.hpp:59 | inside a transaction a callback without failures runs its statements in order and queues its requests in order |
| Engine.RunStatementsOnly | include/jdb/database/SqliteDatabase.hpp:59 | in or out of a transaction, a callback that only runs accepted statements sends them in order and changes nothing else |
| Engine.PerformRun | include/jdb/database/Database.hpp:318-331 | a queued write only extends the history |
| Engine.DrainPlain | include/jdb/database/SqliteDatabase.hpp:61-65 | draining callbacks without failures runs the whole queue, growth included, in FIFO order |
| Engine.TransactionOrder | include/jdb/database/SqliteDatabase.hpp:48-72 | a top-level transaction writes BEGIN, every statement of the callback and of the callbacks it requested in FIFO order, then COMMIT |
| Sqlite.TableRun | include/jdb/database/SqliteDatabase.hpp:33-42 | a table refused by its checks sends nothing and fails; otherwise its CREATE TABLE is sent, in the corrected form with ", " between FOREIGN KEY clauses (see "## Findings"); errors carry the "On 'table'" prefix |
| Sqlite.TablesRun | include/jdb/database/SqliteDatabase.hpp:32-43 | the tables only extend the history |
| Sqlite.SetupRun | include/jdb/database/SqliteDatabase.hpp:26-44 | the constructor sends the migracao CREATE TABLE first |
| Sqlite.SetupCreatesInOrder | include/jdb/database/SqliteDatabase.hpp:26-44 | with an accepting engine and valid tables, the constructor creates migracao then every table in order |
| Sqlite.TablesInOrder | include/jdb/database/SqliteDatabase.hpp:32-43 | valid tables are created in the order given |
| Sqlite.ClassifyCells | include/jdb/database/SqliteDatabase.hpp:91-105 | the classification loop yields ClassifyRow |
| Sqlite.SqliteDatabase.constructor | include/jdb/database/SqliteDatabase.hpp:26-27 | an open connection with empty history, no transaction, empty queue, no migrations |
| Sqlite.SqliteDatabase.Initialize | include/jdb/database/SqliteDatabase.hpp:26-44 | the constructor's body is SetupRun on the history |
| Sqlite.SqliteDatabase.CreateTables | include/jdb/database/SqliteDatabase.hpp:32-43 | the for_each over the tables is TablesRun |
| Sqlite.SqliteDatabase.CreateTable | include/jdb/database/SqliteDatabase.hpp:33-42 | one table is TableRun, which sends the corrected CREATE TABLE text |
| Sqlite.SqliteDatabase.QueryString | include/jdb/database/SqliteDatabase.hpp:74-120 | the statement is appended to the history and the result is QueryResult of the engine's answer |
| Sqlite.SqliteDatabase.Execute | include/jdb/database/SqliteDatabase.hpp:29-30 | query_string with the ignoring callback is ExecuteRun |
| Sqlite.SqliteDatabase.LastRowid | include/jdb/database/SqliteDatabase.hpp:122 | the engine's last row id for the history |
| Sqlite.SqliteDatabase.FindByRowid | include/jdb/database/Database.hpp:28-51 | find_by_rowid is FindRun |
| Sqlite.SqliteDatabase.Insert | include/jdb/database/Database.hpp:71-175 | insert is InsertRun, so a model without fields fails before anything is sent, and an accepted INSERT is re-read by its rowid (Engine.InsertRunRereads) |
| Sqlite.SqliteDatabase.Update | include/jdb/database/Database.hpp:177-254 | update is UpdateRun, so a model without fields fails before anything is sent |
| Sqlite.SqliteDatabase.Remove | include/jdb/database/Database.hpp:256-270 | remove is RemoveRun |
| Sqlite.SqliteDatabase.Perform | include/jdb/database/Database.hpp:318-331 | a queued write is PerformRun: insert, update or remove of its model |
| Sqlite.SqliteDatabase.Step | include/jdb/database/SqliteDatabase.hpp:59 | one callback step is StepRun on the state |
| Sqlite.SqliteDatabase.Run | include/jdb/database/SqliteDatabase.hpp:59 | `callback(*this)` is RunSteps on the state |
| Sqlite.SqliteDatabase.Transaction | include/jdb/database/SqliteDatabase.hpp:48-72 | transaction is Req on the state, leaving the migrations alone |
| Sqlite.SqliteDatabase.AddMigration | include/jdb/database/SqliteDatabase.hpp:124-135 | refused with "migration id already exists" exactly when the id is taken, changing nothing; otherwise appended |
| Sqlite.SqliteDatabase.SortMigrations | include/jdb/database/SqliteDatabase.hpp:163-165 | the in-place sort leaves SortById of the migrations |
| Sqlite.SqliteDatabase.Build | include/jdb/database/SqliteDatabase.hpp:137-184 | build, version read from the "version" column, is BuildRun |
| Sqlite.SqliteDatabase.Migrate | include/jdb/database/SqliteDatabase.hpp:167-183 | the migration loop is MigrateRun from the version read |
| Migrations.AddMigrationKeepsIdsDistinct | include/jdb/database/SqliteDatabase.hpp:124-135 | only a taken id is refused, and adding keeps the ids distinct |
| Migrations.SortByIdPermutes | include/jdb/database/SqliteDatabase.hpp:163-165 | sorting neither loses nor repeats a migration |
| Migrations.SortByIdSorted | include/jdb/database/SqliteDatabase.hpp:163-165 | ids never decrease along the sorted list |
| Migrations.SortByIdAscending | include/jdb/database/SqliteDatabase.hpp:163-165 | with distinct ids the sorted list is strictly ascending |
| Migrations.InsertInPlaceBy | include/jdb/database/SqliteDatabase.hpp:163-165 | one in-place insertion pass gives the sorted insertion, the rest untouched |
| Migrations.SortInPlaceBy | include/jdb/database/SqliteDatabase.hpp:163-165 | the in-place sort leaves the sorted arrangement of what the array held |
| Migrations.Due | include/jdb/database/SqliteDatabase.hpp:167-170 | the migrations the loop runs (see MigrateRunIsRunAll) have ids above the version and come in strictly ascending order |
| Migrations.DueComplete | include/jdb/database/SqliteDatabase.hpp:167-170 | over a strictly ascending list, a migration is due exactly when its id exceeds the version |
| Migrations.MigracaoRecord | include/jdb/database/SqliteDatabase.hpp:138-141 | the bookkeeping model reads id 1 and the version set |
| Migrations.MigracaoWrites | include/jdb/database/SqliteDatabase.hpp:159-177 | the insert and update of the bookkeeping model always produce SQL |
| Migrations.ScanVersion | include/jdb/database/SqliteDatabase.hpp:147-157 | without a "version" column the version is unchanged; a failure is bad_optional_access |
| Migrations.ScanVersionReadsColumn | include/jdb/database/SqliteDatabase.hpp:150-153 | corrected: the version read is the integer of the "version" column |
| Migrations.ScanVersionReadsFirst | include/jdb/database/SqliteDatabase.hpp:150-153 | as written: the version read is the integer of the first column |
| Migrations.ReadVersion | include/jdb/database/SqliteDatabase.hpp:147-157 | a failure ends with the SELECT's text |
| Migrations.ReadVersionFirstRow | include/jdb/database/SqliteDatabase.hpp:147-157 | an empty table leaves version 0; otherwise only the first row is read |
| Migrations.MigrateRunExtends | include/jdb/database/SqliteDatabase.hpp:167-183 | the migration loop only extends the history |
| Migrations.MigrateRunFailure | include/jdb/database/SqliteDatabase.hpp:172-182 | a failure names a migration newer than the version and carries its error |
| Migrations.MigrateRun | include/jdb/database/SqliteDatabase.hpp:167-183 | with no migration newer than the version, the loop sends nothing and passes |
| Migrations.MigrateRunIsRunAll | include/jdb/database/SqliteDatabase.hpp:167-183 | the loop is the unconditional run (RunAll) of exactly the due migrations, in order: each callback, then the UPDATE of the version to its id, the first exception ending it |
| Migrations.RunAllStatements | include/jdb/database/SqliteDatabase.hpp:172-177 | on an engine accepting every statement, migrations whose callbacks only run statements all pass, sending for each in order its statements and then its version UPDATE |
| Migrations.SeedRun | include/jdb/database/SqliteDatabase.hpp:159-161 | version 0 inserts the bookkeeping row (with id 1, so with the version read from the "version" column a stored version 0 inserts it a second time); any other version sends nothing |
| Migrations.BuildRun | include/jdb/database/SqliteDatabase.hpp:137-184 | build leaves the migrations as they were or sorted by id |
| Migrations.BuildRunExtends | include/jdb/database/SqliteDatabase.hpp:143-145 | build starts with the CREATE TABLE of the version table and only extends the history |
| Migrations.BuildRunsDue | include/jdb/database/SqliteDatabase.hpp:137-184 | once the version table is created and the version read and seeded, build sorts the migrations and runs exactly those newer than the version read, in ascending id order |
| Ddl.ColumnDef | include/jdb/database/SqliteDatabase.hpp:237-272 | a column is name, type, then NULL, or NOT NULL with its default; a nullable field with a default fails |
| Ddl.ColumnDefsSucceed | include/jdb/database/SqliteDatabase.hpp:230-273 | the column walk succeeds exactly when no field is misdeclared |
| Ddl.ColumnDefsValues | include/jdb/database/SqliteDatabase.hpp:230-273 | a successful walk gives each field's column in field order |
| Ddl.ColumnDefsFailure | include/jdb/database/SqliteDatabase.hpp:230-273 | a failure reports the first misdeclared field |
| Ddl.ColumnDefsMeaning | include/jdb/database/SqliteDatabase.hpp:230-273 | all three of the above together |
| Ddl.ColumnDefsPrefixFailure | include/jdb/database/SqliteDatabase.hpp:230-273 | a misdeclared field among the first ends the walk |
| Ddl.KeyError | include/jdb/database/SqliteDatabase.hpp:275-280 | an undeclared key is "Inexistent primary key"; a declared one is refused exactly when its field is nullable |
| Ddl.KeyCheckPasses | include/jdb/database/SqliteDatabase.hpp:275-280 | the key walk passes exactly when every key is good |
| Ddl.KeyCheckFailure | include/jdb/database/SqliteDatabase.hpp:275-280 | a failure reports the first bad key's error |
| Ddl.KeyCheckMeaning | include/jdb/database/SqliteDatabase.hpp:275-280 | both halves of the above |
| Ddl.KeyClause | include/jdb/database/SqliteDatabase.hpp:282-312 | a Serial column with other than one key fails; with Serial or no keys nothing; otherwise ", PRIMARY KEY (k1, k2, ...)" |
| Ddl.PrimaryKeyNames | include/jdb/database/SqliteDatabase.hpp:289-293 | once the keys pass, get_keys yields the key fields in key order |
| Ddl.TargetKeys | include/jdb/database/SqliteDatabase.hpp:322-323 | one key gives "(k)" |
| Ddl.ReferenceClause | include/jdb/database/SqliteDatabase.hpp:318-323 | fails exactly when the target's get_keys fails; otherwise "FOREIGN KEY(f) REFERENCES t" and its keys |
| Ddl.ReferenceClausesSucceed | include/jdb/database/SqliteDatabase.hpp:318-324 | the clauses exist exactly when every target has its keys |
| Ddl.ReferenceClausesValues | include/jdb/database/SqliteDatabase.hpp:318-324 | one clause per reference, in order |
| Ddl.ReferenceClausesMeaning | include/jdb/database/SqliteDatabase.hpp:318-324 | both of the above |
| Ddl.ReferenceClausesFirstFailure | include/jdb/database/SqliteDatabase.hpp:318-324 | the first failing reference decides the error |
| Ddl.ForeignClause | include/jdb/database/SqliteDatabase.hpp:314-325 | nothing without references; otherwise ", " and the clauses joined by the separator |
| Ddl.CreateDdlAsWritten | include/jdb/database/SqliteDatabase.hpp:314-325 | as written: fails exactly when the intended text fails, and agrees with it for at most one reference |
| Ddl.ForeignKeysMissingSeparators | include/jdb/database/SqliteDatabase.hpp:318-324 | as written the statement is 2 characters shorter per missing separator and differs for two or more references |
| Ddl.ForeignKeysRunTogether | include/jdb/database/SqliteDatabase.hpp:318-324 | for a model with two references the clauses run together as written and are separated by ", " as intended |
| Ddl.CreateDdlFailure | include/jdb/database/SqliteDatabase.hpp:221-330 | create_ddl succeeds exactly when every column, key, Serial rule and reference target passes, and the first failing check decides the error |
| Ddl.CreateDdl | include/jdb/database/SqliteDatabase.hpp:221-330 | the corrected statement exists exactly when every column, the keys, the Serial rule and every reference target pass their checks |
| Ddl.CreateDdlShape | include/jdb/database/SqliteDatabase.hpp:225-329 | a successful statement lists every column in field order, then the key clause, then the FOREIGN KEY clauses separated by ", " |
| Ddl.MigracaoDdl | include/jdb/database/SqliteDatabase.hpp:18-20 | the bookkeeping table's statement, in full |
| Ddl.WriteColumn | include/jdb/database/SqliteDatabase.hpp:237-272 | the if-chain writes ColumnDef |
| Ddl.WriteColumns | include/jdb/database/SqliteDatabase.hpp:230-273 | the column loop writes the columns joined by ", " or fails with the first error, and records whether a Serial column exists |
| Ddl.CheckKeys | include/jdb/database/SqliteDatabase.hpp:275-280 | the key loop is the key walk |
| Ddl.WriteReference | include/jdb/database/SqliteDatabase.hpp:318-323 | one reference loop writes ReferenceClause |
| Ddl.WriteReferences | include/jdb/database/SqliteDatabase.hpp:318-324 | the FOREIGN KEY loop writes the clauses joined by the separator, or the first error |
| Ddl.WriteKeyClause | include/jdb/database/SqliteDatabase.hpp:282-312 | the PRIMARY KEY part is KeyClause |
| Ddl.BuildDdl | include/jdb/database/SqliteDatabase.hpp:221-330 | create_ddl's stream is the corrected statement (", " between FOREIGN KEY clauses) |
| Repositories.Conditions | include/jdb/database/Repository.hpp:268-294 | one condition per field, values past the last field ignored |
| Repositories.ConditionAgreesWithKey | include/jdb/database/Repository.hpp:276-278 | a filter condition equals the key condition exactly when the value is not a bool (true/false against 1/0) |
| Repositories.FilterAgreesWithKeys | include/jdb/database/Repository.hpp:263-266 | find's filter over the key cells is the WHERE update and remove write, when no key is a bool |
| Repositories.ConditionsAreKeys | include/jdb/database/Repository.hpp:263-266 | the same, condition by condition |
| Repositories.Condition | include/jdb/database/Repository.hpp:269-290 | a filter condition is the key condition of the same value except for bools |
| Repositories.WriteCondition | include/jdb/database/Repository.hpp:274-289 | the visitor appends one condition |
| Repositories.WriteFilter | include/jdb/database/Repository.hpp:268-294 | for_each_where appends the filter |
| Repositories.WriteOrder | include/jdb/database/Repository.hpp:296-307 | for_each_order appends the ordering |
| Repositories.CollectBound | include/jdb/database/Repository.hpp:33-50 | whatever the rows, select keeps what it holds and never exceeds Limit |
| Repositories.Collect | include/jdb/database/Repository.hpp:33-50 | one row of select: below Limit one more item is kept and the stream goes on; at Limit the items stay and it stops |
| Repositories.CollectRows | include/jdb/database/Repository.hpp:33-50 | when rows read, select keeps the first min(Limit, rows) models in row order |
| Repositories.SelectAtMostLimit | include/jdb/database/Repository.hpp:37-39 | select returns at most Limit models |
| Repositories.SelectFirstRows | include/jdb/database/Repository.hpp:25-53 | select returns the models of the first min(Limit, rows) rows, in row order |
| Repositories.GatherRows | include/jdb/database/Repository.hpp:87-100 | load_by keeps every row's model, in row order |
| Repositories.Gather | include/jdb/database/Repository.hpp:87-100 | one row of load_by: fails exactly when the row does not fill a model; otherwise one more item of the model, earlier ones kept, and the stream goes on |
| Repositories.GatherStopsAtBadRow | include/jdb/database/Repository.hpp:87-100 | a row that does not read fails load_by whatever comes after |
| Repositories.EdgeRow | include/jdb/database/Repository.hpp:124-143 | first_by/last_by give nothing for no rows, else the first row's model, never looking past it |
| Repositories.FindFirstMatch | include/jdb/database/Repository.hpp:191-199 | find gives the first matching row's model, or nothing |
| Repositories.CountReadsFirstCell | include/jdb/database/Repository.hpp:66-71 | count_by is 0 without rows, else the first row's first integer cell, else bad_optional_access |
| Repositories.CountFirst | include/jdb/database/Repository.hpp:66-71 | count_by's callback reads a result exactly from a first cell holding an integer, stops the stream, and otherwise fails with bad_optional_access |
| Repositories.EdgeSqlDirections | include/jdb/database/Repository.hpp:105-185 | first_by and last_by send the same text up to ASC/DESC |
| Repositories.LoadBySqlShape | include/jdb/database/Repository.hpp:57-86 | load_by's text is its filter then ORDER BY ROWID, and count_by's shares the filter |
| Repositories.RunCaught | include/jdb/database/Repository.hpp:209-215 | writes with caught errors run to their end without touching flag or queue |
| Repositories.CaughtRequest | include/jdb/database/Repository.hpp:209-215 | save_all outside a transaction is BEGIN, the writes, COMMIT; inside one it is only queued |
| Repositories.Repository.constructor | include/jdb/database/Repository.hpp:20-21 | binds the database and the model |
| Repositories.Repository.Select | include/jdb/database/Repository.hpp:25-53 | sends the SELECT, returns the collected rows, at most Limit |
| Repositories.Repository.LoadAll | include/jdb/database/Repository.hpp:55 | select with ORDER BY ROWID and Limit 100 |
| Repositories.Repository.CountBy | include/jdb/database/Repository.hpp:57-74 | sends the COUNT and reads its first cell |
| Repositories.Repository.LoadBy | include/jdb/database/Repository.hpp:76-103 | sends the filtered SELECT and gathers every row |
| Repositories.Repository.Edge | include/jdb/database/Repository.hpp:105-185 | sends the ordered LIMIT 1 SELECT and takes the first row |
| Repositories.Repository.Find | include/jdb/database/Repository.hpp:191-199 | repeated keys fail with nothing sent; otherwise load_by on the keys and the first model |
| Repositories.Repository.Save | include/jdb/database/Repository.hpp:201-207 | save is insert with its error returned |
| Repositories.Repository.Update | include/jdb/database/Repository.hpp:217-225 | update with the error as text |
| Repositories.Repository.Remove | include/jdb/database/Repository.hpp:227-235 | remove with the error as text |
| Repositories.Repository.SaveAll | include/jdb/database/Repository.hpp:209-215 | one transaction of caught inserts |
| Repositories.Repository.RemoveAll | include/jdb/database/Repository.hpp:237-249 | one transaction of caught removes, its error as text |
| Compound.Piece | include/jdb/database/CompoundModel.hpp:37 | a constituent's piece fails exactly when its model has no fields |
| Compound.Pieces | include/jdb/database/CompoundModel.hpp:30-42 | one piece per constituent |
| Compound.PrintSucceeds | include/jdb/database/CompoundModel.hpp:22-42 | the output exists exactly when every constituent has fields, and is the quoted name, ": " and to_string of each, joined by ", " |
| Compound.PrintFails | include/jdb/database/CompoundModel.hpp:22-42 | a failure is the first constituent without fields |
| Compound.Print | include/jdb/database/CompoundModel.hpp:22-42 | the output exists exactly when every constituent has fields |
| Compound.PiecesSucceed | include/jdb/database/CompoundModel.hpp:22-42 | every piece exists exactly when every constituent has fields |
| Compound.PieceNameReadsBack | include/jdb/database/CompoundModel.hpp:37 | the constituent's name unquotes back from the front of its piece |
| Compound.CompoundModel.Default | include/jdb/database/CompoundModel.hpp:7 | every constituent default-constructed |
| Compound.CompoundModel.constructor | include/jdb/database/CompoundModel.hpp:9 | get<Ti>() is mi for each constituent |
| Compound.CompoundModel.Set | include/jdb/database/CompoundModel.hpp:11-12 | only the T constituent changes, to m |
| Compound.CompoundModel.Get | include/jdb/database/CompoundModel.hpp:14-15 | the T constituent, an instance of T |
| Compound.CompoundModel.GetCell | include/jdb/database/CompoundModel.hpp:17-20 | get<T>(id) is Lookup on the T constituent |
| Compound.CompoundModel.AssignCell | include/jdb/database/CompoundModel.hpp:17-20 | assigning through get<T>(id) fails with no change on an undeclared name, otherwise only that constituent becomes Write's result |
| Compound.CompoundModel.ToString | include/jdb/database/CompoundModel.hpp:22-42 | operator<< writes exactly Print of the constituents |
| CompoundRepositories.Names | include/jdb/database/Repository.hpp:395-419 | the table names, one per constituent |
| CompoundRepositories.Stars | include/jdb/database/Repository.hpp:395-419 | "name.*" per constituent |
| CompoundRepositories.JoinCondition | include/jdb/database/Repository.hpp:425-435 | a join condition fails exactly with the target's get_keys error, and is never empty |
| CompoundRepositories.ModelResults | include/jdb/database/Repository.hpp:425-435 | one condition per reference |
| CompoundRepositories.ConditionResultsPrefix | include/jdb/database/Repository.hpp:421-444 | the conditions of the first constituents come first |
| CompoundRepositories.ConditionResultsEmpty | include/jdb/database/Repository.hpp:421-444 | no conditions exactly when no constituent has references |
| CompoundRepositories.ConditionResultsAt | include/jdb/database/Repository.hpp:421-444 | every condition comes from some reference of some constituent |
| CompoundRepositories.ConditionOf | include/jdb/database/Repository.hpp:421-444 | every reference has its condition, after those of earlier constituents |
| CompoundRepositories.CompoundSql | include/jdb/database/Repository.hpp:318-336 | load_all's text fails exactly when some join condition fails; without conditions it has no WHERE |
| CompoundRepositories.WhereWhenReferences | include/jdb/database/Repository.hpp:331-337 | the WHERE is empty exactly when no constituent has references, and fails exactly when some condition fails |
| CompoundRepositories.WhereFailsOnMissingKey | include/jdb/database/Repository.hpp:433-434 | the WHERE fails exactly when some referenced model has a key that is not a field |
| CompoundRepositories.WriteCondition | include/jdb/database/Repository.hpp:426-428 | one condition, after " AND " unless first |
| CompoundRepositories.WriteModelWhere | include/jdb/database/Repository.hpp:421-435 | one constituent's conditions appended, or the first failure |
| CompoundRepositories.WriteWhere | include/jdb/database/Repository.hpp:421-444 | for_each_where writes the WHERE text |
| CompoundRepositories.WriteNames | include/jdb/database/Repository.hpp:395-419 | for_each_model/for_each_join write the names with the separator |
| CompoundRepositories.OffsetWithin | include/jdb/database/Repository.hpp:380-392 | every constituent's cells lie within the compound's width |
| CompoundRepositories.ConstructionPasses | include/jdb/database/Repository.hpp:341 | constructing the compound passes exactly when every constituent's names are distinct |
| CompoundRepositories.Construction | include/jdb/database/Repository.hpp:341 | a compound whose constituents all have distinct names constructs |
| CompoundRepositories.PartFillFrom | include/jdb/database/Repository.hpp:380-389 | a filled constituent is an instance of its model; a model without fields fails with "No fields available" before any cell is read; otherwise its assignments run one cell at a time (AssignCells) |
| CompoundRepositories.AssignCells | include/jdb/database/Repository.hpp:386-388 | the assignments of the cells inside the row come first, as the run of the cells; only when they all pass does the first assignment past the row's end fail, with ShortRow |
| CompoundRepositories.AssignCellsStep | include/jdb/database/Repository.hpp:387 | while the next cell lies inside the row, the assignments are that cell's assignment (its error, such as "Field 'x' not available") followed by the rest from the next cell |
| CompoundRepositories.PartFill | include/jdb/database/Repository.hpp:341-389 | a freshly filled constituent is an instance of its model; a model without fields fails with "No fields available" |
| CompoundRepositories.FillCompoundParts | include/jdb/database/Repository.hpp:341-392 | a row reads exactly when construction and every constituent's fill pass (so never with a constituent without fields), and then constituent i is its own fill |
| CompoundRepositories.FillCompound | include/jdb/database/Repository.hpp:341-392 | a failing construction is the row's failure; a row that reads gives one instance per constituent |
| CompoundRepositories.FillCompoundSucceeds | include/jdb/database/Repository.hpp:341-392 | a row reads exactly when construction passes and every constituent's fill does |
| CompoundRepositories.PartFillsSucceed | include/jdb/database/Repository.hpp:341-392 | every constituent's fill exists exactly when each one does |
| CompoundRepositories.DefaultPartFills | include/jdb/database/Repository.hpp:341-392 | filling a default compound is filling each constituent from its empty instance |
| CompoundRepositories.AssignRunLonger | include/jdb/database/Repository.hpp:386-388 | a run reads only the cells it steps over |
| CompoundRepositories.PartFillLonger | include/jdb/database/Repository.hpp:386-388 | a constituent's fill reads only its own cells |
| CompoundRepositories.ExtraCellsIgnored | include/jdb/database/Repository.hpp:380-392 | cells past the compound's width are never read |
| CompoundRepositories.CollectedRows | include/jdb/database/Repository.hpp:339-348 | load_all keeps the compound of every row, in row order, with no cap |
| CompoundRepositories.AssignNext | include/jdb/database/Repository.hpp:387 | one assignment advances the run by one cell or fails with its error |
| CompoundRepositories.FillPart | include/jdb/database/Repository.hpp:380-389 | one constituent becomes its fill, the others untouched; on a short row the cells inside it are assigned first, so their errors come before ShortRow |
| CompoundRepositories.AssignAll | include/jdb/database/Repository.hpp:386-388 | the n assignments of a constituent are its run |
| CompoundRepositories.FillNext | include/jdb/database/Repository.hpp:380-392 | one step of for_each_fill_model extends the filled prefix or fails with the first error |
| CompoundRepositories.CompoundRepository.constructor | include/jdb/database/Repository.hpp:314-315 | binds the database and the constituents |
| CompoundRepositories.CompoundRepository.LoadAll | include/jdb/database/Repository.hpp:319-351 | a get_keys error sends nothing; otherwise the join SELECT is sent and every row read |
| CompoundRepositories.CompoundRepository.FillModel | include/jdb/database/Repository.hpp:380-392 | for_each_fill_model leaves each constituent filled from its own cells, or fails with the first error, "No fields available" for a constituent without fields |
| CompoundRepositories.CompoundRepository.ReadRow | include/jdb/database/Repository.hpp:341-343 | the row callback's compound is exactly FillCompound of the row, including its "No fields available" failure |
| CompoundRepositories.CompoundRepository.Update | include/jdb/database/Repository.hpp:353-361 | one transaction updating each constituent, its error as text |
| CompoundRepositories.CompoundRepository.UpdateAll | include/jdb/database/Repository.hpp:363-375 | one transaction updating every constituent of every item |
| Deferred.OpOf | include/jdb/database/Database.hpp:331 | the queued write carries the model and the builder's kind |
| Deferred.BuiltIsFill | include/jdb/database/Database.hpp:327-329 | a values() model is the fill of the empty instance |
| Deferred.BuiltSucceeds | include/jdb/database/Database.hpp:327-329 | building succeeds exactly with distinct model names and declared fields, and the errors say which check failed |
| Deferred.BuiltReadsBack | include/jdb/database/Database.hpp:327-329 | every named field holds its parameter, every other stays null |
| Deferred.Built | include/jdb/database/Database.hpp:326-329 | a built model is an instance of its schema |
| Deferred.EachQueuedInside | include/jdb/database/Database.hpp:318-324 | inside a transaction each queued write becomes one more queued callback, in order |
| Deferred.EachOwnTransaction | include/jdb/database/Database.hpp:318-324 | outside a transaction each write runs in its own transaction until the first failure |
| Deferred.RunEach | include/jdb/database/Database.hpp:318-324 | inside an open transaction the destructor's loop never fails and the transaction stays open |
| Deferred.SoloRequest | include/jdb/database/Database.hpp:320-322 | one write's transaction ends in COMMIT or, on failure, ROLLBACK |
| Deferred.AssignField | include/jdb/database/Database.hpp:329 | one `model[Field] = param` advances the run or fails |
| Deferred.Build | include/jdb/database/Database.hpp:326-329 | the in-place build is Built |
| Deferred.ValueBuilder.constructor | include/jdb/database/Database.hpp:315-316 | nothing queued |
| Deferred.ValueBuilder.Values | include/jdb/database/Database.hpp:326-334 | a built model's write is queued; a failure queues nothing |
| Deferred.ValueBuilder.Finish | include/jdb/database/Database.hpp:318-324 | the destructor runs each queued write as its own transaction request |
| Strings.UnquoteQuoted | include/jdb/database/DataClass.hpp:386-393 | std::quoted loses nothing: unquoting gives the text back |
| Strings.ParseIntToString | include/jdb/database/DataClass.hpp:392 | an integer's decimal text parses back to it |
| Strings.IntToStringInjective | include/jdb/database/DataClass.hpp:392 | distinct integers write distinct text |

## Left out

- The SQLite library: the engine is the `Oracle` parameter (answers as a function of the statements sent before), `getLastInsertRowid` is `oracle.lastRowid`; SQL is never parsed.
- `std::mutex` and the atomic transaction flag: one thread of control is modelled.
- `fmt::format` is modelled by its output only; the `Extras` text of `select` is passed through as given.
- Doubles: a double carries the two texts its renderings produce (`operator<<` and `std::to_string`), so nothing is proved about floating-point text.
- DataClass.Show: ensures nothing about the text of a double, for the reason above.
- Failures of `BEGIN`, `COMMIT` and `ROLLBACK` themselves: the engine is assumed to accept them; they are logged as markers.
- The callback queue of `transaction` grows while `ranges::for_each` walks it, which is undefined behaviour in C++; the model drains it first-in first-out by index.
- The lambdas of `InsertValue`/`UpdateValue`/`RemoveValue` capture `mDb` by reference, and the model assumes the database outlives the builder.
- `remove_by` (its `Data values...` is a C variadic parameter), `drop_ddl`, `fillValues`, `get_database`, the jinject introspection specialisations and the `insert`/`update`/`remove` factory functions are not modelled.
- A compound row shorter than the compound's width is undefined behaviour in the source (the iterators run past the end). The model assigns the cells inside the row as the source does, so a column inside the row that the constituent does not declare is reported first; the first assignment past the end then fails with ShortRow instead of reading past the end.
- The exact text of `std::bad_optional_access::what()` is a constant of the model.
- The destructor of the deferred builders calls `std::terminate` when an exception escapes; the model stops at the first failure and returns it.
- CompoundRepositories.CompoundRepository.LoadAll: returns each compound as the sequence of its constituents rather than as `CompoundModel` objects.
- CompoundRepositories.PartFillFrom: what a filled constituent reads back is stated through Engine.AssignRunIsFill and Engine.FillReadsBack rather than in its own contract.
- Sqlite.TableRun: sends the corrected CREATE TABLE text (Ddl.CreateDdl), not the text as written (Ddl.CreateDdlAsWritten). The two differ only for a model with two or more references, and then perhaps only in the text, since SQLite's grammar also accepts table constraints with no comma between them.
- Sqlite.SqliteDatabase.CreateTable: runs Sqlite.TableRun, so it too sends the corrected text; as above, the difference from the program's text may be only in the text.
- Sqlite.SqliteDatabase.Build: reads the version from the "version" column, as intended. Migrations.BuildRun with `asWritten` set models the code's read of the first column.
- With values, `last_by` orders by "ROWID, field DESC" (include/jdb/database/Repository.hpp:153-163). ROWID sorts first, ascending, so the row it returns is the earliest one that matches. The model sends that text as written (Repositories.EdgeSql) and claims nothing about which row is the "last".
- Engine.Stream: the row loop of `query` has no contract of its own, because it is generic in the callback's state. What it does for each callback is stated by Repositories.CollectBound and CollectRows (select), Repositories.GatherRows (load_by), Repositories.CountReadsFirstCell (count_by), Migrations.ReadVersionFirstRow (the version read) and CompoundRepositories.CollectedRows (the compound load_all).
- Repositories.SelectSql: the one-line format of `select` has no contract of its own; the statements it builds are stated by the rows of the methods that send them.
- Integer widths: `int64_t` cells are a bounded `Int64` type; no arithmetic is done on them.

## Findings

| source | as written | input that shows it | evidently intended | confidence | as-written member | corrected member |
|---|---|---|---|---|---|---|
| include/jdb/database/SqliteDatabase.hpp:152 | `build` sets the version from `values[0]`, whatever column is called "version" | the migracao table answers columns (id, version) with row (1, 5): the version read is 1, so migrations 2 to 5 run again on every build | `values[i]`, the cell of the "version" column. That alone is not the whole fix: with the stored row (1, 0), when no migration has raised the version, the next build reads 0 and sends the bookkeeping INSERT with id 1 again (Migrations.SeedRun), a primary-key clash that the code as written escapes because it reads the id 1 | not executed | Migrations.ScanVersionReadsFirst | Migrations.ScanVersionReadsColumn |
| include/jdb/database/SqliteDatabase.hpp:318-324 | the FOREIGN KEY clauses are written one after another with nothing in between | a model Pet(id, owner, kind) referencing owner(id) and kind(id): "...REFERENCES owner(id)FOREIGN KEY(kind) REFERENCES kind(id));", the clauses run together with no ", " between them. SQLite's grammar accepts table constraints with no comma between them, so the table is probably still created and the difference is probably only in the text | ", " between consecutive clauses, as between the columns | not executed; SQLite's reaction not checked | Ddl.ForeignKeysRunTogether | Ddl.CreateDdlShape |

=== FILE: compound.dfy ===
/*
  CompoundModel<Models...>: one stored instance per constituent model (the
  class inherits from every model it joins), with get<T>() / set<T>(m) for a
  whole constituent, get<T>(id) for one named cell of it, and operator<<,
  which writes "'<name1>': <m1>, '<name2>': <m2>" in declaration order.

  A constituent is addressed by its position among Models...; the library
  addresses it by type, and the types of one compound are distinct.
*/
module Compound {
  import opened Wrappers
  import opened Strings
  import opened DataClass

  // ---------------------------------------------------------------------
  // Printing
  // ---------------------------------------------------------------------

  /** One constituent as operator<< writes it: the model name under
      std::quoted with single quotes, ": ", then the model's to_string. */
  function Piece(m: Record): (r: Result<string>)
    requires m.WellFormed()
    ensures r.Failure? <==> m.schema.fields == []
  {
    match Render(m)
    case Failure(e) => Failure(e)
    case Success(t) => Success(Quoted(m.schema.name, '\'') + ": " + t)
  }

  /** Every constituent is an instance of its model. */
  predicate AllWellFormed(parts: seq<Record>)
  {
    forall i :: 0 <= i < |parts| ==> parts[i].WellFormed()
  }

  /** Every constituent's piece, in declaration order. */
  function Pieces(parts: seq<Record>): (rs: seq<Result<string>>)
    requires AllWellFormed(parts)
    ensures |rs| == |parts|
  {
    seq(|parts|, i requires 0 <= i < |parts| => Piece(parts[i]))
  }

  /** operator<<: the pieces joined by ", "; the first to_string that
      throws ends the output. */
  function Print(parts: seq<Record>): (r: Result<string>)
    requires AllWellFormed(parts)
    ensures r.Success? <==> forall i :: 0 <= i < |parts| ==> parts[i].schema.fields != []
  {
    PiecesSucceed(parts);
    match Firsts(Pieces(parts))
    case Failure(e) => Failure(e)
    case Success(ps) => Success(Join(", ", ps))
  }

  /** The output exists exactly when every constituent has fields, and then
      it is the constituents' pieces joined by ", " in declaration order. */
  lemma PrintSucceeds(parts: seq<Record>)
    requires AllWellFormed(parts)
    ensures Print(parts).Success? <==> forall i :: 0 <= i < |parts| ==> parts[i].schema.fields != []
    ensures Print(parts).Success? ==> exists ps: seq<string> :: (|ps| == |parts|
      && (forall i :: 0 <= i < |parts| ==> ps[i] == Quoted(parts[i].schema.name, '\'') + ": " + Render(parts[i]).value)
      && Print(parts).value == Join(", ", ps))
  {
    var rs := Pieces(parts);
    FirstsSucceed(rs);
    forall i | 0 <= i < |parts| ensures rs[i].Success? <==> parts[i].schema.fields != [] {
      PieceAt(parts, i);
    }
    if Firsts(rs).Success? {
      var ps := Firsts(rs).value;
      forall i | 0 <= i < |parts|
        ensures ps[i] == Quoted(parts[i].schema.name, '\'') + ": " + Render(parts[i]).value
      {
        PieceAt(parts, i);
      }
      assert Print(parts).value == Join(", ", ps);
    }
  }

  /** When the output fails, it is on the first constituent without fields,
      with that model's error. */
  lemma PrintFails(parts: seq<Record>)
    requires AllWellFormed(parts) && Print(parts).Failure?
    ensures exists i :: (0 <= i < |parts| && parts[i].schema.fields == []
      && Print(parts).error == NoFields(parts[i].schema.name)
      && forall j :: 0 <= j < i ==> parts[j].schema.fields != [])
  {
    var rs := Pieces(parts);
    FirstsFailure(rs);
    var i :| 0 <= i < |rs| && rs[i].Failure? && Firsts(rs).error == rs[i].error
      && forall j :: 0 <= j < i ==> rs[j].Success?;
    PieceAt(parts, i);
    assert Print(parts).error == rs[i].error;
    forall j | 0 <= j < i ensures parts[j].schema.fields != [] {
      PieceAt(parts, j);
    }
  }

  /** The pieces all exist exactly when every constituent has fields. */
  lemma PiecesSucceed(parts: seq<Record>)
    requires AllWellFormed(parts)
    ensures Firsts(Pieces(parts)).Success? <==> forall i :: 0 <= i < |parts| ==> parts[i].schema.fields != []
  {
    var rs := Pieces(parts);
    FirstsSucceed(rs);
    forall i | 0 <= i < |parts| ensures rs[i].Success? <==> parts[i].schema.fields != [] {
      PieceAt(parts, i);
    }
  }

  lemma PieceAt(parts: seq<Record>, i: nat)
    requires AllWellFormed(parts) && i < |parts|
    ensures Pieces(parts)[i] == Piece(parts[i])
    ensures Pieces(parts)[i].Failure? <==> parts[i].schema.fields == []
    ensures Pieces(parts)[i].Failure? ==> Pieces(parts)[i].error == NoFields(parts[i].schema.name)
  {
  }

  /** A constituent's name reads back from the front of its piece. */
  lemma PieceNameReadsBack(m: Record)
    requires m.WellFormed() && m.schema.fields != []
    ensures var q := Quoted(m.schema.name, '\'');
      |q| <= |Piece(m).value| && Unquote(Piece(m).value[..|q|], '\'') == Some(m.schema.name)
  {
    var q := Quoted(m.schema.name, '\'');
    assert Piece(m).value[..|q|] == q;
    UnquoteQuoted(m.schema.name, '\'');
  }

  // ---------------------------------------------------------------------
  // The compound instance
  // ---------------------------------------------------------------------

  class CompoundModel {
    /** Models..., in declaration order. */
    const schemas: seq<Schema>
    /** The constituent subobjects, one per model. */
    var parts: seq<Record>

    ghost predicate Valid()
      reads this
    {
      |parts| == |schemas| && AllWellFormed(parts) && forall i :: 0 <= i < |parts| ==> parts[i].schema == schemas[i]
    }

    /** CompoundModel(): every constituent default-constructed (all cells
        null). The constituents' own name checks run before this. */
    constructor Default(ss: seq<Schema>)
      requires forall i :: 0 <= i < |ss| ==> Distinct(FieldNames(ss[i].fields))
      ensures Valid() && schemas == ss
      ensures forall i :: 0 <= i < |parts| ==> parts[i] == Empty(ss[i])
    {
      schemas := ss;
      parts := seq(|ss|, i requires 0 <= i < |ss| => Empty(ss[i]));
    }

    /** CompoundModel(m1, ..., mn): default construction, then set<Ti>(mi)
        for each constituent in turn, so get<Ti>() is mi. */
    constructor (models: seq<Record>)
      requires AllWellFormed(models)
      ensures Valid() && schemas == seq(|models|, i requires 0 <= i < |models| => models[i].schema)
      ensures parts == models
    {
      schemas := seq(|models|, i requires 0 <= i < |models| => models[i].schema);
      parts := seq(|models|, i requires 0 <= i < |models| => Empty(models[i].schema));
      new;
      for i := 0 to |models|
        invariant Valid() && |parts| == |models|
        invariant forall j :: 0 <= j < i ==> parts[j] == models[j]
      {
        Set(i, models[i]);
      }
    }

    /** set<T>(m): the T constituent becomes m, the others stay as they are. */
    method Set(i: nat, m: Record)
      requires m.WellFormed() && Valid() && i < |schemas| && m.schema == schemas[i]
      modifies this
      ensures Valid() && parts == old(parts)[i := m]
    {
      parts := parts[i := m];
    }

    /** get<T>(): the T constituent. */
    function Get(i: nat): (m: Record)
      requires Valid() && i < |schemas|
      reads this
      ensures m.schema == schemas[i] && m.WellFormed()
    {
      parts[i]
    }

    /** get<T>(id): the cell the T constituent's operator[] finds for id. */
    method GetCell(i: nat, id: string) returns (r: Result<Data>)
      requires Valid() && i < |schemas|
      ensures r == Lookup(Get(i), id)
    {
      var m := parts[i];
      var k := IndexOf(m.schema.fields, id, 0);
      if k < 0 {
        r := Failure(NotAvailable(id, m.schema.name));
      } else {
        r := Success(m.cells[k]);
      }
    }

    /** `get<T>(id) = incoming`: T's operator[] and Data::operator=; a name
        T does not declare throws before anything changes. */
    method AssignCell(i: nat, id: string, incoming: Option<Data>) returns (r: Outcome)
      requires Valid() && i < |schemas|
      modifies this
      ensures Valid()
      ensures var w := Write(old(parts)[i], id, incoming);
        && (r.Pass? <==> w.Success?)
        && (r.Fail? ==> r.error == w.error && parts == old(parts))
        && (w.Success? ==> parts == old(parts)[i := w.value])
    {
      var m := parts[i];
      var k := IndexOf(m.schema.fields, id, 0);
      if k < 0 {
        return Fail(NotAvailable(id, m.schema.name));
      }
      var w := Record(m.schema, m.cells[k := Assigned(m.cells[k], incoming)]);
      parts := parts[i := w];
      r := Pass;
    }

    /** operator<<, through the for_each recursion: ", " before every
        constituent but the first. */
    method ToString() returns (r: Result<string>)
      requires Valid()
      ensures r == Print(parts)
    {
      var o := "";
      ghost var rs := Pieces(parts);
      ghost var ps: seq<string> := [];
      EndSlices(rs);
      for i := 0 to |parts|
        invariant Firsts(rs[..i]) == Success(ps)
        invariant o == Written("", ", ", ps)
      {
        var m := parts[i];
        var t := Render(m);
        FirstsStep(rs, i, ps);
        assert rs[i] == Piece(m);
        if t.Failure? {
          r := Failure(t.error);
          assert Firsts(rs[..i + 1]) == Failure(t.error);
          FirstsPrefixFailure(rs, i + 1);
          assert Firsts(rs) == Failure(t.error);
          assert rs == Pieces(parts);
          assert r == Print(parts);
          return;
        }
        var p := Quoted(m.schema.name, '\'') + ": " + t.value;
        assert rs[i] == Success(p);
        JoinStep("", ", ", ps, p, o);
        if i > 0 {
          o := o + ", ";
        }
        o := o + p;
        ps := ps + [p];
      }
      assert Firsts(rs) == Success(ps);
      assert o == Join(", ", ps);
      assert Print(parts) == Success(Join(", ", ps));
      r := Success(o);
    }
  }
}

=== FILE: compound_repository.dfy ===
/*
  Repository<CompoundModel<Models...>> (include/jdb/database/Repository.hpp):
  load_all over the inner join of the constituent tables, and update /
  update_all, which update every constituent through its own repository
  inside one transaction.

  A compound row holds the columns of every constituent side by side
  (SELECT a.*, b.*); each constituent takes as many cells as it has fields,
  from where the previous one stopped.
*/
module CompoundRepositories {
  import opened Wrappers
  import opened Strings
  import opened DataClass
  import opened Engine
  import opened Sqlite
  import opened Compound
  import opened Repositories

  // ---------------------------------------------------------------------
  // The query text
  // ---------------------------------------------------------------------

  function Names(schemas: seq<Schema>): (ns: seq<string>)
    ensures |ns| == |schemas| && forall i :: 0 <= i < |schemas| ==> ns[i] == schemas[i].name
  {
    seq(|schemas|, i requires 0 <= i < |schemas| => schemas[i].name)
  }

  function Stars(schemas: seq<Schema>): (ns: seq<string>)
    ensures |ns| == |schemas| && forall i :: 0 <= i < |schemas| ==> ns[i] == schemas[i].name + ".*"
  {
    seq(|schemas|, i requires 0 <= i < |schemas| => schemas[i].name + ".*")
  }

  /** for_each_model: "<name>.*" for every constituent, joined by ", ". */
  function Selection(schemas: seq<Schema>): string
  {
    Join(", ", Stars(schemas))
  }

  /** for_each_join: the constituent names joined by " INNER JOIN ". */
  function Joined(schemas: seq<Schema>): string
  {
    Join(" INNER JOIN ", Names(schemas))
  }

  /** One join condition of for_each_where: "<model>.<field> = <target>."
      followed by the target's key names, written one after the other with
      nothing in between; the target's get_keys can fail. */
  function JoinCondition(m: Schema, f: Refer): (r: Result<string>)
    ensures r.Failure? <==> KeyFields(f.target).Failure?
    ensures r.Failure? ==> r.error == KeyFields(f.target).error
    ensures r.Success? ==> |r.value| > 0
  {
    match KeyFields(f.target)
    case Failure(e) => Failure(e)
    case Success(ks) => Success(m.name + "." + f.name + " = " + f.target.name + "." + Join("", FieldNames(ks)))
  }

  /** The conditions of one constituent, one per reference, in order. */
  function ModelResults(m: Schema): (rs: seq<Result<string>>)
    ensures |rs| == |m.refers|
  {
    seq(|m.refers|, j requires 0 <= j < |m.refers| => JoinCondition(m, m.refers[j]))
  }

  /** The conditions of every constituent, in declaration order. */
  function ConditionResults(schemas: seq<Schema>): seq<Result<string>>
  {
    if schemas == [] then []
    else ConditionResults(schemas[..|schemas| - 1]) + ModelResults(schemas[|schemas| - 1])
  }

  /** for_each_where: every condition joined by " AND ", or the first
      get_keys error. */
  function WhereOf(schemas: seq<Schema>): Result<string>
  {
    match Firsts(ConditionResults(schemas))
    case Failure(e) => Failure(e)
    case Success(cs) => Success(Join(" AND ", cs))
  }

  /** load_all's text: the WHERE part only when the conditions are not
      empty. */
  function CompoundSql(schemas: seq<Schema>): (r: Result<string>)
    ensures r.Failure? <==> exists k :: 0 <= k < |ConditionResults(schemas)| && ConditionResults(schemas)[k].Failure?
    ensures ConditionResults(schemas) == [] ==> r == Success("SELECT " + Selection(schemas) + " FROM " + Joined(schemas))
  {
    FirstsSucceed(ConditionResults(schemas));
    assert ConditionResults(schemas) == [] ==> WhereOf(schemas) == Success(Join(" AND ", []));
    var base := "SELECT " + Selection(schemas) + " FROM " + Joined(schemas);
    match WhereOf(schemas)
    case Failure(e) => Failure(e)
    case Success(w) => Success(if w == "" then base else base + " WHERE " + w)
  }

  lemma ConditionResultsSnoc(schemas: seq<Schema>, k: nat)
    requires k < |schemas|
    ensures ConditionResults(schemas[..k + 1]) == ConditionResults(schemas[..k]) + ModelResults(schemas[k])
  {
    assert schemas[..k + 1][..k] == schemas[..k];
  }

  /** The conditions of the first k constituents come first. */
  lemma {:induction false} ConditionResultsPrefix(schemas: seq<Schema>, k: nat)
    requires k <= |schemas|
    ensures var pre := ConditionResults(schemas[..k]);
      |pre| <= |ConditionResults(schemas)| && ConditionResults(schemas)[..|pre|] == pre
    decreases |schemas|
  {
    if k == |schemas| {
      assert schemas[..k] == schemas;
    } else {
      var n := |schemas| - 1;
      ConditionResultsPrefix(schemas[..n], k);
      assert schemas[..n][..k] == schemas[..k];
      var pre := ConditionResults(schemas[..k]);
      var mid := ConditionResults(schemas[..n]);
      var last := ModelResults(schemas[n]);
      assert ConditionResults(schemas) == mid + last;
      assert (mid + last)[..|pre|] == mid[..|pre|];
    }
  }

  lemma ConditionResultsFailure(schemas: seq<Schema>, k: nat)
    requires k <= |schemas| && Firsts(ConditionResults(schemas[..k])).Failure?
    ensures WhereOf(schemas) == Failure(Firsts(ConditionResults(schemas[..k])).error)
  {
    var rs := ConditionResults(schemas);
    var pre := ConditionResults(schemas[..k]);
    ConditionResultsPrefix(schemas, k);
    assert rs[..|pre|] == pre;
    FirstsPrefixFailure(rs, |pre|);
  }

  /** There are no conditions exactly when no constituent has references. */
  lemma {:induction false} ConditionResultsEmpty(schemas: seq<Schema>)
    ensures |ConditionResults(schemas)| == 0 <==> forall i :: 0 <= i < |schemas| ==> |schemas[i].refers| == 0
    decreases |schemas|
  {
    if schemas != [] {
      var n := |schemas| - 1;
      ConditionResultsEmpty(schemas[..n]);
      assert forall i :: 0 <= i < n ==> schemas[..n][i] == schemas[i];
    }
  }

  /** A joined list whose last element is not empty is not empty. */
  lemma JoinNotEmpty(sep: string, parts: seq<string>)
    requires |parts| > 0 && |parts[|parts| - 1]| > 0
    ensures |Join(sep, parts)| > 0
  {
  }

  /** The WHERE part is written exactly when some constituent has
      references, and the text fails exactly when some referenced model
      lacks one of its keys. */
  lemma WhereWhenReferences(schemas: seq<Schema>)
    ensures WhereOf(schemas).Success? ==>
      (WhereOf(schemas).value == "" <==> forall i :: 0 <= i < |schemas| ==> |schemas[i].refers| == 0)
    ensures WhereOf(schemas).Failure? <==>
      exists k :: 0 <= k < |ConditionResults(schemas)| && ConditionResults(schemas)[k].Failure?
  {
    var rs := ConditionResults(schemas);
    ConditionResultsEmpty(schemas);
    FirstsSucceed(rs);
    if Firsts(rs).Success? && |rs| > 0 {
      var cs := Firsts(rs).value;
      ConditionResultsAt(schemas, |rs| - 1);
      assert cs[|cs| - 1] == rs[|rs| - 1].value;
      JoinNotEmpty(" AND ", cs);
    }
  }

  /** Every condition names a reference of some constituent. */
  lemma {:induction false} ConditionResultsAt(schemas: seq<Schema>, k: nat)
    requires k < |ConditionResults(schemas)|
    ensures exists i, j :: (0 <= i < |schemas| && 0 <= j < |schemas[i].refers|
      && ConditionResults(schemas)[k] == JoinCondition(schemas[i], schemas[i].refers[j]))
    decreases |schemas|
  {
    var n := |schemas| - 1;
    var pre := ConditionResults(schemas[..n]);
    if k < |pre| {
      ConditionResultsAt(schemas[..n], k);
      var i, j :| 0 <= i < n && 0 <= j < |schemas[..n][i].refers|
        && pre[k] == JoinCondition(schemas[..n][i], schemas[..n][i].refers[j]);
      assert schemas[..n][i] == schemas[i];
      assert ConditionResults(schemas)[k] == pre[k];
    } else {
      var j := k - |pre|;
      assert ConditionResults(schemas)[k] == ModelResults(schemas[n])[j];
    }
  }

  /** The text fails exactly when a referenced model of some constituent
      has a key that is not one of its fields. */
  lemma WhereFailsOnMissingKey(schemas: seq<Schema>)
    ensures WhereOf(schemas).Failure? <==>
      exists i, j :: 0 <= i < |schemas| && 0 <= j < |schemas[i].refers| && KeyFields(schemas[i].refers[j].target).Failure?
  {
    var rs := ConditionResults(schemas);
    WhereWhenReferences(schemas);
    if WhereOf(schemas).Failure? {
      var k :| 0 <= k < |rs| && rs[k].Failure?;
      ConditionResultsAt(schemas, k);
    } else {
      forall i, j | 0 <= i < |schemas| && 0 <= j < |schemas[i].refers|
        ensures KeyFields(schemas[i].refers[j].target).Success?
      {
        ConditionOf(schemas, i, j);
      }
    }
  }

  /** Every reference of every constituent has its condition, after the
      conditions of the constituents before it. */
  lemma ConditionOf(schemas: seq<Schema>, i: nat, j: nat)
    requires i < |schemas| && j < |schemas[i].refers|
    ensures var k := |ConditionResults(schemas[..i])| + j;
      k < |ConditionResults(schemas)| && ConditionResults(schemas)[k] == JoinCondition(schemas[i], schemas[i].refers[j])
  {
    ConditionResultsSnoc(schemas, i);
    ConditionResultsPrefix(schemas, i + 1);
    var pre := ConditionResults(schemas[..i]);
    var upto := ConditionResults(schemas[..i + 1]);
    var all := ConditionResults(schemas);
    var k := |pre| + j;
    assert upto[k] == ModelResults(schemas[i])[j];
    assert all[..|upto|][k] == all[k];
  }

  /** One condition, after " AND " when it is not the first. */
  method WriteCondition(o0: string, ghost ds: seq<string>, sep: bool, c: string) returns (o: string)
    requires o0 == Written("", " AND ", ds) && (sep <==> |ds| > 0)
    ensures o == Written("", " AND ", ds + [c])
  {
    JoinStep("", " AND ", ds, c, o0);
    o := o0;
    if sep {
      o := o + " AND ";
    }
    o := o + c;
  }

  /** One more result of `rs` taken after those of `pre`. */
  lemma FirstsAdvanceAppended<T>(pre: seq<Result<T>>, rs: seq<Result<T>>, j: nat, ds: seq<T>)
    requires j < |rs| && Firsts((pre + rs)[..|pre| + j]) == Success(ds)
    ensures rs[j].Success? ==> Firsts((pre + rs)[..|pre| + j + 1]) == Success(ds + [rs[j].value])
    ensures rs[j].Failure? ==> Firsts(pre + rs) == Failure(rs[j].error)
  {
    assert (pre + rs)[|pre| + j] == rs[j];
    FirstsAdvance(pre + rs, |pre| + j, ds);
  }

  /** The conditions of one constituent, as its get_refers visit writes
      them: " AND " unless this is the very first condition (the Index
      template argument and indexRefers); the first get_keys error ends
      the walk. */
  method WriteModelWhere(o0: string, ghost pre: seq<Result<string>>, ghost cs: seq<string>, index: nat, rs: seq<Result<string>>)
    returns (r: Result<string>)
    requires Firsts(pre) == Success(cs) && o0 == Written("", " AND ", cs) && (index != 0 <==> |cs| > 0)
    ensures var f := Firsts(pre + rs);
      && (f.Failure? ==> r == Failure(f.error))
      && (f.Success? ==> r == Success(Written("", " AND ", f.value)))
  {
    var o := o0;
    ghost var xs := pre + rs;
    ghost var ds := cs;
    var indexRefers: nat := 0;
    assert xs[..|pre|] == pre;
    for j := 0 to |rs|
      invariant Firsts(xs[..|pre| + j]) == Success(ds)
      invariant o == Written("", " AND ", ds)
      invariant |ds| == |pre| + j
      invariant index == 0 ==> indexRefers == j
    {
      var sep: bool;
      if index != 0 {
        sep := true;
      } else {
        sep := indexRefers != 0;
        indexRefers := indexRefers + 1;
      }
      FirstsAdvanceAppended(pre, rs, j, ds);
      if rs[j].Failure? {
        return Failure(rs[j].error);
      }
      var c := rs[j].value;
      o := WriteCondition(o, ds, sep, c);
      ds := ds + [c];
    }
    assert xs[..|xs|] == xs;
    r := Success(o);
  }

  /** for_each_where<0, Models...>(where): the Index argument advances past
      a constituent only when it has references. */
  method WriteWhere(schemas: seq<Schema>) returns (r: Result<string>)
    ensures r == WhereOf(schemas)
  {
    var o := "";
    var index: nat := 0;
    ghost var cs: seq<string> := [];
    EndSlices(schemas);
    for k := 0 to |schemas|
      invariant Firsts(ConditionResults(schemas[..k])) == Success(cs)
      invariant o == Written("", " AND ", cs)
      invariant index != 0 <==> |cs| > 0
    {
      var m := schemas[k];
      ghost var pre := ConditionResults(schemas[..k]);
      ConditionResultsSnoc(schemas, k);
      var w := WriteModelWhere(o, pre, cs, index, ModelResults(m));
      if w.Failure? {
        ConditionResultsFailure(schemas, k + 1);
        return Failure(w.error);
      }
      o := w.value;
      cs := Firsts(pre + ModelResults(m)).value;
      if |m.refers| > 0 {
        index := index + 1;
      }
    }
    assert o == Join(" AND ", cs);
    r := Success(o);
  }

  /** for_each_model and for_each_join: the names, each decorated, with
      `sep` before all but the first. */
  method WriteNames(out: string, sep: string, names: seq<string>) returns (o: string)
    ensures o == Written(out, sep, names)
  {
    o := out;
    EndSlices(names);
    for index := 0 to |names|
      invariant o == Written(out, sep, names[..index])
    {
      SnocSlice(names, index);
      JoinStep(out, sep, names[..index], names[index], o);
      if index != 0 {
        o := o + sep;
      }
      o := o + names[index];
    }
  }

  // ---------------------------------------------------------------------
  // Filling a compound from a row
  // ---------------------------------------------------------------------

  /** The cells of a row run out before the last constituent is filled: the
      next assignment's iterators would run past the end. */
  const ShortRow: string := "Row shorter than the compound model"

  /** Where constituent i starts in the row: the field counts before it. */
  function Offset(schemas: seq<Schema>, i: nat): nat
    requires i <= |schemas|
  {
    if i == 0 then 0 else Offset(schemas, i - 1) + |schemas[i - 1].fields|
  }

  /** The cells the compound takes from a row. */
  function Width(schemas: seq<Schema>): nat
  {
    Offset(schemas, |schemas|)
  }

  lemma {:induction false} OffsetWithin(schemas: seq<Schema>, i: nat)
    requires i < |schemas|
    ensures Offset(schemas, i) + |schemas[i].fields| <= Width(schemas)
    decreases |schemas| - i
  {
    if i + 1 < |schemas| {
      OffsetWithin(schemas, i + 1);
    }
  }

  /** `Model item;` for the compound: every constituent is constructed in
      declaration order, and the first with a repeated field name throws. */
  function Construction(schemas: seq<Schema>): (r: Outcome)
    ensures (forall i :: 0 <= i < |schemas| ==> Distinct(FieldNames(schemas[i].fields))) ==> r == Pass
  {
    if schemas == [] then Pass
    else if !Distinct(FieldNames(schemas[0].fields)) then Fail(DuplicatedFields(schemas[0].name))
    else Construction(schemas[1..])
  }

  lemma {:induction false} ConstructionPasses(schemas: seq<Schema>)
    ensures Construction(schemas).Pass? <==> forall i :: 0 <= i < |schemas| ==> Distinct(FieldNames(schemas[i].fields))
    decreases |schemas|
  {
    if schemas != [] {
      ConstructionPasses(schemas[1..]);
      assert forall i :: 0 < i < |schemas| ==> schemas[i] == schemas[1..][i - 1];
    }
  }

  /** The cells of a row: the shorter of its column and value lists. */
  function RowEnd(row: Row): (end: nat)
    ensures end <= |row.columns| && end <= |row.values|
    ensures end == |row.columns| || end == |row.values|
  {
    if |row.columns| < |row.values| then |row.columns| else |row.values|
  }

  /** The `n` assignments `get<T>(*itColumn++) = *itValue++` of one
      constituent from cell `at` on, on a row that may end before them: the
      assignments of the cells inside the row come first, and when they all
      pass, the first one past the end fails with ShortRow. */
  function AssignCells(m: Record, row: Row, at: nat, n: nat): (r: Result<Record>)
    requires m.WellFormed()
    ensures r.Success? ==> r.value.WellFormed() && r.value.schema == m.schema
    ensures n == 0 ==> r == Success(m)
    ensures at + n <= RowEnd(row) ==> r == AssignRun(m, row, at, n)
    ensures RowEnd(row) <= at && 0 < n ==> r == Failure(ShortRow)
  {
    var end := RowEnd(row);
    if n == 0 then Success(m)
    else if at + n <= end then AssignRun(m, row, at, n)
    else if end <= at then Failure(ShortRow)
    else
      match AssignRun(m, row, at, end - at)
      case Failure(e) => Failure(e)
      case Success(_) => Failure(ShortRow)
  }

  /** The assignments one at a time, as the loop performs them: inside the
      row, the first assignment fails with its "not available" error or
      leaves the rest of the run one cell later. */
  lemma AssignCellsStep(m: Record, row: Row, at: nat, n: nat)
    requires m.WellFormed() && 0 < n && at < RowEnd(row)
    ensures var w := Write(m, row.columns[at], Some(row.values[at]));
      && (w.Failure? ==> AssignCells(m, row, at, n) == Failure(w.error))
      && (w.Success? ==> w.value.WellFormed() && AssignCells(m, row, at, n) == AssignCells(w.value, row, at + 1, n - 1))
  {
    var end := RowEnd(row);
    var w := Write(m, row.columns[at], Some(row.values[at]));
    if at + n > end {
      assert AssignRun(m, row, at, end - at) == match w
        case Failure(e) => Failure(e)
        case Success(m1) => AssignRun(m1, row, at + 1, end - at - 1);
    }
  }

  /** One constituent of for_each_fill_model, from its current instance:
      its field count of cells from `offset` on. Counting the fields of a
      model without fields throws before any cell is read. */
  function PartFillFrom(m: Record, row: Row, offset: nat): (r: Result<Record>)
    requires m.WellFormed()
    ensures r.Success? ==> r.value.WellFormed() && r.value.schema == m.schema
    ensures m.schema.fields == [] ==> r == Failure(NoFields(m.schema.name))
  {
    var n := |m.schema.fields|;
    if n == 0 then Failure(NoFields(m.schema.name))
    else AssignCells(m, row, offset, n)
  }

  /** One constituent of a freshly constructed compound: construction, then
      the fill. */
  function PartFill(s: Schema, row: Row, offset: nat): (r: Result<Record>)
    ensures r.Success? ==> r.value.WellFormed() && r.value.schema == s
    ensures s.fields == [] ==> r == Failure(NoFields(s.name))
  {
    if !Distinct(FieldNames(s.fields)) then Failure(DuplicatedFields(s.name))
    else PartFillFrom(Empty(s), row, offset)
  }

  function PartFills(schemas: seq<Schema>, row: Row): (rs: seq<Result<Record>>)
    ensures |rs| == |schemas|
  {
    seq(|schemas|, i requires 0 <= i < |schemas| => PartFill(schemas[i], row, Offset(schemas, i)))
  }

  /** Every constituent of a compound filled from its current instance. */
  function PartFillsFrom(parts: seq<Record>, schemas: seq<Schema>, row: Row): (rs: seq<Result<Record>>)
    requires AllWellFormed(parts) && |parts| == |schemas|
    ensures |rs| == |parts|
  {
    seq(|parts|, i requires 0 <= i < |parts| => PartFillFrom(parts[i], row, Offset(schemas, i)))
  }

  /** The load_all callback's item: constructed, then filled constituent by
      constituent. */
  function FillCompound(schemas: seq<Schema>, row: Row): (r: Result<seq<Record>>)
    ensures Construction(schemas).Fail? ==> r == Failure(Construction(schemas).error)
    ensures r.Success? ==> |r.value| == |schemas|
  {
    match Construction(schemas)
    case Fail(e) => Failure(e)
    case Pass => Firsts(PartFills(schemas, row))
  }

  /** A row reads exactly when construction passes and every constituent's
      fill does. */
  lemma FillCompoundSucceeds(schemas: seq<Schema>, row: Row)
    ensures FillCompound(schemas, row).Success? <==>
      Construction(schemas).Pass? && forall i :: 0 <= i < |schemas| ==> PartFill(schemas[i], row, Offset(schemas, i)).Success?
  {
    PartFillsSucceed(schemas, row);
  }

  /** Every constituent's fill exists exactly when each one does. */
  lemma PartFillsSucceed(schemas: seq<Schema>, row: Row)
    ensures Firsts(PartFills(schemas, row)).Success? <==>
      forall i :: 0 <= i < |schemas| ==> PartFill(schemas[i], row, Offset(schemas, i)).Success?
  {
    var rs := PartFills(schemas, row);
    FirstsSucceed(rs);
    forall i | 0 <= i < |schemas| ensures rs[i] == PartFill(schemas[i], row, Offset(schemas, i)) {
      PartFillsAt(schemas, row, i);
    }
  }

  lemma PartFillsAt(schemas: seq<Schema>, row: Row, i: nat)
    requires i < |schemas|
    ensures PartFills(schemas, row)[i] == PartFill(schemas[i], row, Offset(schemas, i))
  {
  }

  /** A filled compound holds one instance per constituent, each filled
      from its own cells; it exists exactly when every constituent is
      constructed and filled. */
  lemma FillCompoundParts(schemas: seq<Schema>, row: Row)
    ensures var r := FillCompound(schemas, row);
      && (r.Success? <==> (Construction(schemas).Pass? && forall i :: 0 <= i < |schemas| ==> PartFill(schemas[i], row, Offset(schemas, i)).Success?))
      && (r.Success? ==>
            |r.value| == |schemas| && AllWellFormed(r.value)
            && forall i :: 0 <= i < |schemas| ==> Success(r.value[i]) == PartFill(schemas[i], row, Offset(schemas, i)) && r.value[i].schema == schemas[i])
  {
    var rs := PartFills(schemas, row);
    forall i | 0 <= i < |schemas| ensures rs[i] == PartFill(schemas[i], row, Offset(schemas, i)) {
      PartFillsAt(schemas, row, i);
    }
    FirstsSucceed(rs);
  }

  /** Filling a default-constructed compound is filling each constituent
      from its empty instance. */
  lemma DefaultPartFills(schemas: seq<Schema>, row: Row)
    requires forall i :: 0 <= i < |schemas| ==> Distinct(FieldNames(schemas[i].fields))
    ensures var parts := seq(|schemas|, i requires 0 <= i < |schemas| => Empty(schemas[i]));
      AllWellFormed(parts) && PartFillsFrom(parts, schemas, row) == PartFills(schemas, row)
  {
    var parts := seq(|schemas|, i requires 0 <= i < |schemas| => Empty(schemas[i]));
    var a := PartFillsFrom(parts, schemas, row);
    var b := PartFills(schemas, row);
    forall i | 0 <= i < |schemas| ensures a[i] == b[i] {
      PartFillsAt(schemas, row, i);
    }
  }

  /** The run reads only the cells it steps over. */
  lemma {:induction false} AssignRunLonger(m: Record, row: Row, longer: Row, at: nat, n: nat)
    requires m.WellFormed() && at + n <= |row.columns| && at + n <= |row.values|
    requires at + n <= |longer.columns| && at + n <= |longer.values|
    requires forall k :: at <= k < at + n ==> longer.columns[k] == row.columns[k] && longer.values[k] == row.values[k]
    decreases n
    ensures AssignRun(m, longer, at, n) == AssignRun(m, row, at, n)
  {
    if n > 0 {
      assert longer.columns[at] == row.columns[at] && longer.values[at] == row.values[at];
      var w := Write(m, row.columns[at], Some(row.values[at]));
      if w.Success? {
        AssignRunLonger(w.value, row, longer, at + 1, n - 1);
      }
    }
  }

  lemma PartFillLonger(s: Schema, row: Row, longer: Row, offset: nat)
    requires offset + |s.fields| <= |row.columns| && offset + |s.fields| <= |row.values|
    requires offset + |s.fields| <= |longer.columns| && offset + |s.fields| <= |longer.values|
    requires forall k :: offset <= k < offset + |s.fields| ==> longer.columns[k] == row.columns[k] && longer.values[k] == row.values[k]
    ensures PartFill(s, longer, offset) == PartFill(s, row, offset)
  {
    if Distinct(FieldNames(s.fields)) {
      AssignRunLonger(Empty(s), row, longer, offset, |s.fields|);
    }
  }

  /** Cells after the compound's width are never read. */
  lemma ExtraCellsIgnored(schemas: seq<Schema>, row: Row, columns: seq<string>, values: seq<Data>)
    requires Width(schemas) <= |row.columns| && Width(schemas) <= |row.values|
    ensures FillCompound(schemas, Row(row.columns + columns, row.values + values)) == FillCompound(schemas, row)
  {
    var longer := Row(row.columns + columns, row.values + values);
    var a := PartFills(schemas, longer);
    var b := PartFills(schemas, row);
    forall i | 0 <= i < |schemas| ensures a[i] == b[i] {
      OffsetWithin(schemas, i);
      assert forall k :: 0 <= k < |row.columns| ==> longer.columns[k] == row.columns[k];
      assert forall k :: 0 <= k < |row.values| ==> longer.values[k] == row.values[k];
      PartFillsAt(schemas, longer, i);
      PartFillsAt(schemas, row, i);
      PartFillLonger(schemas[i], row, longer, Offset(schemas, i));
    }
    assert a == b;
  }

  /** load_all's callback: the compound of every row is kept. */
  function Collected(schemas: seq<Schema>, items: seq<seq<Record>>, row: Row): Result<(seq<seq<Record>>, bool)>
  {
    match FillCompound(schemas, row)
    case Failure(e) => Failure(e)
    case Success(ps) => Success((items + [ps], true))
  }

  function CollectedStep(schemas: seq<Schema>): (seq<seq<Record>>, Row) -> Result<(seq<seq<Record>>, bool)>
  {
    (items, row) => Collected(schemas, items, row)
  }

  /** A compound row read into its constituents. */
  function Compounded(schemas: seq<Schema>, columns: seq<string>, row: seq<NativeCell>): Option<seq<Record>>
  {
    match ClassifyRow(row)
    case Failure(_) => None
    case Success(values) =>
      match FillCompound(schemas, Row(columns, values))
      case Failure(_) => None
      case Success(ps) => Some(ps)
  }

  predicate AllCompound(schemas: seq<Schema>, columns: seq<string>, rows: seq<seq<NativeCell>>)
  {
    forall row :: row in rows ==> Compounded(schemas, columns, row).Some?
  }

  /** The compounds of the rows, in row order. */
  function CompoundRows(schemas: seq<Schema>, columns: seq<string>, rows: seq<seq<NativeCell>>): (ps: seq<seq<Record>>)
    requires AllCompound(schemas, columns, rows)
    ensures |ps| == |rows|
  {
    if rows == [] then []
    else
      assert rows[0] in rows;
      assert forall row :: row in rows[1..] ==> row in rows;
      [Compounded(schemas, columns, rows[0]).value] + CompoundRows(schemas, columns, rows[1..])
  }

  /** load_all keeps the compound of every row, in row order, with no cap. */
  lemma {:induction false} CollectedRows(schemas: seq<Schema>, columns: seq<string>, rows: seq<seq<NativeCell>>, items: seq<seq<Record>>)
    requires AllCompound(schemas, columns, rows)
    ensures Stream(columns, rows, items, CollectedStep(schemas)) == Success(items + CompoundRows(schemas, columns, rows))
    decreases |rows|
  {
    if rows == [] {
      assert items + CompoundRows(schemas, columns, rows) == items;
    } else {
      assert rows[0] in rows;
      assert forall row :: row in rows[1..] ==> row in rows;
      var values := ClassifyRow(rows[0]).value;
      var ps := Compounded(schemas, columns, rows[0]).value;
      assert Collected(schemas, items, Row(columns, values)) == Success((items + [ps], true));
      CollectedRows(schemas, columns, rows[1..], items + [ps]);
      AppendAssoc(items, [ps], CompoundRows(schemas, columns, rows[1..]));
    }
  }

  // ---------------------------------------------------------------------
  // Updates
  // ---------------------------------------------------------------------

  function UpdateOps(parts: seq<Record>): (ops: seq<WriteOp>)
    requires AllWellFormed(parts)
    ensures |ops| == |parts|
  {
    seq(|parts|, i requires 0 <= i < |parts| => UpdateOp(parts[i]))
  }

  /** The constituents of every item, item after item. */
  function AllParts(items: seq<CompoundModel>): (ps: seq<Record>)
    requires forall i :: 0 <= i < |items| ==> items[i].Valid()
    reads items
    ensures AllWellFormed(ps)
  {
    if items == [] then []
    else
      var init := AllParts(items[..|items| - 1]);
      var last := items[|items| - 1].parts;
      assert items[|items| - 1].Valid();
      AllWellFormedAppend(init, last);
      init + last
  }

  lemma AllWellFormedAppend(a: seq<Record>, b: seq<Record>)
    requires AllWellFormed(a) && AllWellFormed(b)
    ensures AllWellFormed(a + b)
  {
    assert forall i :: 0 <= i < |a + b| ==> (a + b)[i] == if i < |a| then a[i] else b[i - |a|];
  }

  /** One `get<T>(*itColumn++) = *itValue++` of a run of `n` left: the
      run that remains starts one cell later, or the run fails here. */
  method AssignNext(item: CompoundModel, i: nat, row: Row, at: nat, n: nat) returns (r: Outcome)
    requires item.Valid() && i < |item.schemas| && 0 < n
    requires at + n <= |row.columns| && at + n <= |row.values|
    modifies item
    ensures item.Valid() && item.parts == old(item.parts)[i := item.parts[i]]
    ensures r.Fail? ==> AssignRun(old(item.parts)[i], row, at, n) == Failure(r.error)
    ensures r.Pass? ==> AssignRun(old(item.parts)[i], row, at, n) == AssignRun(item.parts[i], row, at + 1, n - 1)
  {
    r := item.AssignCell(i, row.columns[at], Some(row.values[at]));
  }

  /** The loop of for_each_fill_model for constituent i: as many
      assignments `get<T>(*itColumn++) = *itValue++` as T has fields,
      starting at cell `at`. A model without fields fails when its fields
      are counted. On a row too short for them, the assignments of the
      cells inside the row run first, and the first one past the end
      fails. */
  method FillPart(item: CompoundModel, i: nat, row: Row, at: nat) returns (r: Outcome)
    requires item.Valid() && i < |item.schemas|
    modifies item
    ensures item.Valid() && item.parts == old(item.parts)[i := item.parts[i]]
    ensures r == Status(PartFillFrom(old(item.parts)[i], row, at))
    ensures r.Pass? ==> Success(item.parts[i]) == PartFillFrom(old(item.parts)[i], row, at)
  {
    var n := |item.parts[i].schema.fields|;
    if n == 0 {
      return Fail(NoFields(item.parts[i].schema.name));
    }
    var end := RowEnd(row);
    if at + n <= end {
      r := AssignAll(item, i, row, at, n);
    } else if end <= at {
      r := Fail(ShortRow);
    } else {
      r := AssignAll(item, i, row, at, end - at);
      if r.Pass? {
        r := Fail(ShortRow);
      }
    }
  }

  /** `n` assignments into constituent i from cell `at` on, stopping at the
      first that throws. */
  method AssignAll(item: CompoundModel, i: nat, row: Row, at: nat, n: nat) returns (r: Outcome)
    requires item.Valid() && i < |item.schemas|
    requires at + n <= |row.columns| && at + n <= |row.values|
    modifies item
    ensures item.Valid() && item.parts == old(item.parts)[i := item.parts[i]]
    ensures r == Status(AssignRun(old(item.parts)[i], row, at, n))
    ensures r.Pass? ==> Success(item.parts[i]) == AssignRun(old(item.parts)[i], row, at, n)
  {
    ghost var goal := AssignRun(item.parts[i], row, at, n);
    var pos, left := at, n;
    while left > 0
      invariant pos + left == at + n
      invariant item.Valid()
      invariant item.parts == old(item.parts)[i := item.parts[i]]
      invariant goal == AssignRun(item.parts[i], row, pos, left)
    {
      r := AssignNext(item, i, row, pos, left);
      if r.Fail? {
        return;
      }
      pos, left := pos + 1, left - 1;
    }
    r := Pass;
  }

  /** One constituent of for_each_fill_model, as a step of the fill of
      the whole compound: the results so far are the constituents before
      i, and `rs` are the fills of all of them. */
  method FillNext(item: CompoundModel, i: nat, row: Row, at: nat, ghost rs: seq<Result<Record>>) returns (r: Outcome)
    requires item.Valid() && i < |item.schemas| && i < |rs|
    requires rs[i] == PartFillFrom(item.parts[i], row, at)
    requires Firsts(rs[..i]) == Success(item.parts[..i])
    modifies item
    ensures item.Valid() && item.parts == old(item.parts)[i := item.parts[i]]
    ensures r.Fail? ==> Firsts(rs) == Failure(r.error)
    ensures r.Pass? ==> Firsts(rs[..i + 1]) == Success(item.parts[..i + 1])
  {
    ghost var done := item.parts[..i];
    r := FillPart(item, i, row, at);
    FirstsAdvance(rs, i, done);
    if r.Pass? {
      assert item.parts[..i + 1] == done + [item.parts[i]];
    }
  }

  // ---------------------------------------------------------------------
  // The repository of a compound model
  // ---------------------------------------------------------------------

  class CompoundRepository {
    const db: SqliteDatabase
    /** Models..., in declaration order. */
    const schemas: seq<Schema>

    constructor (db: SqliteDatabase, schemas: seq<Schema>)
      ensures this.db == db && this.schemas == schemas
    {
      this.db := db;
      this.schemas := schemas;
    }

    /** load_all(): the join of every constituent table, each row read into
        its constituents; a get_keys error stops it before the query. */
    method LoadAll() returns (r: Result<seq<seq<Record>>>)
      modifies db
      ensures CompoundSql(schemas).Failure? ==> r == Failure(CompoundSql(schemas).error) && db.log == old(db.log)
      ensures CompoundSql(schemas).Success? ==>
        && db.log == old(db.log) + [CompoundSql(schemas).value]
        && r == QueryResult(db.oracle.respond(old(db.log), CompoundSql(schemas).value),
                            CompoundSql(schemas).value, [], CollectedStep(schemas))
      ensures db.inTransaction == old(db.inTransaction) && db.pending == old(db.pending) && db.migrations == old(db.migrations)
    {
      var o := WriteNames("SELECT ", ", ", Stars(schemas));
      o := o + " FROM ";
      o := WriteNames(o, " INNER JOIN ", Names(schemas));
      var where := WriteWhere(schemas);
      if where.Failure? {
        return Failure(where.error);
      }
      if where.value != "" {
        o := o + " WHERE " + where.value;
      }
      assert o == CompoundSql(schemas).value;
      r := db.QueryString(o, [], CollectedStep(schemas));
    }

    /** for_each_fill_model(item, columns, values): each constituent in
        declaration order takes the next cells of the row; the first
        failing assignment ends the fill. */
    method FillModel(item: CompoundModel, row: Row) returns (r: Outcome)
      requires item.Valid() && item.schemas == schemas
      modifies item
      ensures item.Valid()
      ensures r == Status(Firsts(PartFillsFrom(old(item.parts), schemas, row)))
      ensures r.Pass? ==> Success(item.parts) == Firsts(PartFillsFrom(old(item.parts), schemas, row))
    {
      ghost var orig := item.parts;
      ghost var rs := PartFillsFrom(orig, schemas, row);
      var at := 0;
      var i := 0;
      EndSlices(rs);
      EndSlices(orig);
      while i < |schemas|
        invariant i <= |schemas| && item.Valid() && at == Offset(schemas, i)
        invariant forall j :: i <= j < |schemas| ==> item.parts[j] == orig[j]
        invariant Firsts(rs[..i]) == Success(item.parts[..i])
      {
        assert rs[i] == PartFillFrom(item.parts[i], row, at);
        r := FillNext(item, i, row, at, rs);
        if r.Fail? {
          return;
        }
        at := at + |schemas[i].fields|;
        i := i + 1;
      }
      EndSlices(item.parts);
      r := Pass;
    }

    /** load_all's `Model item;` and fill for one row: the compound is
        default-constructed (a constituent with repeated field names
        throws), then filled by for_each_fill_model. */
    method ReadRow(row: Row) returns (r: Result<CompoundModel>)
      ensures var f := FillCompound(schemas, row);
        && (r.Success? <==> f.Success?)
        && (r.Failure? ==> r.error == f.error)
        && (r.Success? ==> r.value.Valid() && r.value.schemas == schemas && r.value.parts == f.value)
    {
      var c := Construction(schemas);
      if c.Fail? {
        return Failure(c.error);
      }
      ConstructionPasses(schemas);
      var item := new CompoundModel.Default(schemas);
      DefaultPartFills(schemas, row);
      assert item.parts == seq(|schemas|, i requires 0 <= i < |schemas| => Empty(schemas[i]));
      var o := FillModel(item, row);
      if o.Fail? {
        return Failure(o.error);
      }
      r := Success(item);
    }

    /** update(item): one transaction whose callback updates every
        constituent through its repository, each error caught there; the
        transaction's own error is returned as text. */
    method Update(item: CompoundModel) returns (r: Option<string>)
      requires item.Valid()
      modifies db
      ensures var e := Req(db.oracle, old(db.State()), Caught(UpdateOps(item.parts)));
        db.State() == e.0 && r == Message(e.1)
      ensures db.migrations == old(db.migrations)
    {
      var e := db.Transaction(Caught(UpdateOps(item.parts)));
      r := Message(e);
    }

    /** update_all(items): the same, for every item in one callback. */
    method UpdateAll(items: seq<CompoundModel>) returns (r: Option<string>)
      requires forall i :: 0 <= i < |items| ==> items[i].Valid()
      modifies db
      ensures var e := Req(db.oracle, old(db.State()), Caught(UpdateOps(AllParts(items))));
        db.State() == e.0 && r == Message(e.1)
      ensures db.migrations == old(db.migrations)
    {
      var e := db.Transaction(Caught(UpdateOps(AllParts(items))));
      r := Message(e);
    }
  }
}

=== FILE: data_class.dfy ===
/** Schema declarations, the value cell and model instances
    (include/jdb/database/DataClass.hpp and its copy src/database/DataClass.hpp).

    In the library a model is a class template
    `DataClass<Name, Primary<Keys...>, Foreign<Refers...>, Fields...>`; here the
    template arguments become a runtime `Schema` value, and an instance of the
    model (its `std::array<Data, N>` of cells) becomes a `Record` value, or a
    `Model` object when it is updated in place. */
module DataClass {
  import opened Wrappers
  import opened Strings

  // ---------------------------------------------------------------------
  // Declarations
  // ---------------------------------------------------------------------

  datatype FieldType = Serial | Bool | Int | Decimal | Text | Timestamp

  /** Field<Name, Type, Nullable, Default>. */
  datatype Field = Field(name: string, kind: FieldType, nullable: bool, defaultValue: Option<string>)

  /** Refer<T, Field>: the local field `name` references the model `target`. */
  datatype Refer = Refer(name: string, target: Schema)

  /** DataClass<Name, Primary<keys...>, Foreign<refers...>, fields...>. */
  datatype Schema = Schema(name: string, fields: seq<Field>, keys: seq<string>, refers: seq<Refer>)

  function FieldNames(fields: seq<Field>): (names: seq<string>)
    ensures |names| == |fields|
    ensures forall i :: 0 <= i < |fields| ==> names[i] == fields[i].name
  {
    if fields == [] then [] else [fields[0].name] + FieldNames(fields[1..])
  }

  function ReferNames(refers: seq<Refer>): (names: seq<string>)
    ensures |names| == |refers|
    ensures forall i :: 0 <= i < |refers| ==> names[i] == refers[i].name
  {
    if refers == [] then [] else [refers[0].name] + ReferNames(refers[1..])
  }

  predicate Distinct(names: seq<string>)
  {
    forall i, j :: 0 <= i < j < |names| ==> names[i] != names[j]
  }

  // ---------------------------------------------------------------------
  // The value cell: std::variant<nullptr_t, bool, int64_t, double, string>
  // ---------------------------------------------------------------------

  /** A double is not computed with anywhere in the library, only compared
      and written out; it is kept as the two texts the library can write for
      it: `out << d` and std::to_string(d). */
  datatype Double = Double(streamed: string, fixed: string)

  /** `Data`; a default-constructed cell holds the null alternative. */
  datatype Data = NullValue | BoolValue(b: bool) | IntValue(i: Int64) | DecimalValue(d: Double) | TextValue(s: string)

  predicate IsNull(d: Data)
  {
    d.NullValue?
  }

  /** get_int: the payload of an int64 cell, none for every other alternative. */
  function GetInt(d: Data): (r: Option<Int64>)
    ensures r.Some? <==> d.IntValue?
    ensures r.Some? ==> r.value == d.i
  {
    match d
    case IntValue(i) => Some(i)
    case _ => None
  }

  /** get_decimal: the payload of a double cell, none otherwise. */
  function GetDecimal(d: Data): (r: Option<Double>)
    ensures r.Some? <==> d.DecimalValue?
    ensures r.Some? ==> r.value == d.d
  {
    match d
    case DecimalValue(x) => Some(x)
    case _ => None
  }

  /** get_text: the payload of a string cell, none otherwise. */
  function GetText(d: Data): (r: Option<string>)
    ensures r.Some? <==> d.TextValue?
    ensures r.Some? ==> r.value == d.s
  {
    match d
    case TextValue(s) => Some(s)
    case _ => None
  }

  /** get_bool is get_int followed by a conversion to bool, so it answers
      only for int64 cells: a cell that holds a bool gives none. */
  function GetBool(d: Data): (r: Option<bool>)
    ensures r.Some? <==> d.IntValue?
    ensures d.BoolValue? ==> r.None?
    ensures r.Some? ==> r.value == (d.i != 0)
  {
    match GetInt(d)
    case None => None
    case Some(v) => Some(v != 0)
  }

  /** operator==: the variants compare equal when they hold the same
      alternative with equal payloads. */
  function Equals(a: Data, b: Data): (r: bool)
    ensures r <==> a == b
  {
    match (a, b)
    case (NullValue, NullValue) => true
    case (BoolValue(x), BoolValue(y)) => x == y
    case (IntValue(x), IntValue(y)) => x == y
    case (DecimalValue(x), DecimalValue(y)) => x == y
    case (TextValue(x), TextValue(y)) => x == y
    case _ => false
  }

  /** The cell after `cell = incoming`. A plain value is `Some(value)`; an
      empty std::optional (`None`) leaves the cell as it was. */
  function Assigned(cell: Data, incoming: Option<Data>): (r: Data)
    ensures incoming.None? ==> r == cell
    ensures incoming.Some? ==> r == incoming.value
  {
    match incoming
    case None => cell
    case Some(v) => v
  }

  /** `out << data` for a cell: nothing for null, true/false, decimal
      integers, std::to_string for doubles and the raw text. */
  function Show(d: Data): (r: string)
    ensures d.NullValue? ==> r == ""
    ensures d.BoolValue? ==> r == (if d.b then "true" else "false")
    ensures d.IntValue? ==> IntText(r) && ParseInt(r) == d.i
    ensures d.TextValue? ==> r == d.s
  {
    match d
    case NullValue => ""
    case BoolValue(b) => if b then "true" else "false"
    case IntValue(i) => ParseIntToString(i); IntToString(i)
    case DecimalValue(x) => x.fixed
    case TextValue(s) => s
  }

  // ---------------------------------------------------------------------
  // Duplicate-name checks of the Primary, Foreign and DataClass constructors
  // ---------------------------------------------------------------------

  /** The order std::sort uses on std::string_view: lexicographic by char. */
  predicate LexLe(a: string, b: string)
  {
    a == [] || (b != [] && (a[0] < b[0] || (a[0] == b[0] && LexLe(a[1..], b[1..]))))
  }

  lemma {:induction false} LexLeTotal(a: string, b: string)
    ensures LexLe(a, b) || LexLe(b, a)
  {
    if a != [] && b != [] && a[0] == b[0] {
      LexLeTotal(a[1..], b[1..]);
    }
  }

  lemma {:induction false} LexLeAntisymmetric(a: string, b: string)
    requires LexLe(a, b) && LexLe(b, a)
    ensures a == b
  {
    if a != [] && b != [] {
      LexLeAntisymmetric(a[1..], b[1..]);
      assert a == [a[0]] + a[1..] && b == [b[0]] + b[1..];
    }
  }

  lemma {:induction false} LexLeTransitive(a: string, b: string, c: string)
    requires LexLe(a, b) && LexLe(b, c)
    ensures LexLe(a, c)
  {
    if a != [] && a[0] == b[0] && b[0] == c[0] {
      LexLeTransitive(a[1..], b[1..], c[1..]);
    }
  }

  predicate Sorted(s: seq<string>)
  {
    forall i :: 0 <= i < |s| - 1 ==> LexLe(s[i], s[i + 1])
  }

  /** `x` placed after the last element of the sorted `s` that does not
      exceed it. */
  function Insert(x: string, s: seq<string>): (r: seq<string>)
    ensures |r| == |s| + 1
  {
    if s == [] then [x]
    else if LexLe(s[|s| - 1], x) then s + [x]
    else Insert(x, s[..|s| - 1]) + [s[|s| - 1]]
  }

  /** The sorted arrangement of the names: the result std::sort leaves in
      the local array. */
  function SortNames(s: seq<string>): (r: seq<string>)
    ensures |r| == |s|
  {
    if s == [] then [] else Insert(s[|s| - 1], SortNames(s[..|s| - 1]))
  }

  lemma {:induction false} InsertMembers(x: string, s: seq<string>, y: string)
    ensures y in Insert(x, s) <==> y == x || y in s
  {
    if s != [] && !LexLe(s[|s| - 1], x) {
      var p := s[..|s| - 1];
      InsertMembers(x, p, y);
      assert s == p + [s[|s| - 1]];
    }
  }

  lemma {:induction false} InsertLast(x: string, s: seq<string>)
    ensures var r := Insert(x, s); r[|r| - 1] == x || (s != [] && r[|r| - 1] == s[|s| - 1])
  {
  }

  lemma {:induction false} InsertSorted(x: string, s: seq<string>)
    requires Sorted(s)
    ensures Sorted(Insert(x, s))
  {
    if s != [] {
      var l := s[|s| - 1];
      var p := s[..|s| - 1];
      assert Sorted(p);
      LexLeTotal(l, x);
      if LexLe(l, x) {
        var r := s + [x];
        assert forall i :: 0 <= i < |s| ==> r[i] == s[i];
      } else {
        InsertSorted(x, p);
        var t := Insert(x, p);
        InsertLast(x, p);
        if p != [] {
          assert LexLe(p[|p| - 1], l);
        }
        var r := t + [l];
        assert forall i :: 0 <= i < |t| ==> r[i] == t[i];
      }
    }
  }

  lemma {:induction false} SortNamesSorted(s: seq<string>)
    ensures Sorted(SortNames(s))
  {
    if s != [] {
      SortNamesSorted(s[..|s| - 1]);
      InsertSorted(s[|s| - 1], SortNames(s[..|s| - 1]));
    }
  }

  lemma {:induction false} SortNamesMembers(s: seq<string>, y: string)
    ensures y in SortNames(s) <==> y in s
  {
    if s != [] {
      var p := s[..|s| - 1];
      SortNamesMembers(p, y);
      InsertMembers(s[|s| - 1], SortNames(p), y);
      assert s == p + [s[|s| - 1]];
    }
  }

  lemma DistinctSnoc(s: seq<string>, a: string)
    ensures Distinct(s + [a]) <==> a !in s && Distinct(s)
  {
    var t := s + [a];
    if a !in s && Distinct(s) {
      forall i, j | 0 <= i < j < |t| ensures t[i] != t[j] {
        assert t[i] == s[i];
        if j < |s| {
          assert t[j] == s[j];
        }
      }
    }
    if Distinct(t) {
      forall i, j | 0 <= i < j < |s| ensures s[i] != s[j] {
        assert s[i] == t[i] && s[j] == t[j];
      }
      forall k | 0 <= k < |s| ensures s[k] != a {
        assert t[|s|] == a && t[k] == s[k];
      }
    }
  }

  lemma {:induction false} InsertDistinct(x: string, s: seq<string>)
    ensures Distinct(Insert(x, s)) <==> x !in s && Distinct(s)
  {
    if s == [] {
    } else {
      var l := s[|s| - 1];
      var p := s[..|s| - 1];
      assert s == p + [l];
      DistinctSnoc(p, l);
      if LexLe(l, x) {
        DistinctSnoc(s, x);
      } else {
        InsertDistinct(x, p);
        DistinctSnoc(Insert(x, p), l);
        InsertMembers(x, p, l);
      }
    }
  }

  lemma {:induction false} SortNamesDistinct(s: seq<string>)
    ensures Distinct(SortNames(s)) <==> Distinct(s)
  {
    if s != [] {
      var p, x := s[..|s| - 1], s[|s| - 1];
      var sp := SortNames(p);
      assert SortNames(s) == Insert(x, sp);
      SortNamesDistinct(p);
      InsertDistinct(x, sp);
      SortNamesMembers(p, x);
      assert s == p + [x];
      DistinctSnoc(p, x);
    }
  }

  lemma {:induction false} SortedChain(s: seq<string>, i: nat, j: nat)
    requires Sorted(s) && i <= j < |s|
    ensures LexLe(s[i], s[j])
    decreases j - i
  {
    if i == j {
      LexLeTotal(s[i], s[i]);
    } else {
      SortedChain(s, i + 1, j);
      LexLeTransitive(s[i], s[i + 1], s[j]);
    }
  }

  /** After sorting, a repeated name has a copy right next to it: this is
      what std::unique detects. */
  lemma AdjacentDuplicate(s: seq<string>)
    requires Sorted(s)
    ensures Distinct(s) <==> forall k :: 0 < k < |s| ==> s[k - 1] != s[k]
  {
    if !Distinct(s) {
      var i, j :| 0 <= i < j < |s| && s[i] == s[j];
      SortedChain(s, i + 1, j);
      LexLeAntisymmetric(s[i], s[i + 1]);
      assert s[i] == s[i + 1];
    }
  }

  /** Where the shift loop stops: after the elements that sort after `x`,
      at one that does not; `x` goes there. */
  lemma {:induction false} InsertAt(x: string, s: seq<string>, j: nat)
    requires j <= |s| && (j == 0 || LexLe(s[j - 1], x))
    requires forall k :: j <= k < |s| ==> !LexLe(s[k], x)
    ensures Insert(x, s) == s[..j] + [x] + s[j..]
    decreases |s|
  {
    if j == |s| {
      assert s[..j] == s && s[j..] == [];
    } else {
      var n := |s| - 1;
      var p := s[..n];
      assert forall k :: j <= k < |p| ==> p[k] == s[k];
      InsertAt(x, p, j);
      assert p[..j] == s[..j];
      AppendAssoc(p[..j] + [x], p[j..], [s[n]]);
      assert p[j..] + [s[n]] == s[j..];
    }
  }

  /** One pass of the insertion sort: the element at `i` moves down into
      the sorted prefix before it. */
  method InsertInPlace(a: array<string>, i: nat)
    requires i < a.Length
    modifies a
    ensures a[..i + 1] == Insert(old(a[i]), old(a[..i]))
    ensures forall k :: i < k < a.Length ==> a[k] == old(a[k])
  {
    var x := a[i];
    ghost var s := a[..i];
    var j := i;
    while j > 0 && !LexLe(a[j - 1], x)
      invariant 0 <= j <= i
      invariant forall k :: 0 <= k < j ==> a[k] == s[k]
      invariant forall k :: j < k <= i ==> a[k] == s[k - 1]
      invariant forall k :: i < k < a.Length ==> a[k] == old(a[k])
      invariant forall k :: j <= k < i ==> !LexLe(s[k], x)
    {
      assert a[j - 1] == s[j - 1];
      a[j] := a[j - 1];
      j := j - 1;
    }
    InsertAt(x, s, j);
    a[j] := x;
    InsertedAt(a[..i + 1], s, j, x);
  }

  /** std::sort over the local array, as an insertion sort: the array ends
      up holding the sorted arrangement of what it held. */
  method SortInPlace(a: array<string>)
    modifies a
    ensures a[..] == SortNames(old(a[..]))
  {
    ghost var original := a[..];
    var i := 0;
    while i < a.Length
      invariant 0 <= i <= a.Length
      invariant a[..i] == SortNames(original[..i])
      invariant forall k :: i <= k < a.Length ==> a[k] == original[k]
    {
      InsertInPlace(a, i);
      assert original[..i + 1][..i] == original[..i];
      i := i + 1;
    }
    assert a[..] == a[..a.Length] && original == original[..a.Length];
  }

  /** std::unique's verdict: does some element equal its left neighbour? */
  method FindAdjacent(a: array<string>) returns (dup: bool)
    ensures dup <==> exists k :: 0 < k < a.Length && a[k - 1] == a[k]
  {
    dup := false;
    var k := 1;
    while k < a.Length && !dup
      invariant 1 <= k
      invariant forall m :: 0 < m < k && m < a.Length ==> a[m - 1] != a[m]
      invariant dup ==> k < a.Length && a[k - 1] == a[k]
      decreases a.Length - k, !dup
    {
      if a[k - 1] == a[k] {
        dup := true;
      } else {
        k := k + 1;
      }
    }
  }

  /** std::sort followed by std::unique on a local array of the names: a
      duplicate exists exactly when unique does not return the end. */
  method HasDuplicate(names: seq<string>) returns (dup: bool)
    ensures dup <==> !Distinct(names)
  {
    var a := new string[|names|];
    for i := 0 to |names|
      invariant a[..i] == names[..i]
    {
      a[i] := names[i];
    }
    assert a[..] == names;
    SortInPlace(a);
    dup := FindAdjacent(a);
    SortNamesSorted(names);
    AdjacentDuplicate(a[..]);
    SortNamesDistinct(names);
  }

  /** Primary<Keys...>: fails with "Duplicated primary key" when a key name
      repeats; an empty key list is always accepted. */
  method CheckPrimary(keys: seq<string>) returns (r: Outcome)
    ensures r.Pass? <==> Distinct(keys)
    ensures r.Fail? ==> r.error == "Duplicated primary key"
  {
    var dup := HasDuplicate(keys);
    r := if |keys| != 0 && dup then Fail("Duplicated primary key") else Pass;
  }

  /** Foreign<Refers...>: fails with "Duplicated foreign key" when two
      references name the same local field. */
  method CheckForeign(refers: seq<Refer>) returns (r: Outcome)
    ensures r.Pass? <==> Distinct(ReferNames(refers))
    ensures r.Fail? ==> r.error == "Duplicated foreign key"
  {
    var dup := HasDuplicate(ReferNames(refers));
    r := if |refers| != 0 && dup then Fail("Duplicated foreign key") else Pass;
  }

  function DuplicatedFields(model: string): string
  {
    "Duplicated fields in model definition of '" + model + "'"
  }

  /** The DataClass constructor: fails when two fields share a name. */
  method CheckFields(s: Schema) returns (r: Outcome)
    ensures r.Pass? <==> Distinct(FieldNames(s.fields))
    ensures r.Fail? ==> r.error == DuplicatedFields(s.name)
  {
    var dup := HasDuplicate(FieldNames(s.fields));
    r := if dup then Fail(DuplicatedFields(s.name)) else Pass;
  }

  // ---------------------------------------------------------------------
  // Field lookup
  // ---------------------------------------------------------------------

  /** Some field of the list is called `name` (exact, case-sensitive). */
  predicate Declares(fields: seq<Field>, name: string)
  {
    exists j :: 0 <= j < |fields| && fields[j].name == name
  }

  lemma DeclaresNames(fields: seq<Field>, name: string)
    ensures Declares(fields, name) <==> name in FieldNames(fields)
  {
    var names := FieldNames(fields);
    if name in names {
      var j :| 0 <= j < |names| && names[j] == name;
      assert fields[j].name == name;
    }
  }

  /** index_of<Index, Fields...>(name): the position, counted from `index`,
      of the first field called `name`, or -1. */
  function IndexOf(fields: seq<Field>, name: string, index: nat): (r: int)
    ensures r == -1 <==> !Declares(fields, name)
    ensures r != -1 ==> index <= r < index + |fields| && fields[r - index].name == name
    ensures r != -1 ==> forall j :: 0 <= j < r - index ==> fields[j].name != name
  {
    if fields == [] then -1
    else if fields[0].name == name then index
    else
      var r := IndexOf(fields[1..], name, index + 1);
      assert Declares(fields, name) ==> Declares(fields[1..], name) by {
        if Declares(fields, name) {
          var j :| 0 <= j < |fields| && fields[j].name == name;
          assert fields[1..][j - 1] == fields[j];
        }
      }
      assert r != -1 ==> forall j :: 0 < j <= r - index ==> fields[j] == fields[1..][j - 1];
      r
  }

  function FieldIndex(s: Schema, name: string): int
  {
    IndexOf(s.fields, name, 0)
  }

  /** With distinct names, a field's own name finds that field. */
  lemma IndexOfOwnName(fields: seq<Field>, i: nat)
    requires Distinct(FieldNames(fields)) && i < |fields|
    ensures IndexOf(fields, fields[i].name, 0) == i
  {
    var names := FieldNames(fields);
    var name := fields[i].name;
    assert Declares(fields, name);
    var r := IndexOf(fields, name, 0);
    assert r <= i;
    assert names[r] == fields[r].name && names[i] == name;
  }

  function NotAvailable(name: string, model: string): string
  {
    "Field '" + name + "' not available in '" + model + "'"
  }

  /** An instance of a model: the schema and the cells, parallel to the fields. */
  datatype Record = Record(schema: Schema, cells: seq<Data>)
  {
    /** Every instance that exists went through the DataClass constructor,
        so its field names are distinct. */
    predicate WellFormed()
    {
      |cells| == |schema.fields| && Distinct(FieldNames(schema.fields))
    }
  }

  /** A model instance as the rest of the library handles it. */
  type Instance = r: Record | r.WellFormed() witness Record(Schema("", [], [], []), [])

  /** The instance a default-constructed model holds: every cell null. */
  function Empty(s: Schema): (r: Record)
    requires Distinct(FieldNames(s.fields))
    ensures r.WellFormed() && r.schema == s
    ensures forall i :: 0 <= i < |r.cells| ==> r.cells[i] == NullValue
  {
    Record(s, seq(|s.fields|, i => NullValue))
  }

  /** `model[name]` for reading: the cell of the first field called `name`
      (exact, case-sensitive match), or the "not available" error. */
  function Lookup(r: Record, name: string): (res: Result<Data>)
    requires |r.cells| == |r.schema.fields|
    ensures res.Success? <==> Declares(r.schema.fields, name)
    ensures res.Failure? ==> res.error == NotAvailable(name, r.schema.name)
    ensures forall i :: (0 <= i < |r.cells| && r.schema.fields[i].name == name
      && (forall j :: 0 <= j < i ==> r.schema.fields[j].name != name)) ==> res == Success(r.cells[i])
  {
    var i := FieldIndex(r.schema, name);
    if i < 0 then Failure(NotAvailable(name, r.schema.name)) else Success(r.cells[i])
  }

  /** `model[name] = incoming`: the lookup fails before anything is written,
      otherwise exactly the one found cell takes the assigned value. */
  function Write(r: Record, name: string, incoming: Option<Data>): (res: Result<Record>)
    requires |r.cells| == |r.schema.fields|
    ensures res.Success? <==> Declares(r.schema.fields, name)
    ensures res.Failure? ==> res.error == NotAvailable(name, r.schema.name)
    ensures res.Success? ==> res.value.schema == r.schema && |res.value.cells| == |r.cells|
    ensures res.Success? ==> forall j :: 0 <= j < |r.cells| ==>
      res.value.cells[j] == if j == FieldIndex(r.schema, name) then Assigned(r.cells[j], incoming) else r.cells[j]
  {
    var i := FieldIndex(r.schema, name);
    if i < 0 then Failure(NotAvailable(name, r.schema.name))
    else Success(Record(r.schema, r.cells[i := Assigned(r.cells[i], incoming)]))
  }

  /** Writing a value through `model[name]` and reading it back yields that
      value, and every other name still reads what it read before. */
  lemma WriteThenLookup(r: Record, name: string, v: Data, other: string)
    requires |r.cells| == |r.schema.fields| && Declares(r.schema.fields, name)
    ensures Write(r, name, Some(v)).Success?
    ensures Lookup(Write(r, name, Some(v)).value, name) == Success(v)
    ensures other != name ==> Lookup(Write(r, name, Some(v)).value, other) == Lookup(r, other)
  {
    var w := Write(r, name, Some(v)).value;
    var i := FieldIndex(r.schema, name);
    assert w.cells[i] == v;
    var j := FieldIndex(r.schema, other);
    if other != name && j >= 0 {
      assert r.schema.fields[j].name == other;
      assert j != i;
      assert w.cells[j] == r.cells[j];
    }
  }

  // ---------------------------------------------------------------------
  // Primary keys
  // ---------------------------------------------------------------------

  function Inexistent(key: string, table: string): string
  {
    "Inexistent primary key '" + key + "' on table '" + table + "'"
  }

  /** The fields whose name is `key`, in declaration order: the ones the
      get_fields scan inside get_keys hands to the callback. */
  function Matching(fields: seq<Field>, key: string): (r: seq<Field>)
    ensures |r| <= |fields|
  {
    if fields == [] then []
    else
      var last := fields[|fields| - 1];
      Matching(fields[..|fields| - 1], key) + (if last.name == key then [last] else [])
  }

  /** Matching keeps exactly the fields called `key`. */
  lemma {:induction false} MatchingMembers(fields: seq<Field>, key: string)
    ensures forall f :: f in Matching(fields, key) <==> f in fields && f.name == key
    ensures forall k :: 0 <= k < |Matching(fields, key)| ==> Matching(fields, key)[k].name == key
  {
    if fields != [] {
      var init := fields[..|fields| - 1];
      MatchingMembers(init, key);
      assert fields == init + [fields[|fields| - 1]];
    }
  }

  lemma {:induction false} MatchingAbsent(fields: seq<Field>, key: string)
    requires forall j :: 0 <= j < |fields| ==> fields[j].name != key
    ensures Matching(fields, key) == []
  {
    if fields != [] {
      MatchingAbsent(fields[..|fields| - 1], key);
    }
  }

  /** With distinct names, exactly one field answers to a field's own name. */
  lemma {:induction false} MatchingDistinct(fields: seq<Field>, i: nat)
    requires Distinct(FieldNames(fields)) && i < |fields|
    ensures Matching(fields, fields[i].name) == [fields[i]]
  {
    var n := |fields| - 1;
    var init := fields[..n];
    var names := FieldNames(fields);
    assert FieldNames(init) == names[..n];
    if i == n {
      forall j | 0 <= j < |init| ensures init[j].name != fields[i].name {
        assert names[j] != names[n];
      }
      MatchingAbsent(init, fields[i].name);
    } else {
      MatchingDistinct(init, i);
      assert names[i] != names[n];
    }
  }

  /** get_keys: visits the keys in declaration order and, for each, the
      fields of that name; a key no field carries stops the walk with
      "Inexistent primary key". */
  function KeyFieldsOf(fields: seq<Field>, keys: seq<string>, table: string): (r: Result<seq<Field>>)
    ensures keys == [] ==> r == Success([])
  {
    if keys == [] then Success([])
    else
      var n := |keys| - 1;
      match KeyFieldsOf(fields, keys[..n], table)
      case Failure(e) => Failure(e)
      case Success(ks) =>
        if IndexOf(fields, keys[n], 0) < 0 then Failure(Inexistent(keys[n], table))
        else Success(ks + Matching(fields, keys[n]))
  }

  function KeyFields(s: Schema): Result<seq<Field>>
  {
    KeyFieldsOf(s.fields, s.keys, s.name)
  }

  /** A key missing from the model ends the walk: once a prefix of the keys
      fails, get_keys fails with the same error. */
  lemma {:induction false} KeyFieldsOfPrefixFailure(fields: seq<Field>, keys: seq<string>, table: string, k: nat)
    requires k <= |keys| && KeyFieldsOf(fields, keys[..k], table).Failure?
    ensures KeyFieldsOf(fields, keys, table) == KeyFieldsOf(fields, keys[..k], table)
    decreases |keys|
  {
    if k < |keys| {
      var n := |keys| - 1;
      assert keys[..n][..k] == keys[..k];
      KeyFieldsOfPrefixFailure(fields, keys[..n], table, k);
    } else {
      assert keys[..k] == keys;
    }
  }

  /** get_keys fails exactly when some key is not a field. */
  lemma {:induction false} KeyFieldsOfFails(fields: seq<Field>, keys: seq<string>, table: string)
    ensures KeyFieldsOf(fields, keys, table).Failure? <==> exists i :: 0 <= i < |keys| && !Declares(fields, keys[i])
    decreases |keys|
  {
    if keys != [] {
      var n := |keys| - 1;
      var init := keys[..n];
      KeyFieldsOfFails(fields, init, table);
      assert forall j :: 0 <= j < n ==> init[j] == keys[j];
      if KeyFieldsOf(fields, init, table).Failure? {
        var i :| 0 <= i < n && !Declares(fields, init[i]);
        assert !Declares(fields, keys[i]);
      }
    }
  }

  /** A failed get_keys names the first key that is not a field. */
  lemma {:induction false} KeyFieldsOfFirstMissing(fields: seq<Field>, keys: seq<string>, table: string)
    requires KeyFieldsOf(fields, keys, table).Failure?
    ensures exists i :: (0 <= i < |keys| && !Declares(fields, keys[i])
      && (forall j :: 0 <= j < i ==> Declares(fields, keys[j])) && KeyFieldsOf(fields, keys, table).error == Inexistent(keys[i], table))
    decreases |keys|
  {
    var n := |keys| - 1;
    var init := keys[..n];
    var rest := KeyFieldsOf(fields, init, table);
    if rest.Failure? {
      KeyFieldsOfFirstMissing(fields, init, table);
      var i :| 0 <= i < |init| && !Declares(fields, init[i])
        && (forall j :: 0 <= j < i ==> Declares(fields, init[j])) && rest.error == Inexistent(init[i], table);
      assert init[i] == keys[i];
      assert forall j :: 0 <= j < i ==> init[j] == keys[j];
    } else {
      KeyFieldsOfFails(fields, init, table);
      assert forall j :: 0 <= j < n ==> init[j] == keys[j];
      assert !Declares(fields, keys[n]);
    }
  }

  /** get_keys fails exactly when some key is not a field, and then it names
      the first such key. */
  lemma KeyFieldsOfFailure(fields: seq<Field>, keys: seq<string>, table: string)
    ensures var r := KeyFieldsOf(fields, keys, table);
      (r.Failure? <==> exists i :: 0 <= i < |keys| && !Declares(fields, keys[i]))
      && (r.Failure? ==> exists i :: (0 <= i < |keys| && !Declares(fields, keys[i])
            && (forall j :: 0 <= j < i ==> Declares(fields, keys[j])) && r.error == Inexistent(keys[i], table)))
  {
    KeyFieldsOfFails(fields, keys, table);
    if KeyFieldsOf(fields, keys, table).Failure? {
      KeyFieldsOfFirstMissing(fields, keys, table);
    }
  }

  /** On a model with distinct field names, get_keys yields exactly one field
      per key, in key order. */
  lemma {:induction false} KeyFieldsOfSuccess(fields: seq<Field>, keys: seq<string>, table: string)
    requires Distinct(FieldNames(fields))
    ensures var r := KeyFieldsOf(fields, keys, table);
      r.Success? ==> |r.value| == |keys| && forall i :: 0 <= i < |keys| ==> r.value[i].name == keys[i] && r.value[i] in fields
  {
    if keys != [] {
      var n := |keys| - 1;
      KeyFieldsOfSuccess(fields, keys[..n], table);
      var idx := IndexOf(fields, keys[n], 0);
      var r := KeyFieldsOf(fields, keys, table);
      if r.Success? {
        var rest := KeyFieldsOf(fields, keys[..n], table);
        assert rest.Success? && idx >= 0;
        MatchingDistinct(fields, idx);
        assert r.value == rest.value + [fields[idx]];
        assert fields[idx].name == keys[n];
        forall i | 0 <= i < |keys| ensures r.value[i].name == keys[i] && r.value[i] in fields {
          if i < n {
            assert r.value[i] == rest.value[i];
            assert rest.value[i].name == keys[..n][i] && rest.value[i] in fields;
            assert keys[..n][i] == keys[i];
            assert r.value[i].name == keys[i];
          } else {
            assert i == n;
            assert r.value[i] == fields[idx];
            assert r.value[i].name == keys[i];
            assert r.value[i] in fields;
          }
        }
      }
    }
  }

  // ---------------------------------------------------------------------
  // to_string: {"f1":v1, "f2":v2}
  // ---------------------------------------------------------------------

  function NoFields(model: string): string
  {
    "No fields available in '" + model + "'"
  }

  /** How to_string writes one cell. */
  function CellJson(d: Data): string
  {
    match d
    case NullValue => "null"
    case BoolValue(b) => if b then "true" else "false"
    case IntValue(i) => IntToString(i)
    case DecimalValue(x) => x.streamed
    case TextValue(s) => Quoted(s, '"')
  }

  function Entry(f: Field, d: Data): string
  {
    Quoted(f.name, '"') + ":" + CellJson(d)
  }

  function Entries(fields: seq<Field>, cells: seq<Data>): (r: seq<string>)
    requires |fields| == |cells|
    ensures |r| == |fields|
  {
    if fields == [] then [] else Entries(fields[..|fields| - 1], cells[..|cells| - 1]) + [Entry(fields[|fields| - 1], cells[|cells| - 1])]
  }

  /** Entry i of the list is field i written with cell i. */
  lemma {:induction false} EntriesAt(fields: seq<Field>, cells: seq<Data>, i: nat)
    requires |fields| == |cells| && i < |fields|
    ensures Entries(fields, cells)[i] == Entry(fields[i], cells[i])
    decreases |fields|
  {
    var n := |fields| - 1;
    var init := Entries(fields[..n], cells[..n]);
    assert Entries(fields, cells) == init + [Entry(fields[n], cells[n])];
    if i < n {
      EntriesAt(fields[..n], cells[..n], i);
      assert fields[..n][i] == fields[i] && cells[..n][i] == cells[i];
    }
  }

  lemma EntriesSnoc(fields: seq<Field>, cells: seq<Data>, i: nat)
    requires |fields| == |cells| && i < |fields|
    ensures Entries(fields[..i + 1], cells[..i + 1]) == Entries(fields[..i], cells[..i]) + [Entry(fields[i], cells[i])]
  {
    assert fields[..i + 1][..i] == fields[..i] && cells[..i + 1][..i] == cells[..i];
  }

  /** to_string: the fields in declaration order as `"name":value`, joined by
      ", " inside braces; a model without fields fails in get_fields. */
  function Render(r: Record): (res: Result<string>)
    requires r.WellFormed()
    ensures res.Failure? <==> r.schema.fields == []
    ensures res.Failure? ==> res.error == NoFields(r.schema.name)
  {
    if r.schema.fields == [] then Failure(NoFields(r.schema.name))
    else Success("{" + Join(", ", Entries(r.schema.fields, r.cells)) + "}")
  }

  /** A text cell is written with std::quoted, so reading the value part of
      its entry back gives the text, whatever quotes it contains. */
  lemma RenderedTextReadsBack(f: Field, s: string)
    ensures var e := Entry(f, TextValue(s));
      var v := e[|Quoted(f.name, '"')| + 1..];
      Unquote(v, '"') == Some(s)
  {
    var e := Entry(f, TextValue(s));
    assert e[|Quoted(f.name, '"')| + 1..] == Quoted(s, '"');
    UnquoteQuoted(s, '"');
  }

  // ---------------------------------------------------------------------
  // A model instance updated in place
  // ---------------------------------------------------------------------

  /** An instance of DataClass: `mFields`, the fixed-size array of cells. */
  class Model {
    const schema: Schema
    const cells: array<Data>

    ghost predicate Valid()
      reads this
    {
      cells.Length == |schema.fields| && Distinct(FieldNames(schema.fields))
    }

    function Value(): Record
      reads this, cells
    {
      Record(schema, cells[..])
    }

    /** A default-constructed model: every cell null. The name check of the
        constructor is CheckFields; only a schema that passes it gets here. */
    constructor (s: Schema)
      requires Distinct(FieldNames(s.fields))
      ensures Valid() && fresh(cells) && schema == s
      ensures Value() == Empty(s)
    {
      schema := s;
      cells := new Data[|s.fields|](i => NullValue);
    }

    /** `model[name]` read through the const operator[]. */
    method Get(name: string) returns (r: Result<Data>)
      requires Valid()
      ensures r == Lookup(Value(), name)
    {
      var i := IndexOf(schema.fields, name, 0);
      if i < 0 {
        r := Failure(NotAvailable(name, schema.name));
      } else {
        r := Success(cells[i]);
      }
    }

    /** `model[name] = incoming` through the mutable operator[] and
        Data::operator=. */
    method Assign(name: string, incoming: Option<Data>) returns (r: Outcome)
      requires Valid()
      modifies cells
      ensures Valid()
      ensures var w := Write(old(Value()), name, incoming);
        && (r.Pass? <==> w.Success?)
        && (r.Fail? ==> r.error == w.error && cells[..] == old(cells[..]))
        && (w.Success? ==> Value() == w.value)
    {
      var i := IndexOf(schema.fields, name, 0);
      if i < 0 {
        r := Fail(NotAvailable(name, schema.name));
      } else {
        cells[i] := Assigned(cells[i], incoming);
        r := Pass;
      }
    }

    /** to_string, written field by field under a `first` flag. */
    method ToString() returns (r: Result<string>)
      requires Valid()
      ensures r == Render(Value())
    {
      var fields := schema.fields;
      var cs := cells[..];
      if fields == [] {
        return Failure(NoFields(schema.name));
      }
      var o := "{";
      var first := true;
      var i := 0;
      EndSlices(fields);
      EndSlices(cs);
      while i < |fields|
        invariant 0 <= i <= |fields|
        invariant first <==> i == 0
        invariant o == Written("{", ", ", Entries(fields[..i], cs[..i]))
      {
        var e := Quoted(fields[i].name, '"') + ":" + CellJson(cs[i]);
        assert e == Entry(fields[i], cs[i]);
        EntriesSnoc(fields, cs, i);
        JoinStep("{", ", ", Entries(fields[..i], cs[..i]), e, o);
        if !first {
          o := o + ", ";
        }
        first := false;
        o := o + e;
        i := i + 1;
      }
      o := o + "}";
      r := Success(o);
    }
  }
}

=== FILE: database.dfy ===
/** The write path of the Database interface
    (include/jdb/database/Database.hpp, src/database/Database.hpp): which
    values a column accepts, which fields a statement leaves to their
    DEFAULT, and the text of the INSERT, UPDATE, DELETE, primary-key WHERE
    and ROWID lookup statements. Sending them to the engine is part of the
    SqliteDatabase class in module Sqlite. */
module Database {
  import opened Wrappers
  import opened Strings
  import opened DataClass

  /** default_with_null_value: a null in a non-nullable field that declares a
      DEFAULT is left out of the statement, so the column keeps its default. */
  predicate DefaultWithNull(f: Field, d: Data)
  {
    !f.nullable && d.NullValue? && f.defaultValue.Some?
  }

  /** Which alternatives of a cell a column of each type accepts. */
  predicate Compatible(f: Field, d: Data)
  {
    match d
    case NullValue => f.nullable || f.kind == Serial
    case BoolValue(_) => f.kind in {Bool, Int}
    case IntValue(_) => f.kind in {Int, Serial, Timestamp, Bool}
    case DecimalValue(_) => f.kind == Decimal
    case TextValue(_) => f.kind in {Text, Timestamp}
  }

  datatype Verb = Inserting | Updating

  function VerbName(v: Verb): string
  {
    match v
    case Inserting => "insert"
    case Updating => "update"
  }

  /** The error insert or update raises for a cell its column does not
      accept, or none. */
  function Rejection(verb: Verb, model: string, f: Field, d: Data): (r: Option<string>)
    ensures r.None? <==> Compatible(f, d)
  {
    var head := "unable to " + VerbName(verb) + " '" + model + "', field '" + f.name + "' ";
    match d
    case NullValue =>
      if !f.nullable && f.kind != Serial then Some(head + "is not null") else None
    case BoolValue(_) =>
      if f.kind != Bool && f.kind != Int then Some(head + "is not convertible to boolean") else None
    case IntValue(_) =>
      if f.kind != Int && f.kind != Serial && f.kind != Timestamp && f.kind != Bool
      then Some(head + "is not convertible to integer") else None
    case DecimalValue(_) =>
      if f.kind != Decimal then Some(head + "is not convertible to double") else None
    case TextValue(_) =>
      if f.kind != Text && f.kind != Timestamp then Some(head + "is not a text value") else None
  }

  /** How insert and update write a value: null, true/false, the number,
      and text through std::quoted. */
  function Literal(d: Data): string
  {
    match d
    case NullValue => "null"
    case BoolValue(b) => if b then "true" else "false"
    case IntValue(i) => IntToString(i)
    case DecimalValue(x) => x.streamed
    case TextValue(s) => Quoted(s, '"')
  }

  // ---------------------------------------------------------------------
  // Which fields a statement writes
  // ---------------------------------------------------------------------

  /** The positions of the fields the statement writes, in order. */
  function Kept(fields: seq<Field>, cells: seq<Data>): (k: seq<nat>)
    requires |fields| == |cells|
    ensures forall j :: 0 <= j < |k| ==> k[j] < |fields| && !DefaultWithNull(fields[k[j]], cells[k[j]])
    ensures forall j, l :: 0 <= j < l < |k| ==> k[j] < k[l]
    ensures forall i :: 0 <= i < |fields| && !DefaultWithNull(fields[i], cells[i]) ==> i in k
  {
    if fields == [] then []
    else
      var n := |fields| - 1;
      Kept(fields[..n], cells[..n]) + (if DefaultWithNull(fields[n], cells[n]) then [] else [n])
  }

  /** The column list of the INSERT. */
  function Columns(fields: seq<Field>, cells: seq<Data>): (r: seq<string>)
    requires |fields| == |cells|
  {
    if fields == [] then []
    else
      var n := |fields| - 1;
      Columns(fields[..n], cells[..n]) + (if DefaultWithNull(fields[n], cells[n]) then [] else [fields[n].name])
  }

  /** The value list: the written cells in the same order, or the error of
      the first one its column does not accept. */
  function Values(verb: Verb, model: string, fields: seq<Field>, cells: seq<Data>): (r: Result<seq<string>>)
    requires |fields| == |cells|
    ensures r.Success? ==> |r.value| == |Columns(fields, cells)|
  {
    if fields == [] then Success([])
    else
      var n := |fields| - 1;
      match Values(verb, model, fields[..n], cells[..n])
      case Failure(e) => Failure(e)
      case Success(vs) =>
        if DefaultWithNull(fields[n], cells[n]) then Success(vs)
        else
          match Rejection(verb, model, fields[n], cells[n])
          case Some(e) => Failure(e)
          case None => Success(vs + [Literal(cells[n])])
  }

  /** The k-th column named is the field at the k-th kept position. */
  lemma {:induction false} ColumnsKept(fields: seq<Field>, cells: seq<Data>)
    requires |fields| == |cells|
    ensures var k := Kept(fields, cells);
      var cols := Columns(fields, cells);
      |cols| == |k| && forall j :: 0 <= j < |k| ==> cols[j] == fields[k[j]].name
  {
    if fields != [] {
      var n := |fields| - 1;
      var fs, cs := fields[..n], cells[..n];
      ColumnsKept(fs, cs);
      var k0, c0 := Kept(fs, cs), Columns(fs, cs);
      var k, cols := Kept(fields, cells), Columns(fields, cells);
      if DefaultWithNull(fields[n], cells[n]) {
        assert k == k0 && cols == c0;
        forall j | 0 <= j < |k| ensures cols[j] == fields[k[j]].name {
          assert fs[k0[j]] == fields[k0[j]];
        }
      } else {
        assert k == k0 + [n] && cols == c0 + [fields[n].name];
        forall j | 0 <= j < |k| ensures cols[j] == fields[k[j]].name {
          if j < |k0| {
            assert cols[j] == c0[j] && k[j] == k0[j];
            assert fs[k0[j]] == fields[k0[j]];
          }
        }
      }
    }
  }

  /** The k-th value written is the cell of the field at the k-th kept
      position, so every value lands in its own field's column. */
  lemma {:induction false} ValuesKept(verb: Verb, model: string, fields: seq<Field>, cells: seq<Data>)
    requires |fields| == |cells|
    ensures var k := Kept(fields, cells);
      var r := Values(verb, model, fields, cells);
      r.Success? ==> |r.value| == |k| && forall j :: 0 <= j < |k| ==> r.value[j] == Literal(cells[k[j]])
  {
    if fields != [] {
      var n := |fields| - 1;
      var fs, cs := fields[..n], cells[..n];
      ValuesKept(verb, model, fs, cs);
      var k0 := Kept(fs, cs);
      var k := Kept(fields, cells);
      var r := Values(verb, model, fields, cells);
      var rest := Values(verb, model, fs, cs);
      if r.Success? {
        assert rest.Success?;
        if DefaultWithNull(fields[n], cells[n]) {
          assert r.value == rest.value && k == k0;
          forall j | 0 <= j < |k| ensures r.value[j] == Literal(cells[k[j]]) {
            assert cs[k0[j]] == cells[k0[j]];
          }
        } else {
          assert r.value == rest.value + [Literal(cells[n])] && k == k0 + [n];
          forall j | 0 <= j < |k| ensures r.value[j] == Literal(cells[k[j]]) {
            if j < |k0| {
              assert r.value[j] == rest.value[j] && k[j] == k0[j];
              assert cs[k0[j]] == cells[k0[j]];
            }
          }
        }
      }
    }
  }

  /** A cell its column refuses: not skipped as a defaulted null, and of no
      type the column accepts. */
  predicate Refused(f: Field, d: Data)
  {
    !DefaultWithNull(f, d) && !Compatible(f, d)
  }

  /** The statement fails exactly when some written field holds a value its
      column does not accept. */
  lemma {:induction false} ValuesFails(verb: Verb, model: string, fields: seq<Field>, cells: seq<Data>)
    requires |fields| == |cells|
    ensures Values(verb, model, fields, cells).Failure? <==>
      exists i :: 0 <= i < |fields| && !DefaultWithNull(fields[i], cells[i]) && !Compatible(fields[i], cells[i])
  {
    if fields != [] {
      var n := |fields| - 1;
      var fs, cs := fields[..n], cells[..n];
      ValuesFails(verb, model, fs, cs);
      if Values(verb, model, fs, cs).Failure? {
        var i :| 0 <= i < n && !DefaultWithNull(fs[i], cs[i]) && !Compatible(fs[i], cs[i]);
        assert fs[i] == fields[i] && cs[i] == cells[i];
      } else {
        forall i | 0 <= i < n
          ensures DefaultWithNull(fields[i], cells[i]) || Compatible(fields[i], cells[i])
        {
          assert fs[i] == fields[i] && cs[i] == cells[i];
        }
      }
    }
  }

  /** A failing statement carries the rejection of the first written field
      whose column does not accept its value. */
  lemma {:induction false} ValuesFirstRejection(verb: Verb, model: string, fields: seq<Field>, cells: seq<Data>)
    requires |fields| == |cells|
    requires Values(verb, model, fields, cells).Failure?
    ensures exists i :: (0 <= i < |fields| && !DefaultWithNull(fields[i], cells[i])
      && Rejection(verb, model, fields[i], cells[i]) == Some(Values(verb, model, fields, cells).error)
      && forall j :: 0 <= j < i ==> DefaultWithNull(fields[j], cells[j]) || Compatible(fields[j], cells[j]))
  {
    var n := |fields| - 1;
    var fs, cs := fields[..n], cells[..n];
    var rest := Values(verb, model, fs, cs);
    if rest.Failure? {
      ValuesFirstRejection(verb, model, fs, cs);
      var i :| 0 <= i < n && !DefaultWithNull(fs[i], cs[i])
        && Rejection(verb, model, fs[i], cs[i]) == Some(rest.error)
        && forall j :: 0 <= j < i ==> DefaultWithNull(fs[j], cs[j]) || Compatible(fs[j], cs[j]);
      assert fs[i] == fields[i] && cs[i] == cells[i];
      assert forall j :: 0 <= j < i ==> fs[j] == fields[j] && cs[j] == cells[j];
    } else {
      ValuesFails(verb, model, fs, cs);
      assert forall j :: 0 <= j < n ==> fs[j] == fields[j] && cs[j] == cells[j];
      assert !DefaultWithNull(fields[n], cells[n]);
    }
  }

  /** Both halves: failure exactly on a refused value, with the error of the
      first one. */
  lemma ValuesFailure(verb: Verb, model: string, fields: seq<Field>, cells: seq<Data>)
    requires |fields| == |cells|
    ensures var r := Values(verb, model, fields, cells);
      (r.Failure? <==> exists i :: 0 <= i < |fields| && !DefaultWithNull(fields[i], cells[i]) && !Compatible(fields[i], cells[i]))
      && (r.Failure? ==> exists i :: (0 <= i < |fields| && !DefaultWithNull(fields[i], cells[i])
            && Rejection(verb, model, fields[i], cells[i]) == Some(r.error)
            && forall j :: 0 <= j < i ==> DefaultWithNull(fields[j], cells[j]) || Compatible(fields[j], cells[j])))
  {
    ValuesFails(verb, model, fields, cells);
    if Values(verb, model, fields, cells).Failure? {
      ValuesFirstRejection(verb, model, fields, cells);
    }
  }

  // ---------------------------------------------------------------------
  // The primary-key WHERE clause
  // ---------------------------------------------------------------------

  /** The cell `model[name]` reads (null only for a name the model lacks,
      which never reaches this point). */
  function KeyCell(r: Record, f: Field): Data
    requires |r.cells| == |r.schema.fields|
  {
    var i := FieldIndex(r.schema, f.name);
    if i < 0 then NullValue else r.cells[i]
  }

  /** One key condition: null as IS NULL, a bool as 1 or 0, a number as
      equality and text as an unescaped LIKE pattern. */
  function KeyPredicate(name: string, d: Data): string
  {
    match d
    case NullValue => "(" + name + " IS NULL)"
    case BoolValue(b) => "(" + name + " = " + (if b then "1" else "0") + ")"
    case IntValue(i) => "(" + name + " = " + IntToString(i) + ")"
    case DecimalValue(x) => "(" + name + " = " + x.streamed + ")"
    case TextValue(s) => "(" + name + " LIKE '%" + s + "%')"
  }

  function KeyPredicates(r: Record, keys: seq<Field>): (ps: seq<string>)
    requires |r.cells| == |r.schema.fields|
    ensures |ps| == |keys|
  {
    seq(|keys|, i requires 0 <= i < |keys| => KeyPredicate(keys[i].name, KeyCell(r, keys[i])))
  }

  /** get_where_from_primary_keys: " WHERE " and one condition per key field,
      joined by " AND " (nothing after WHERE for a model without keys). */
  function WhereSql(r: Record): Result<string>
    requires |r.cells| == |r.schema.fields|
  {
    match KeyFields(r.schema)
    case Failure(e) => Failure(e)
    case Success(keys) => Success(WhereText(r, keys))
  }

  /** " WHERE " and the conditions of the key fields `ks`, joined by " AND ". */
  function WhereText(r: Record, ks: seq<Field>): string
    requires |r.cells| == |r.schema.fields|
  {
    " WHERE " + Join(" AND ", KeyPredicates(r, ks))
  }

  /** Each key condition reads the key's own cell. */
  lemma KeyCellIsCell(r: Record, i: nat)
    requires r.WellFormed() && i < |r.cells|
    ensures KeyCell(r, r.schema.fields[i]) == r.cells[i]
  {
    IndexOfOwnName(r.schema.fields, i);
  }

  /** For key fields of the model, condition i tests key i against the
      cell of that field. */
  lemma KeyPredicatesRead(r: Record, keys: seq<Field>)
    requires r.WellFormed()
    requires forall k :: 0 <= k < |keys| ==> keys[k] in r.schema.fields
    ensures forall i :: 0 <= i < |keys| ==>
      exists j :: 0 <= j < |r.cells| && r.schema.fields[j] == keys[i] && KeyPredicates(r, keys)[i] == KeyPredicate(keys[i].name, r.cells[j])
  {
    forall i | 0 <= i < |keys|
      ensures exists j :: 0 <= j < |r.cells| && r.schema.fields[j] == keys[i] && KeyPredicates(r, keys)[i] == KeyPredicate(keys[i].name, r.cells[j])
    {
      var j :| 0 <= j < |r.schema.fields| && r.schema.fields[j] == keys[i];
      KeyCellIsCell(r, j);
    }
  }

  // ---------------------------------------------------------------------
  // The statements
  // ---------------------------------------------------------------------

  /** insert: the column list, then the values in the same order; a model
      without fields throws at the first get_fields. */
  function InsertSql(r: Record): (res: Result<string>)
    requires r.WellFormed()
    ensures res.Failure? <==> r.schema.fields == [] || exists i :: 0 <= i < |r.cells| && Refused(r.schema.fields[i], r.cells[i])
  {
    ValuesFails(Inserting, r.schema.name, r.schema.fields, r.cells);
    var fields := r.schema.fields;
    if fields == [] then Failure(NoFields(r.schema.name))
    else match Values(Inserting, r.schema.name, fields, r.cells)
    case Failure(e) => Failure(e)
    case Success(vs) =>
      Success("INSERT INTO " + r.schema.name + " (" + Join(", ", Columns(fields, r.cells)) + ") VALUES ("
        + Join(", ", vs) + ");")
  }

  function Pairs(cols: seq<string>, vals: seq<string>): (r: seq<string>)
    requires |cols| == |vals|
    ensures |r| == |cols|
    ensures forall k :: 0 <= k < |r| ==> r[k] == cols[k] + " = " + vals[k]
  {
    if cols == [] then []
    else Pairs(cols[..|cols| - 1], vals[..|vals| - 1]) + [cols[|cols| - 1] + " = " + vals[|vals| - 1]]
  }

  /** update: `name = value` for every written field, then the key WHERE;
      a model without fields throws at get_fields. */
  function UpdateSql(r: Record): (res: Result<string>)
    requires r.WellFormed()
    ensures res.Failure? <==>
      || r.schema.fields == []
      || (exists i :: 0 <= i < |r.cells| && Refused(r.schema.fields[i], r.cells[i]))
      || (exists i :: 0 <= i < |r.schema.keys| && !Declares(r.schema.fields, r.schema.keys[i]))
  {
    ValuesFails(Updating, r.schema.name, r.schema.fields, r.cells);
    KeyFieldsOfFailure(r.schema.fields, r.schema.keys, r.schema.name);
    var fields := r.schema.fields;
    if fields == [] then Failure(NoFields(r.schema.name))
    else match Values(Updating, r.schema.name, fields, r.cells)
    case Failure(e) => Failure(e)
    case Success(vs) =>
      match WhereSql(r)
      case Failure(e) => Failure(e)
      case Success(w) =>
        Success("UPDATE " + r.schema.name + " SET " + Join(", ", Pairs(Columns(fields, r.cells), vs)) + w + ";")
  }

  /** remove: DELETE with the key WHERE. */
  function DeleteSql(r: Record): (res: Result<string>)
    requires r.WellFormed()
    ensures res.Failure? <==> exists i :: 0 <= i < |r.schema.keys| && !Declares(r.schema.fields, r.schema.keys[i])
  {
    KeyFieldsOfFailure(r.schema.fields, r.schema.keys, r.schema.name);
    match WhereSql(r)
    case Failure(e) => Failure(e)
    case Success(w) => Success("DELETE FROM " + r.schema.name + w + ";")
  }

  /** find_by_rowid's query. */
  function FindByRowidSql(model: string, rowid: Int64): string
  {
    "SELECT * from " + model + " WHERE ROWID = " + IntToString(rowid)
  }

  /** With well-typed cells, INSERT fails only for a model without fields,
      DELETE only on a key the model lacks, and UPDATE on either. */
  lemma WriteFailsOnlyOnMissingKey(r: Record)
    requires r.WellFormed()
    requires forall i :: 0 <= i < |r.cells| ==> Compatible(r.schema.fields[i], r.cells[i])
    ensures InsertSql(r).Failure? <==> r.schema.fields == []
    ensures InsertSql(r).Failure? ==> InsertSql(r).error == NoFields(r.schema.name)
    ensures DeleteSql(r).Failure? <==> exists i :: 0 <= i < |r.schema.keys| && !Declares(r.schema.fields, r.schema.keys[i])
    ensures UpdateSql(r).Failure? <==> r.schema.fields == [] || DeleteSql(r).Failure?
  {
    ValuesFails(Inserting, r.schema.name, r.schema.fields, r.cells);
    ValuesFails(Updating, r.schema.name, r.schema.fields, r.cells);
    KeyFieldsOfFailure(r.schema.fields, r.schema.keys, r.schema.name);
  }

  /** The same cells give the same rejection to insert and to update. */
  lemma InsertUpdateAgree(r: Record)
    requires r.WellFormed()
    ensures InsertSql(r).Failure? <==> r.schema.fields == [] || Values(Updating, r.schema.name, r.schema.fields, r.cells).Failure?
  {
    ValuesFails(Inserting, r.schema.name, r.schema.fields, r.cells);
    ValuesFails(Updating, r.schema.name, r.schema.fields, r.cells);
  }

  // ---------------------------------------------------------------------
  // The statements as the library writes them, into a stream under a
  // `first` counter or flag
  // ---------------------------------------------------------------------

  lemma ColumnsStep(fields: seq<Field>, cells: seq<Data>, i: nat)
    requires |fields| == |cells| && i < |fields|
    ensures DefaultWithNull(fields[i], cells[i]) ==> Columns(fields[..i + 1], cells[..i + 1]) == Columns(fields[..i], cells[..i])
    ensures !DefaultWithNull(fields[i], cells[i]) ==>
      Columns(fields[..i + 1], cells[..i + 1]) == Columns(fields[..i], cells[..i]) + [fields[i].name]
  {
    assert fields[..i + 1][..i] == fields[..i] && cells[..i + 1][..i] == cells[..i];
  }

  lemma ValuesStep(verb: Verb, model: string, fields: seq<Field>, cells: seq<Data>, i: nat)
    requires |fields| == |cells| && i < |fields|
    ensures var before := Values(verb, model, fields[..i], cells[..i]);
      var after := Values(verb, model, fields[..i + 1], cells[..i + 1]);
      var rejected := Rejection(verb, model, fields[i], cells[i]);
      && (before.Failure? ==> after == before)
      && (before.Success? && DefaultWithNull(fields[i], cells[i]) ==> after == before)
      && (before.Success? && !DefaultWithNull(fields[i], cells[i]) && rejected.Some? ==> after == Failure(rejected.value))
      && (before.Success? && !DefaultWithNull(fields[i], cells[i]) && rejected.None? ==>
            after == Success(before.value + [Literal(cells[i])]))
  {
    assert fields[..i + 1][..i] == fields[..i] && cells[..i + 1][..i] == cells[..i];
  }

  /** Once a prefix of the fields fails, the whole statement fails with the
      same error: the throw leaves the loop. */
  lemma {:induction false} ValuesPrefixFailure(verb: Verb, model: string, fields: seq<Field>, cells: seq<Data>, i: nat)
    requires |fields| == |cells| && i <= |fields|
    requires Values(verb, model, fields[..i], cells[..i]).Failure?
    ensures Values(verb, model, fields, cells) == Values(verb, model, fields[..i], cells[..i])
    decreases |fields|
  {
    if i < |fields| {
      var n := |fields| - 1;
      assert fields[..n][..i] == fields[..i] && cells[..n][..i] == cells[..i];
      ValuesPrefixFailure(verb, model, fields[..n], cells[..n], i);
    } else {
      assert fields[..i] == fields && cells[..i] == cells;
    }
  }

  lemma PairsStep(cols: seq<string>, vals: seq<string>, c: string, v: string)
    requires |cols| == |vals|
    ensures Pairs(cols + [c], vals + [v]) == Pairs(cols, vals) + [c + " = " + v]
  {
    assert (cols + [c])[..|cols|] == cols && (vals + [v])[..|vals|] == vals;
  }

  lemma FullSlices(fields: seq<Field>, cells: seq<Data>)
    ensures fields[..|fields|] == fields && cells[..|cells|] == cells
  {
  }

  /** The cell operator[] returns for field `i` of a well-formed instance. */
  method CellAt(r: Record, i: nat) returns (d: Data)
    requires r.WellFormed() && i < |r.cells|
    ensures d == r.cells[i]
  {
    IndexOfOwnName(r.schema.fields, i);
    var v := Lookup(r, r.schema.fields[i].name);
    d := v.value;
  }

  /** insert's column pass: the names of the written fields, a ", " before
      each but the first (the `first` counter counts the names written). */
  method WriteColumns(r: Record, head: string) returns (o: string)
    requires r.WellFormed()
    ensures o == head + Join(", ", Columns(r.schema.fields, r.cells))
  {
    var fields := r.schema.fields;
    var cells := r.cells;
    o := head;
    var first := 0;
    for i := 0 to |fields|
      invariant first == |Columns(fields[..i], cells[..i])|
      invariant o == head + Join(", ", Columns(fields[..i], cells[..i]))
    {
      var value := CellAt(r, i);
      ColumnsStep(fields, cells, i);
      if !DefaultWithNull(fields[i], value) {
        JoinStep(head, ", ", Columns(fields[..i], cells[..i]), fields[i].name, o);
        if first != 0 {
          o := o + ", ";
        }
        first := first + 1;
        o := o + fields[i].name;
      }
    }
    FullSlices(fields, cells);
  }

  /** One cell of insert's value pass: skipped when its default stands in
      for a null, otherwise `, literal` under the `first` counter, or the
      rejection of the cell. */
  method WriteValue(r: Record, i: nat, head: string, o: string, first: nat, ghost vs: seq<string>)
    returns (o': string, first': nat, ghost vs': seq<string>, rejected: Option<string>)
    requires r.WellFormed() && i < |r.schema.fields|
    requires Values(Inserting, r.schema.name, r.schema.fields[..i], r.cells[..i]) == Success(vs)
    requires first == |vs| && o == head + Join(", ", vs)
    ensures rejected.Some? ==> Values(Inserting, r.schema.name, r.schema.fields[..i + 1], r.cells[..i + 1]) == Failure(rejected.value)
    ensures rejected.None? ==>
      && Values(Inserting, r.schema.name, r.schema.fields[..i + 1], r.cells[..i + 1]) == Success(vs')
      && first' == |vs'| && o' == head + Join(", ", vs')
  {
    var f := r.schema.fields[i];
    var value := CellAt(r, i);
    ValuesStep(Inserting, r.schema.name, r.schema.fields, r.cells, i);
    o', first', vs', rejected := o, first, vs, None;
    if !DefaultWithNull(f, value) {
      JoinStep(head, ", ", vs, Literal(value), o);
      if first != 0 {
        o' := o' + ", ";
      }
      first' := first + 1;
      rejected := Rejection(Inserting, r.schema.name, f, value);
      if rejected.Some? {
        return;
      }
      o' := o' + Literal(value);
      vs' := vs + [Literal(value)];
    }
  }

  /** insert's value pass: the literal of every written cell, a ", " before
      each but the first; the first cell its column refuses aborts it. */
  method WriteValues(r: Record, head: string) returns (res: Result<string>)
    requires r.WellFormed()
    ensures var vs := Values(Inserting, r.schema.name, r.schema.fields, r.cells);
      res == if vs.Failure? then Failure(vs.error) else Success(head + Join(", ", vs.value))
  {
    var o := head;
    var first := 0;
    ghost var vs: seq<string> := [];
    for i := 0 to |r.schema.fields|
      invariant Values(Inserting, r.schema.name, r.schema.fields[..i], r.cells[..i]) == Success(vs)
      invariant first == |vs|
      invariant o == head + Join(", ", vs)
    {
      var rejected;
      o, first, vs, rejected := WriteValue(r, i, head, o, first, vs);
      if rejected.Some? {
        ValuesPrefixFailure(Inserting, r.schema.name, r.schema.fields, r.cells, i + 1);
        return Failure(rejected.value);
      }
    }
    FullSlices(r.schema.fields, r.cells);
    res := Success(o);
  }

  /** insert's statement text: the column pass, then the value pass. */
  method BuildInsert(r: Record) returns (res: Result<string>)
    requires r.WellFormed()
    ensures res == InsertSql(r)
  {
    if |r.schema.fields| == 0 {
      return Failure(NoFields(r.schema.name));
    }
    var o := WriteColumns(r, "INSERT INTO " + r.schema.name + " (");
    var values := WriteValues(r, o + ") VALUES (");
    if values.Failure? {
      return Failure(values.error);
    }
    res := Success(values.value + ");");
  }

  lemma MatchingStep(fields: seq<Field>, key: string, j: nat)
    requires j < |fields|
    ensures fields[j].name == key ==> Matching(fields[..j + 1], key) == Matching(fields[..j], key) + [fields[j]]
    ensures fields[j].name != key ==> Matching(fields[..j + 1], key) == Matching(fields[..j], key)
  {
    assert fields[..j + 1][..j] == fields[..j];
  }

  /** One more key condition, " AND " before it unless it is the first. */
  lemma WhereStep(r: Record, ks: seq<Field>, f: Field, o: string)
    requires |r.cells| == |r.schema.fields|
    requires o == " WHERE " + Join(" AND ", KeyPredicates(r, ks))
    ensures var p := KeyPredicate(f.name, KeyCell(r, f));
      (if ks == [] then o + p else o + " AND " + p) == " WHERE " + Join(" AND ", KeyPredicates(r, ks + [f]))
  {
    var p := KeyPredicate(f.name, KeyCell(r, f));
    assert (ks + [f])[..|ks|] == ks;
    assert KeyPredicates(r, ks + [f]) == KeyPredicates(r, ks) + [p];
    JoinStep(" WHERE ", " AND ", KeyPredicates(r, ks), p, o);
  }

  lemma KeyFieldsOfStep(fields: seq<Field>, keys: seq<string>, table: string, k: nat)
    requires k < |keys| && KeyFieldsOf(fields, keys[..k], table).Success?
    ensures IndexOf(fields, keys[k], 0) < 0 ==> KeyFieldsOf(fields, keys[..k + 1], table) == Failure(Inexistent(keys[k], table))
    ensures IndexOf(fields, keys[k], 0) >= 0 ==>
      KeyFieldsOf(fields, keys[..k + 1], table) == Success(KeyFieldsOf(fields, keys[..k], table).value + Matching(fields, keys[k]))
  {
    assert keys[..k + 1][..k] == keys[..k];
  }

  /** The condition on field `j`, written after " AND " unless it is the
      first. */
  method AppendCondition(r: Record, j: nat, ghost ks: seq<Field>, o0: string, first0: bool)
      returns (o: string, first: bool)
    requires r.WellFormed() && j < |r.cells|
    requires first0 <==> |ks| == 0
    requires o0 == " WHERE " + Join(" AND ", KeyPredicates(r, ks))
    ensures !first
    ensures o == " WHERE " + Join(" AND ", KeyPredicates(r, ks + [r.schema.fields[j]]))
  {
    var f := r.schema.fields[j];
    var value := CellAt(r, j);
    KeyCellIsCell(r, j);
    WhereStep(r, ks, f, o0);
    o := o0;
    if !first0 {
      o := o + " AND ";
    }
    first := false;
    o := o + KeyPredicate(f.name, value);
  }

  /** The get_fields scan inside get_keys for one key: a condition for every
      field of that name, " AND " before each but the very first. */
  method WhereForKey(r: Record, key: string, ghost before: seq<Field>, o0: string, first0: bool)
      returns (o: string, first: bool)
    requires r.WellFormed()
    requires first0 <==> |before| == 0
    requires o0 == WhereText(r, before)
    ensures first <==> |before + Matching(r.schema.fields, key)| == 0
    ensures o == WhereText(r, before + Matching(r.schema.fields, key))
  {
    o, first := o0, first0;
    MatchingEmpty(before, r.schema.fields, key);
    for j := 0 to |r.schema.fields|
      invariant first <==> |before + Matching(r.schema.fields[..j], key)| == 0
      invariant o == WhereText(r, before + Matching(r.schema.fields[..j], key))
    {
      o, first := ScanField(r, key, before, j, o, first);
    }
    FullSlices(r.schema.fields, r.cells);
  }

  lemma MatchingEmpty(before: seq<Field>, fields: seq<Field>, key: string)
    ensures before + Matching(fields[..0], key) == before
  {
    assert fields[..0] == [];
  }

  /** One field of that scan: a condition when the field carries the key's
      name, nothing otherwise. */
  method ScanField(r: Record, key: string, ghost before: seq<Field>, j: nat, o0: string, first0: bool)
      returns (o: string, first: bool)
    requires r.WellFormed() && j < |r.schema.fields|
    requires first0 <==> |before + Matching(r.schema.fields[..j], key)| == 0
    requires o0 == WhereText(r, before + Matching(r.schema.fields[..j], key))
    ensures first <==> |before + Matching(r.schema.fields[..j + 1], key)| == 0
    ensures o == WhereText(r, before + Matching(r.schema.fields[..j + 1], key))
  {
    var fields := r.schema.fields;
    ghost var ks := before + Matching(fields[..j], key);
    MatchingStep(fields, key, j);
    o, first := o0, first0;
    if fields[j].name == key {
      o, first := AppendCondition(r, j, ks, o, first);
      AppendAssoc(before, Matching(fields[..j], key), [fields[j]]);
      assert before + Matching(fields[..j + 1], key) == ks + [fields[j]];
    }
  }

  /** One key of get_where_from_primary_keys: the error for a key the model
      lacks, otherwise the conditions of the fields of that name. */
  method WhereForKeyAt(r: Record, k: nat, ghost ks: seq<Field>, o0: string, first0: bool)
      returns (o: string, first: bool, ghost ks': seq<Field>, missing: bool)
    requires r.WellFormed() && k < |r.schema.keys|
    requires KeyFieldsOf(r.schema.fields, r.schema.keys[..k], r.schema.name) == Success(ks)
    requires first0 <==> |ks| == 0
    requires o0 == WhereText(r, ks)
    ensures missing ==> KeyFieldsOf(r.schema.fields, r.schema.keys[..k + 1], r.schema.name) == Failure(Inexistent(r.schema.keys[k], r.schema.name))
    ensures !missing ==> KeyFieldsOf(r.schema.fields, r.schema.keys[..k + 1], r.schema.name) == Success(ks')
    ensures !missing ==> (first <==> |ks'| == 0) && o == WhereText(r, ks')
  {
    var key := r.schema.keys[k];
    KeyFieldsOfStep(r.schema.fields, r.schema.keys, r.schema.name, k);
    o, first, ks', missing := o0, first0, ks, false;
    var index := IndexOf(r.schema.fields, key, 0);
    if index < 0 {
      missing := true;
      return;
    }
    o, first := WhereForKey(r, key, ks, o, first);
    ks' := ks + Matching(r.schema.fields, key);
  }

  /** get_where_from_primary_keys: walks the keys, stopping at the first one
      the model lacks, and writes the conditions of each. */
  method BuildWhere(r: Record) returns (res: Result<string>)
    requires r.WellFormed()
    ensures res == WhereSql(r)
  {
    var o := " WHERE ";
    var first := true;
    ghost var ks: seq<Field> := [];
    EndSlices(r.schema.keys);
    for k := 0 to |r.schema.keys|
      invariant KeyFieldsOf(r.schema.fields, r.schema.keys[..k], r.schema.name) == Success(ks)
      invariant first <==> |ks| == 0
      invariant o == WhereText(r, ks)
    {
      var missing;
      o, first, ks, missing := WhereForKeyAt(r, k, ks, o, first);
      if missing {
        KeyFieldsOfPrefixFailure(r.schema.fields, r.schema.keys, r.schema.name, k + 1);
        return Failure(Inexistent(r.schema.keys[k], r.schema.name));
      }
    }
    res := Success(o);
  }

  lemma SettingStep(head: string, cols: seq<string>, vs: seq<string>, c: string, v: string, o: string)
    requires |cols| == |vs| && o == head + Join(", ", Pairs(cols, vs))
    ensures (if cols == [] then o + c + " = " + v else o + ", " + c + " = " + v)
      == head + Join(", ", Pairs(cols + [c], vs + [v]))
  {
    var p := c + " = " + v;
    PairsStep(cols, vs, c, v);
    JoinStep(head, ", ", Pairs(cols, vs), p, o);
    var q := if cols == [] then o else o + ", ";
    AppendAssoc(q, c, " = ");
    AppendAssoc(q, c + " = ", v);
    assert q + c + " = " + v == q + p;
  }

  /** One field of update's SET list: skipped when its default stands in
      for a null, otherwise `, name = value` under the `first` counter, or
      the rejection of its cell. */
  method WriteSetting(r: Record, i: nat, head: string, o: string, first: nat, ghost cols: seq<string>, ghost vs: seq<string>)
    returns (o': string, first': nat, ghost cols': seq<string>, ghost vs': seq<string>, rejected: Option<string>)
    requires r.WellFormed() && i < |r.schema.fields|
    requires Values(Updating, r.schema.name, r.schema.fields[..i], r.cells[..i]) == Success(vs)
    requires Columns(r.schema.fields[..i], r.cells[..i]) == cols
    requires first == |cols| == |vs| && o == head + Join(", ", Pairs(cols, vs))
    ensures rejected.Some? ==> Values(Updating, r.schema.name, r.schema.fields[..i + 1], r.cells[..i + 1]) == Failure(rejected.value)
    ensures rejected.None? ==>
      && Values(Updating, r.schema.name, r.schema.fields[..i + 1], r.cells[..i + 1]) == Success(vs')
      && Columns(r.schema.fields[..i + 1], r.cells[..i + 1]) == cols'
      && first' == |cols'| == |vs'| && o' == head + Join(", ", Pairs(cols', vs'))
  {
    var f := r.schema.fields[i];
    var value := CellAt(r, i);
    ColumnsStep(r.schema.fields, r.cells, i);
    ValuesStep(Updating, r.schema.name, r.schema.fields, r.cells, i);
    o', first', cols', vs', rejected := o, first, cols, vs, None;
    if !DefaultWithNull(f, value) {
      if first != 0 {
        o' := o' + ", ";
      }
      first' := first + 1;
      o' := o' + f.name + " = ";
      rejected := Rejection(Updating, r.schema.name, f, value);
      if rejected.Some? {
        return;
      }
      SettingStep(head, cols, vs, f.name, Literal(value), o);
      o' := o' + Literal(value);
      cols' := cols + [f.name];
      vs' := vs + [Literal(value)];
    }
  }

  /** update's SET list: `name = value` for every written field under a
      `first` counter; the first cell its column refuses aborts it. */
  method WriteSettings(r: Record, head: string) returns (res: Result<string>)
    requires r.WellFormed()
    ensures var vs := Values(Updating, r.schema.name, r.schema.fields, r.cells);
      res == if vs.Failure? then Failure(vs.error)
             else Success(head + Join(", ", Pairs(Columns(r.schema.fields, r.cells), vs.value)))
  {
    var o := head;
    var first := 0;
    ghost var cols: seq<string> := [];
    ghost var vs: seq<string> := [];
    for i := 0 to |r.schema.fields|
      invariant Values(Updating, r.schema.name, r.schema.fields[..i], r.cells[..i]) == Success(vs)
      invariant Columns(r.schema.fields[..i], r.cells[..i]) == cols
      invariant first == |cols| == |vs|
      invariant o == head + Join(", ", Pairs(cols, vs))
    {
      var rejected;
      o, first, cols, vs, rejected := WriteSetting(r, i, head, o, first, cols, vs);
      if rejected.Some? {
        ValuesPrefixFailure(Updating, r.schema.name, r.schema.fields, r.cells, i + 1);
        return Failure(rejected.value);
      }
    }
    FullSlices(r.schema.fields, r.cells);
    res := Success(o);
  }

  /** update's statement text: the SET list, then the key WHERE and ";". */
  method BuildUpdate(r: Record) returns (res: Result<string>)
    requires r.WellFormed()
    ensures res == UpdateSql(r)
  {
    if |r.schema.fields| == 0 {
      return Failure(NoFields(r.schema.name));
    }
    var settings := WriteSettings(r, "UPDATE " + r.schema.name + " SET ");
    if settings.Failure? {
      return Failure(settings.error);
    }
    var where := BuildWhere(r);
    if where.Failure? {
      return Failure(where.error);
    }
    res := Success(settings.value + where.value + ";");
  }

  /** remove's statement text. */
  method BuildDelete(r: Record) returns (res: Result<string>)
    requires r.WellFormed()
    ensures res == DeleteSql(r)
  {
    var o := "DELETE FROM " + r.schema.name;
    var where := BuildWhere(r);
    if where.Failure? {
      return Failure(where.error);
    }
    res := Success(o + where.value + ";");
  }
}

=== FILE: ddl.dfy ===
/** SqliteDatabase::create_ddl: the CREATE TABLE text of a model, with the
    declaration errors it raises. */
module Ddl {
  import opened Wrappers
  import opened Strings
  import opened DataClass

  /** The column type written for each FieldType. */
  function TypeName(k: FieldType): string
  {
    match k
    case Serial => " INTEGER PRIMARY KEY AUTOINCREMENT"
    case Bool => " BOOLEAN"
    case Int => " INTEGER"
    case Decimal => " REAL"
    case Text => " TEXT"
    case Timestamp => " TIMESTAMP"
  }

  function NullableWithDefault(field: string, model: string): string
  {
    "Unable to use default value with nullable field '" + field + "' in '" + model + "'"
  }

  function NullableKey(model: string): string
  {
    "Primary key of '" + model + "' must be not null"
  }

  function SerialNotUnique(table: string): string
  {
    "Serial must be the unique primary key on table '" + table + "'"
  }

  /** A nullable field may not carry a default. */
  predicate Misdeclared(f: Field)
  {
    f.nullable && f.defaultValue.Some?
  }

  /** One column: name, type, then NULL, or NOT NULL and the default. */
  function ColumnDef(model: string, f: Field): (r: Result<string>)
    ensures r.Failure? <==> Misdeclared(f)
    ensures r.Failure? ==> r.error == NullableWithDefault(f.name, model)
    ensures r.Success? && f.nullable ==> r.value == f.name + TypeName(f.kind) + " NULL"
    ensures r.Success? && !f.nullable && f.defaultValue.None? ==> r.value == f.name + TypeName(f.kind) + " NOT NULL"
    ensures r.Success? && f.defaultValue.Some? ==>
      r.value == f.name + TypeName(f.kind) + " NOT NULL" + " DEFAULT " + f.defaultValue.value
  {
    var head := f.name + TypeName(f.kind);
    if f.nullable then
      if f.defaultValue.Some? then Failure(NullableWithDefault(f.name, model)) else Success(head + " NULL")
    else
      match f.defaultValue
      case None => Success(head + " NOT NULL")
      case Some(d) => Success(head + " NOT NULL" + " DEFAULT " + d)
  }

  /** The column definitions in field order; the first misdeclared field
      stops the walk. */
  function ColumnDefs(model: string, fields: seq<Field>): (r: Result<seq<string>>)
    ensures r.Success? ==> |r.value| == |fields|
  {
    if fields == [] then Success([])
    else
      var n := |fields| - 1;
      match ColumnDefs(model, fields[..n])
      case Failure(e) => Failure(e)
      case Success(defs) =>
        match ColumnDef(model, fields[n])
        case Failure(e) => Failure(e)
        case Success(d) => Success(defs + [d])
  }

  /** The walk succeeds exactly when no field is misdeclared. */
  lemma {:induction false} ColumnDefsSucceed(model: string, fields: seq<Field>)
    ensures ColumnDefs(model, fields).Success? <==> forall i :: 0 <= i < |fields| ==> !Misdeclared(fields[i])
    decreases |fields|
  {
    if fields != [] {
      var n := |fields| - 1;
      var init := fields[..n];
      ColumnDefsSucceed(model, init);
      assert forall j :: 0 <= j < n ==> init[j] == fields[j];
    }
  }

  /** A successful walk yields each field's column, in field order. */
  lemma {:induction false} ColumnDefsValues(model: string, fields: seq<Field>)
    requires ColumnDefs(model, fields).Success?
    ensures forall i :: 0 <= i < |fields| ==> ColumnDef(model, fields[i]) == Success(ColumnDefs(model, fields).value[i])
    decreases |fields|
  {
    if fields != [] {
      var n := |fields| - 1;
      var init := fields[..n];
      ColumnDefsValues(model, init);
      var r := ColumnDefs(model, fields).value;
      var ri := ColumnDefs(model, init).value;
      assert r == ri + [ColumnDef(model, fields[n]).value];
      forall i | 0 <= i < n ensures ColumnDef(model, fields[i]) == Success(r[i]) {
        assert init[i] == fields[i];
        assert r[i] == ri[i];
      }
    }
  }

  /** A failed walk reports the first misdeclared field. */
  lemma {:induction false} ColumnDefsFailure(model: string, fields: seq<Field>)
    requires ColumnDefs(model, fields).Failure?
    ensures exists i :: (0 <= i < |fields| && Misdeclared(fields[i])
      && ColumnDefs(model, fields).error == NullableWithDefault(fields[i].name, model)
      && forall j :: 0 <= j < i ==> !Misdeclared(fields[j]))
    decreases |fields|
  {
    var n := |fields| - 1;
    var init := fields[..n];
    var e := ColumnDefs(model, fields).error;
    if ColumnDefs(model, init).Failure? {
      ColumnDefsFailure(model, init);
      var i :| 0 <= i < n && Misdeclared(init[i]) && ColumnDefs(model, init).error == NullableWithDefault(init[i].name, model)
                 && forall j :: 0 <= j < i ==> !Misdeclared(init[j]);
      assert init[i] == fields[i];
      assert forall j :: 0 <= j < i ==> init[j] == fields[j];
      assert e == NullableWithDefault(fields[i].name, model);
    } else {
      ColumnDefsSucceed(model, init);
      assert forall j :: 0 <= j < n ==> init[j] == fields[j];
      assert e == NullableWithDefault(fields[n].name, model);
    }
  }

  /** The walk succeeds exactly when no field is misdeclared, then yields
      each field's column in field order; otherwise it reports the first
      misdeclared field. */
  lemma ColumnDefsMeaning(model: string, fields: seq<Field>)
    ensures var r := ColumnDefs(model, fields);
      && (r.Success? <==> forall i :: 0 <= i < |fields| ==> !Misdeclared(fields[i]))
      && (r.Success? ==> forall i :: 0 <= i < |fields| ==> ColumnDef(model, fields[i]) == Success(r.value[i]))
      && (r.Failure? ==>
        exists i :: 0 <= i < |fields| && Misdeclared(fields[i]) && r.error == NullableWithDefault(fields[i].name, model)
                   && forall j :: 0 <= j < i ==> !Misdeclared(fields[j]))
  {
    ColumnDefsSucceed(model, fields);
    if ColumnDefs(model, fields).Success? {
      ColumnDefsValues(model, fields);
    } else {
      ColumnDefsFailure(model, fields);
    }
  }

  /** The first misdeclared field ends the walk. */
  lemma {:induction false} ColumnDefsPrefixFailure(model: string, fields: seq<Field>, k: nat)
    requires k <= |fields| && ColumnDefs(model, fields[..k]).Failure?
    ensures ColumnDefs(model, fields) == ColumnDefs(model, fields[..k])
    decreases |fields|
  {
    if k < |fields| {
      var n := |fields| - 1;
      assert fields[..n][..k] == fields[..k];
      ColumnDefsPrefixFailure(model, fields[..n], k);
    } else {
      assert fields[..k] == fields;
    }
  }

  lemma ColumnDefsStep(model: string, fields: seq<Field>, k: nat)
    requires k < |fields|
    ensures ColumnDefs(model, fields[..k + 1]) ==
      match ColumnDefs(model, fields[..k])
      case Failure(e) => Failure(e)
      case Success(defs) =>
        match ColumnDef(model, fields[k])
        case Failure(e) => Failure(e)
        case Success(d) => Success(defs + [d])
  {
    assert fields[..k + 1][..k] == fields[..k];
  }

  /** What the first get_keys walk of create_ddl reports for one key: the
      key must name a field ("Inexistent primary key") and that field must
      not be nullable. The model passed in was constructed, so its names are
      distinct and the field of a key is the one IndexOf finds. */
  function KeyError(fields: seq<Field>, key: string, table: string): (r: Option<string>)
    ensures !Declares(fields, key) ==> r == Some(Inexistent(key, table))
    ensures Declares(fields, key) ==> (r.None? <==> !fields[IndexOf(fields, key, 0)].nullable)
    ensures r.Some? && Declares(fields, key) ==> r == Some(NullableKey(table))
  {
    var i := IndexOf(fields, key, 0);
    if i < 0 then Some(Inexistent(key, table))
    else if fields[i].nullable then Some(NullableKey(table))
    else None
  }

  /** The walk over the keys in order; the first bad key decides the error. */
  function KeyCheck(fields: seq<Field>, keys: seq<string>, table: string): (r: Outcome)
    ensures keys == [] ==> r.Pass?
  {
    if keys == [] then Pass
    else
      var n := |keys| - 1;
      var rest := KeyCheck(fields, keys[..n], table);
      if rest.Fail? then rest
      else
        var e := KeyError(fields, keys[n], table);
        if e.Some? then Fail(e.value) else Pass
  }

  /** The walk passes exactly when every key is good. */
  lemma {:induction false} KeyCheckPasses(fields: seq<Field>, keys: seq<string>, table: string)
    ensures KeyCheck(fields, keys, table).Pass? <==> forall i :: 0 <= i < |keys| ==> KeyError(fields, keys[i], table).None?
    decreases |keys|
  {
    if keys != [] {
      var n := |keys| - 1;
      var init := keys[..n];
      KeyCheckPasses(fields, init, table);
      assert forall j :: 0 <= j < n ==> init[j] == keys[j];
    }
  }

  /** A failed walk reports the error of the first bad key. */
  lemma {:induction false} KeyCheckFailure(fields: seq<Field>, keys: seq<string>, table: string)
    requires KeyCheck(fields, keys, table).Fail?
    ensures exists i :: (0 <= i < |keys| && KeyError(fields, keys[i], table) == Some(KeyCheck(fields, keys, table).error)
      && forall j :: 0 <= j < i ==> KeyError(fields, keys[j], table).None?)
    decreases |keys|
  {
    var n := |keys| - 1;
    var init := keys[..n];
    var e := KeyCheck(fields, keys, table).error;
    if KeyCheck(fields, init, table).Fail? {
      KeyCheckFailure(fields, init, table);
      var i :| 0 <= i < n && KeyError(fields, init[i], table) == Some(KeyCheck(fields, init, table).error)
        && forall j :: 0 <= j < i ==> KeyError(fields, init[j], table).None?;
      assert init[i] == keys[i];
      assert forall j :: 0 <= j < i ==> init[j] == keys[j];
    } else {
      KeyCheckPasses(fields, init, table);
      assert forall j :: 0 <= j < n ==> init[j] == keys[j];
    }
  }

  /** The walk passes exactly when every key is good; otherwise it reports
      the error of the first bad key. */
  lemma KeyCheckMeaning(fields: seq<Field>, keys: seq<string>, table: string)
    ensures var r := KeyCheck(fields, keys, table);
      && (r.Pass? <==> forall i :: 0 <= i < |keys| ==> KeyError(fields, keys[i], table).None?)
      && (r.Fail? ==>
        exists i :: 0 <= i < |keys| && KeyError(fields, keys[i], table) == Some(r.error)
          && forall j :: 0 <= j < i ==> KeyError(fields, keys[j], table).None?)
  {
    KeyCheckPasses(fields, keys, table);
    if KeyCheck(fields, keys, table).Fail? {
      KeyCheckFailure(fields, keys, table);
    }
  }

  lemma {:induction false} KeyCheckPrefixFailure(fields: seq<Field>, keys: seq<string>, table: string, k: nat)
    requires k <= |keys| && KeyCheck(fields, keys[..k], table).Fail?
    ensures KeyCheck(fields, keys, table) == KeyCheck(fields, keys[..k], table)
    decreases |keys|
  {
    if k < |keys| {
      var n := |keys| - 1;
      assert keys[..n][..k] == keys[..k];
      KeyCheckPrefixFailure(fields, keys[..n], table, k);
    } else {
      assert keys[..k] == keys;
    }
  }

  predicate HasSerial(fields: seq<Field>)
  {
    exists j :: 0 <= j < |fields| && fields[j].kind == Serial
  }

  /** With a Serial column, that column is the key and no PRIMARY KEY clause
      is written, but the key list must have exactly one entry; otherwise a
      non-empty key list is written out. */
  function KeyClause(s: Schema): (r: Result<string>)
    ensures r.Failure? <==> HasSerial(s.fields) && |s.keys| != 1
    ensures r.Failure? ==> r.error == SerialNotUnique(s.name)
    ensures r.Success? && (HasSerial(s.fields) || s.keys == []) ==> r.value == ""
    ensures r.Success? && !HasSerial(s.fields) && s.keys != [] ==> r.value == ", PRIMARY KEY (" + Join(", ", s.keys) + ")"
  {
    if HasSerial(s.fields) then
      if |s.keys| != 1 then Failure(SerialNotUnique(s.name)) else Success("")
    else if |s.keys| == 0 then Success("")
    else Success(", PRIMARY KEY (" + Join(", ", s.keys) + ")")
  }

  /** The second get_keys walk, which collects the key names for the
      PRIMARY KEY clause, cannot fail once the first has passed, and on a
      constructed model it yields the keys themselves, in order. */
  lemma PrimaryKeyNames(s: Schema)
    requires Distinct(FieldNames(s.fields)) && KeyCheck(s.fields, s.keys, s.name).Pass?
    ensures KeyFields(s).Success? && FieldNames(KeyFields(s).value) == s.keys
  {
    KeyCheckPasses(s.fields, s.keys, s.name);
    KeyFieldsOfFails(s.fields, s.keys, s.name);
    forall i | 0 <= i < |s.keys| ensures Declares(s.fields, s.keys[i]) {
      assert KeyError(s.fields, s.keys[i], s.name).None?;
    }
    KeyFieldsOfSuccess(s.fields, s.keys, s.name);
    var kf := KeyFields(s).value;
    var names := FieldNames(kf);
    forall i | 0 <= i < |names| ensures names[i] == s.keys[i] {
      assert names[i] == kf[i].name;
    }
  }

  /** "(k)" for every key field of the referenced model, with nothing in
      between. */
  function TargetKeys(names: seq<string>): (r: string)
    ensures |names| == 1 ==> r == "(" + names[0] + ")"
  {
    if names == [] then "" else TargetKeys(names[..|names| - 1]) + ("(" + names[|names| - 1] + ")")
  }

  lemma TargetKeysStep(names: seq<string>, j: nat)
    requires j < |names|
    ensures TargetKeys(names[..j + 1]) == TargetKeys(names[..j]) + ("(" + names[j] + ")")
  {
    assert names[..j + 1][..j] == names[..j];
  }

  /** One FOREIGN KEY clause; the referenced model's get_keys can fail. */
  function ReferenceClause(r: Refer): (res: Result<string>)
    ensures res.Failure? <==> KeyFields(r.target).Failure?
    ensures res.Success? ==>
      res.value == "FOREIGN KEY(" + r.name + ") REFERENCES " + r.target.name + TargetKeys(FieldNames(KeyFields(r.target).value))
  {
    match KeyFields(r.target)
    case Failure(e) => Failure(e)
    case Success(kf) => Success("FOREIGN KEY(" + r.name + ") REFERENCES " + r.target.name + TargetKeys(FieldNames(kf)))
  }

  function ReferenceClauses(refers: seq<Refer>): (r: Result<seq<string>>)
    ensures r.Success? ==> |r.value| == |refers|
  {
    if refers == [] then Success([])
    else
      var c := ReferenceClause(refers[0]);
      if c.Failure? then Failure(c.error)
      else
        var rest := ReferenceClauses(refers[1..]);
        if rest.Failure? then rest
        else Success([c.value] + rest.value)
  }

  /** The clauses are written exactly when every referenced model has its
      keys. */
  lemma {:induction false} ReferenceClausesSucceed(refers: seq<Refer>)
    ensures ReferenceClauses(refers).Success? <==> forall i :: 0 <= i < |refers| ==> ReferenceClause(refers[i]).Success?
    decreases |refers|
  {
    if refers != [] {
      var tail := refers[1..];
      ReferenceClausesSucceed(tail);
      if ReferenceClause(refers[0]).Success? && ReferenceClauses(tail).Failure? {
        var j :| 0 <= j < |tail| && ReferenceClause(tail[j]).Failure?;
        assert tail[j] == refers[j + 1];
      }
      if forall i :: 0 <= i < |refers| ==> ReferenceClause(refers[i]).Success? {
        assert forall j :: 0 <= j < |tail| ==> tail[j] == refers[j + 1];
      }
    }
  }

  /** One clause per reference, in order. */
  lemma {:induction false} ReferenceClausesValues(refers: seq<Refer>)
    requires ReferenceClauses(refers).Success?
    ensures forall i :: 0 <= i < |refers| ==> ReferenceClause(refers[i]) == Success(ReferenceClauses(refers).value[i])
    decreases |refers|
  {
    if refers != [] {
      var tail := refers[1..];
      ReferenceClausesValues(tail);
      var r := ReferenceClauses(refers).value;
      var rest := ReferenceClauses(tail).value;
      assert r == [ReferenceClause(refers[0]).value] + rest;
      forall i | 0 < i < |refers| ensures ReferenceClause(refers[i]) == Success(r[i]) {
        assert refers[i] == tail[i - 1];
        assert r[i] == rest[i - 1];
      }
    }
  }

  lemma ReferenceClausesMeaning(refers: seq<Refer>)
    ensures var r := ReferenceClauses(refers);
      && (r.Success? <==> forall i :: 0 <= i < |refers| ==> ReferenceClause(refers[i]).Success?)
      && (r.Success? ==> forall i :: 0 <= i < |refers| ==> ReferenceClause(refers[i]) == Success(r.value[i]))
  {
    ReferenceClausesSucceed(refers);
    if ReferenceClauses(refers).Success? {
      ReferenceClausesValues(refers);
    }
  }

  /** The first reference whose model has no keys decides the error. */
  lemma {:induction false} ReferenceClausesFirstFailure(refers: seq<Refer>, k: nat)
    requires k < |refers| && ReferenceClause(refers[k]).Failure?
    requires forall i :: 0 <= i < k ==> ReferenceClause(refers[i]).Success?
    ensures ReferenceClauses(refers) == Failure(ReferenceClause(refers[k]).error)
    decreases k
  {
    if k > 0 {
      assert forall i :: 0 <= i < k - 1 ==> refers[1..][i] == refers[i + 1];
      ReferenceClausesFirstFailure(refers[1..], k - 1);
      assert refers[1..][k - 1] == refers[k];
    }
  }

  /** The clauses are determined one reference at a time. */
  lemma ReferenceClausesOf(refers: seq<Refer>, cs: seq<string>)
    requires |cs| == |refers| && forall i :: 0 <= i < |refers| ==> ReferenceClause(refers[i]) == Success(cs[i])
    ensures ReferenceClauses(refers) == Success(cs)
  {
    ReferenceClausesMeaning(refers);
    var r := ReferenceClauses(refers);
    assert r.Success?;
    assert forall i :: 0 <= i < |cs| ==> r.value[i] == cs[i];
    assert r.value == cs;
  }

  lemma TwoReferenceClauses(r0: Refer, r1: Refer, c0: string, c1: string)
    requires ReferenceClause(r0) == Success(c0) && ReferenceClause(r1) == Success(c1)
    ensures ReferenceClauses([r0, r1]) == Success([c0, c1])
  {
    ReferenceClausesOf([r0, r1], [c0, c1]);
  }

  /** ", " and the FOREIGN KEY clauses, written with `sep` between them. */
  function ForeignClause(sep: string, refers: seq<Refer>): (r: Result<string>)
    ensures r.Failure? <==> ReferenceClauses(refers).Failure?
    ensures r.Success? && refers == [] ==> r.value == ""
    ensures r.Success? && refers != [] ==> r.value == ", " + Join(sep, ReferenceClauses(refers).value)
  {
    if refers == [] then Success("")
    else
      match ReferenceClauses(refers)
      case Failure(e) => Failure(e)
      case Success(cs) => Success(", " + Join(sep, cs))
  }

  /** The statement, with `sep` between FOREIGN KEY clauses. */
  function DdlText(sep: string, s: Schema): (r: Result<string>)
    requires Distinct(FieldNames(s.fields))
  {
    match ColumnDefs(s.name, s.fields)
    case Failure(e) => Failure(e)
    case Success(defs) =>
      match KeyCheck(s.fields, s.keys, s.name)
      case Fail(e) => Failure(e)
      case Pass =>
        match KeyClause(s)
        case Failure(e) => Failure(e)
        case Success(pk) =>
          match ForeignClause(sep, s.refers)
          case Failure(e) => Failure(e)
          case Success(fk) => Success("CREATE TABLE IF NOT EXISTS " + s.name + " (" + Join(", ", defs) + pk + fk + ");")
  }

  /** create_ddl as written: the FOREIGN KEY clauses follow each other with
      no separator. */
  function CreateDdlAsWritten(s: Schema): (r: Result<string>)
    requires Distinct(FieldNames(s.fields))
    ensures r.Failure? <==> CreateDdl(s).Failure?
    ensures |s.refers| <= 1 ==> r == CreateDdl(s)
  {
    ReferenceClausesSingle(s.refers);
    DdlText("", s)
  }

  /** create_ddl with the FOREIGN KEY clauses separated by ", ", the form
      the rest of the model uses. */
  function CreateDdl(s: Schema): (r: Result<string>)
    requires Distinct(FieldNames(s.fields))
    ensures r.Success? <==>
      (forall i :: 0 <= i < |s.fields| ==> !Misdeclared(s.fields[i]))
      && KeyCheck(s.fields, s.keys, s.name).Pass?
      && !(HasSerial(s.fields) && |s.keys| != 1)
      && (forall i :: 0 <= i < |s.refers| ==> KeyFields(s.refers[i].target).Success?)
  {
    ColumnDefsMeaning(s.name, s.fields);
    KeyCheckMeaning(s.fields, s.keys, s.name);
    ReferenceClausesMeaning(s.refers);
    DdlText(", ", s)
  }

  lemma ReferenceClausesSingle(refers: seq<Refer>)
    ensures |refers| <= 1 && ReferenceClauses(refers).Success? ==>
      Join("", ReferenceClauses(refers).value) == Join(", ", ReferenceClauses(refers).value)
  {
  }

  /** The checks run in order: misdeclared fields, then the keys, then the
      Serial rule, then the referenced models' keys; a model that passes all
      of them gets its statement. */
  lemma CreateDdlFailure(s: Schema)
    requires Distinct(FieldNames(s.fields))
    ensures CreateDdl(s).Success? <==>
      (forall i :: 0 <= i < |s.fields| ==> !Misdeclared(s.fields[i]))
      && KeyCheck(s.fields, s.keys, s.name).Pass?
      && !(HasSerial(s.fields) && |s.keys| != 1)
      && (forall i :: 0 <= i < |s.refers| ==> KeyFields(s.refers[i].target).Success?)
    ensures ColumnDefs(s.name, s.fields).Failure? ==> CreateDdl(s) == Failure(ColumnDefs(s.name, s.fields).error)
    ensures ColumnDefs(s.name, s.fields).Success? && KeyCheck(s.fields, s.keys, s.name).Fail? ==>
      CreateDdl(s) == Failure(KeyCheck(s.fields, s.keys, s.name).error)
    ensures ColumnDefs(s.name, s.fields).Success? && KeyCheck(s.fields, s.keys, s.name).Pass? && HasSerial(s.fields) && |s.keys| != 1 ==>
      CreateDdl(s) == Failure(SerialNotUnique(s.name))
  {
    ColumnDefsMeaning(s.name, s.fields);
    KeyCheckMeaning(s.fields, s.keys, s.name);
    ReferenceClausesMeaning(s.refers);
  }

  /** A successful statement lists every column in field order and, for a
      model without Serial column, its keys in key order. */
  lemma CreateDdlShape(s: Schema)
    requires Distinct(FieldNames(s.fields)) && CreateDdl(s).Success?
    ensures var defs := ColumnDefs(s.name, s.fields).value;
      |defs| == |s.fields| && (forall i :: 0 <= i < |s.fields| ==> ColumnDef(s.name, s.fields[i]) == Success(defs[i]))
      && CreateDdl(s).value == "CREATE TABLE IF NOT EXISTS " + s.name + " (" + Join(", ", defs)
        + KeyClause(s).value + ForeignClause(", ", s.refers).value + ");"
  {
    ColumnDefsMeaning(s.name, s.fields);
  }

  // ---------------------------------------------------------------------
  // The bookkeeping table of the migrations
  // ---------------------------------------------------------------------

  /** MigracaoModel: key "id", no references, a non-null integer "id" and a
      nullable integer "version". */
  const MigracaoSchema: Schema :=
    Schema("migracao", [Field("id", Int, false, None), Field("version", Int, true, None)], ["id"], [])

  lemma MigracaoNames()
    ensures FieldNames(MigracaoSchema.fields) == ["id", "version"]
    ensures Distinct(FieldNames(MigracaoSchema.fields))
  {
  }

  /** The statement assembled from its parts once every check has passed. */
  lemma DdlTextOf(sep: string, s: Schema, defs: seq<string>, pk: string, fk: string)
    requires Distinct(FieldNames(s.fields))
    requires ColumnDefs(s.name, s.fields) == Success(defs) && KeyCheck(s.fields, s.keys, s.name).Pass?
    requires KeyClause(s) == Success(pk) && ForeignClause(sep, s.refers) == Success(fk)
    ensures DdlText(sep, s) == Success("CREATE TABLE IF NOT EXISTS " + s.name + " (" + Join(", ", defs) + pk + fk + ");")
  {
  }

  lemma ColumnDefNotNull(model: string, f: Field, d: string)
    requires !f.nullable && f.defaultValue.None? && d == f.name + TypeName(f.kind) + " NOT NULL"
    ensures ColumnDef(model, f) == Success(d)
  {
  }

  lemma ColumnDefNull(model: string, f: Field, d: string)
    requires f.nullable && f.defaultValue.None? && d == f.name + TypeName(f.kind) + " NULL"
    ensures ColumnDef(model, f) == Success(d)
  {
  }

  lemma MigracaoColumns()
    ensures ColumnDefs("migracao", MigracaoSchema.fields) == Success(["id INTEGER NOT NULL", "version INTEGER NULL"])
  {
    var s := MigracaoSchema;
    var defs := ["id INTEGER NOT NULL", "version INTEGER NULL"];
    ColumnDefNotNull(s.name, s.fields[0], defs[0]);
    ColumnDefNull(s.name, s.fields[1], defs[1]);
    assert s.fields[..0] == [];
    assert ColumnDefs(s.name, s.fields[..0]) == Success([]);
    ColumnDefsStep(s.name, s.fields, 0);
    assert [] + [defs[0]] == [defs[0]];
    assert ColumnDefs(s.name, s.fields[..1]) == Success([defs[0]]);
    ColumnDefsStep(s.name, s.fields, 1);
    assert s.fields[..2] == s.fields;
    assert [defs[0]] + [defs[1]] == defs;
  }

  lemma MigracaoKeys()
    ensures KeyCheck(MigracaoSchema.fields, MigracaoSchema.keys, "migracao") == Pass
    ensures KeyClause(MigracaoSchema) == Success(", PRIMARY KEY (id)")
  {
    var s := MigracaoSchema;
    assert IndexOf(s.fields, "id", 0) == 0;
    assert !HasSerial(s.fields);
    assert Join(", ", s.keys) == "id";
    var pk := KeyClause(s);
    assert pk.Success?;
    assert pk.value == ", PRIMARY KEY (id)";
  }

  /** The table the constructor creates first: its two columns, then its
      key. */
  lemma MigracaoDdl()
    ensures Distinct(FieldNames(MigracaoSchema.fields))
    ensures CreateDdl(MigracaoSchema) ==
      Success("CREATE TABLE IF NOT EXISTS migracao (" + Join(", ", ["id INTEGER NOT NULL", "version INTEGER NULL"])
        + ", PRIMARY KEY (id)" + ");")
  {
    MigracaoNames();
    var defs := ["id INTEGER NOT NULL", "version INTEGER NULL"];
    MigracaoColumns();
    MigracaoKeys();
    DdlTextOf(", ", MigracaoSchema, defs, ", PRIMARY KEY (id)", "");
    var body := "CREATE TABLE IF NOT EXISTS " + MigracaoSchema.name + " (";
    assert body == "CREATE TABLE IF NOT EXISTS migracao (";
    var full := body + Join(", ", defs) + ", PRIMARY KEY (id)";
    assert full + "" == full;
  }

  // ---------------------------------------------------------------------
  // Two references
  // ---------------------------------------------------------------------

  /** Writing a list with a separator adds the separator once between each
      pair of neighbours. */
  lemma {:induction false} JoinLength(sep: string, parts: seq<string>)
    requires parts != []
    ensures |Join(sep, parts)| == |Join("", parts)| + |sep| * (|parts| - 1)
  {
    if |parts| > 1 {
      JoinLength(sep, parts[..|parts| - 1]);
    }
  }

  /** As written, a model with n references gets a statement 2 * (n - 1)
      characters shorter than the one with ", " between the clauses: the
      missing separators. */
  lemma ForeignKeysMissingSeparators(s: Schema)
    requires Distinct(FieldNames(s.fields)) && CreateDdl(s).Success?
    ensures CreateDdlAsWritten(s).Success?
    ensures |s.refers| >= 1 ==> |CreateDdl(s).value| == |CreateDdlAsWritten(s).value| + 2 * (|s.refers| - 1)
    ensures |s.refers| >= 2 ==> CreateDdlAsWritten(s) != CreateDdl(s)
  {
    if |s.refers| >= 1 {
      var cs := ReferenceClauses(s.refers).value;
      JoinLength(", ", cs);
    }
  }

  const Owner: Schema := Schema("owner", [Field("id", Int, false, None)], ["id"], [])
  const Kind: Schema := Schema("kind", [Field("id", Int, false, None)], ["id"], [])
  const Pet: Schema := Schema("pet",
    [Field("id", Serial, false, None), Field("owner", Int, false, None), Field("kind", Int, false, None)],
    ["id"], [Refer("owner", Owner), Refer("kind", Kind)])

  /** A model whose only field is its key. */
  lemma SingleKeyFields(s: Schema)
    requires |s.fields| == 1 && s.keys == [s.fields[0].name]
    ensures KeyFields(s) == Success(s.fields)
  {
    var f := s.fields[0];
    assert s.keys[..0] == [];
    assert KeyFieldsOf(s.fields, s.keys[..0], s.name) == Success([]);
    assert s.fields[..0] == [];
    assert Matching(s.fields[..0], f.name) == [];
    assert Matching(s.fields, f.name) == [f];
    assert IndexOf(s.fields, f.name, 0) == 0;
    assert [] + [f] == s.fields;
  }

  lemma SingleKeyReference(name: string, t: Schema)
    requires |t.fields| == 1 && t.keys == [t.fields[0].name]
    ensures ReferenceClause(Refer(name, t)) ==
      Success("FOREIGN KEY(" + name + ") REFERENCES " + t.name + ("(" + t.fields[0].name + ")"))
  {
    SingleKeyFields(t);
    assert FieldNames(t.fields) == [t.fields[0].name];
  }

  lemma OwnerClause()
    ensures ReferenceClause(Refer("owner", Owner)) == Success("FOREIGN KEY(owner) REFERENCES owner(id)")
  {
    SingleKeyReference("owner", Owner);
    assert "FOREIGN KEY(" + "owner" + ") REFERENCES " + "owner" + ("(" + "id" + ")") == "FOREIGN KEY(owner) REFERENCES owner(id)";
  }

  lemma KindClause()
    ensures ReferenceClause(Refer("kind", Kind)) == Success("FOREIGN KEY(kind) REFERENCES kind(id)")
  {
    SingleKeyReference("kind", Kind);
    assert "FOREIGN KEY(" + "kind" + ") REFERENCES " + "kind" + ("(" + "id" + ")") == "FOREIGN KEY(kind) REFERENCES kind(id)";
  }

  lemma PetReferences()
    ensures ReferenceClauses(Pet.refers) ==
      Success(["FOREIGN KEY(owner) REFERENCES owner(id)", "FOREIGN KEY(kind) REFERENCES kind(id)"])
  {
    OwnerClause();
    KindClause();
    TwoReferenceClauses(Refer("owner", Owner), Refer("kind", Kind),
      "FOREIGN KEY(owner) REFERENCES owner(id)", "FOREIGN KEY(kind) REFERENCES kind(id)");
  }

  lemma ThreeDistinct(a: string, b: string, c: string)
    requires a != b && a != c && b != c
    ensures Distinct([a, b, c])
  {
  }

  lemma PetNames()
    ensures FieldNames(Pet.fields) == ["id", "owner", "kind"] && Distinct(FieldNames(Pet.fields))
  {
    ThreeDistinct("id", "owner", "kind");
  }

  lemma PetKeys()
    ensures KeyCheck(Pet.fields, Pet.keys, Pet.name) == Pass
    ensures HasSerial(Pet.fields) && |Pet.keys| == 1
  {
    assert IndexOf(Pet.fields, "id", 0) == 0;
    assert Pet.fields[0].kind == Serial;
  }

  lemma PetTargets()
    ensures forall i :: 0 <= i < |Pet.refers| ==> KeyFields(Pet.refers[i].target).Success?
  {
    SingleKeyFields(Owner);
    SingleKeyFields(Kind);
  }

  /** The model passes every check of create_ddl. */
  lemma PetAccepted()
    ensures Distinct(FieldNames(Pet.fields)) && CreateDdl(Pet).Success?
  {
    PetNames();
    PetKeys();
    PetTargets();
    assert forall i :: 0 <= i < |Pet.fields| ==> !Misdeclared(Pet.fields[i]);
    CreateDdlFailure(Pet);
  }

  /** A model with a Serial key and two references: it passes every check,
      and as written its FOREIGN KEY clauses run together
      ("...owner(id)FOREIGN KEY..."), with no ", " between them, where the
      intended text separates them. */
  lemma ForeignKeysRunTogether()
    ensures Distinct(FieldNames(Pet.fields)) && CreateDdl(Pet).Success?
    ensures ForeignClause("", Pet.refers) ==
      Success(", " + ("FOREIGN KEY(owner) REFERENCES owner(id)" + "FOREIGN KEY(kind) REFERENCES kind(id)"))
    ensures ForeignClause(", ", Pet.refers) ==
      Success(", " + ("FOREIGN KEY(owner) REFERENCES owner(id)" + ", " + "FOREIGN KEY(kind) REFERENCES kind(id)"))
    ensures CreateDdlAsWritten(Pet) != CreateDdl(Pet)
  {
    PetAccepted();
    PetReferences();
    var refs := ["FOREIGN KEY(owner) REFERENCES owner(id)", "FOREIGN KEY(kind) REFERENCES kind(id)"];
    assert Join("", refs) == refs[0] + "" + refs[1];
    assert refs[0] + "" == refs[0];
    assert Join(", ", refs) == refs[0] + ", " + refs[1];
    ForeignKeysMissingSeparators(Pet);
  }

  // ---------------------------------------------------------------------
  // The stream writer
  // ---------------------------------------------------------------------

  /** One column of create_ddl: the name, the type chosen by an if-chain,
      then the null clause; a nullable field with a default throws. */
  method WriteColumn(model: string, f: Field) returns (r: Result<string>)
    ensures r == ColumnDef(model, f)
  {
    var o := f.name;
    if f.kind == Serial {
      o := o + " INTEGER PRIMARY KEY AUTOINCREMENT";
    } else if f.kind == Bool {
      o := o + " BOOLEAN";
    } else if f.kind == Int {
      o := o + " INTEGER";
    } else if f.kind == Decimal {
      o := o + " REAL";
    } else if f.kind == Text {
      o := o + " TEXT";
    } else if f.kind == Timestamp {
      o := o + " TIMESTAMP";
    }
    assert o == f.name + TypeName(f.kind);
    if f.nullable {
      o := o + " NULL";
      if f.defaultValue.Some? {
        return Failure(NullableWithDefault(f.name, model));
      }
    } else {
      o := o + " NOT NULL";
      if f.defaultValue.Some? {
        o := o + " DEFAULT " + f.defaultValue.value;
      }
    }
    r := Success(o);
  }

  lemma HasSerialStep(fields: seq<Field>, i: nat)
    requires i < |fields|
    ensures HasSerial(fields[..i + 1]) <==> HasSerial(fields[..i]) || fields[i].kind == Serial
  {
    assert forall j :: 0 <= j < i ==> fields[..i + 1][j] == fields[..i][j];
    if fields[i].kind == Serial {
      assert fields[..i + 1][i] == fields[i];
    }
  }

  /** The column loop of create_ddl: ", " under a first flag, then each
      column; hasSerial records a Serial column. */
  method WriteColumns(s: Schema, head: string) returns (res: Result<string>, hasSerial: bool)
    ensures ColumnDefs(s.name, s.fields).Failure? ==> res == Failure(ColumnDefs(s.name, s.fields).error)
    ensures ColumnDefs(s.name, s.fields).Success? ==> res == Success(head + Join(", ", ColumnDefs(s.name, s.fields).value))
    ensures res.Success? ==> hasSerial == HasSerial(s.fields)
  {
    var o := head;
    var first := true;
    hasSerial := false;
    ghost var defs: seq<string> := [];
    for i := 0 to |s.fields|
      invariant ColumnDefs(s.name, s.fields[..i]) == Success(defs)
      invariant o == head + Join(", ", defs)
      invariant first <==> defs == []
      invariant hasSerial <==> HasSerial(s.fields[..i])
    {
      var f := s.fields[i];
      ColumnDefsStep(s.name, s.fields, i);
      HasSerialStep(s.fields, i);
      var c := WriteColumn(s.name, f);
      if c.Failure? {
        res := Failure(c.error);
        ColumnDefsPrefixFailure(s.name, s.fields, i + 1);
        return;
      }
      JoinStep(head, ", ", defs, c.value, o);
      if !first {
        o := o + ", ";
      }
      first := false;
      o := o + c.value;
      if f.kind == Serial {
        hasSerial := true;
      }
      defs := defs + [c.value];
    }
    assert s.fields[..|s.fields|] == s.fields;
    res := Success(o);
  }

  /** The first get_keys walk: every key must name a non-null field. */
  method CheckKeys(s: Schema) returns (r: Outcome)
    ensures r == KeyCheck(s.fields, s.keys, s.name)
  {
    for k := 0 to |s.keys|
      invariant KeyCheck(s.fields, s.keys[..k], s.name) == Pass
    {
      assert s.keys[..k + 1][..k] == s.keys[..k];
      var i := IndexOf(s.fields, s.keys[k], 0);
      if i < 0 {
        r := Fail(Inexistent(s.keys[k], s.name));
        KeyCheckPrefixFailure(s.fields, s.keys, s.name, k + 1);
        return;
      }
      if s.fields[i].nullable {
        r := Fail(NullableKey(s.name));
        KeyCheckPrefixFailure(s.fields, s.keys, s.name, k + 1);
        return;
      }
      assert KeyError(s.fields, s.keys[k], s.name).None?;
    }
    assert s.keys[..|s.keys|] == s.keys;
    r := Pass;
  }

  /** One FOREIGN KEY clause: the reference, then "(k)" per key field of the
      referenced model. */
  method WriteReference(r: Refer) returns (res: Result<string>)
    ensures res == ReferenceClause(r)
  {
    var keys := KeyFields(r.target);
    if keys.Failure? {
      return Failure(keys.error);
    }
    var start := "FOREIGN KEY(" + r.name + ") REFERENCES " + r.target.name;
    var o := start;
    var names := FieldNames(keys.value);
    for j := 0 to |names|
      invariant o == start + TargetKeys(names[..j])
    {
      var part := "(" + names[j] + ")";
      TargetKeysStep(names, j);
      AppendAssoc(start, TargetKeys(names[..j]), part);
      o := o + part;
    }
    assert names[..|names|] == names;
    res := Success(o);
  }

  /** One clause of the FOREIGN KEY loop, `sep` in front unless it is the
      first. */
  method WriteReferenceAt(sep: string, refers: seq<Refer>, k: nat, head: string, o: string, ghost cs: seq<string>)
    returns (o': string, ghost cs': seq<string>, failed: Option<string>)
    requires k < |refers| && |cs| == k && o == Written(head, sep, cs)
    ensures failed.Some? ==> ReferenceClause(refers[k]) == Failure(failed.value)
    ensures failed.None? ==> |cs'| == k + 1 && cs'[..k] == cs && o' == Written(head, sep, cs')
    ensures failed.None? ==> ReferenceClause(refers[k]) == Success(cs'[k])
  {
    var c := WriteReference(refers[k]);
    o', cs', failed := o, cs, None;
    if c.Failure? {
      failed := Some(c.error);
      return;
    }
    JoinStep(head, sep, cs, c.value, o);
    if k > 0 {
      o' := o' + sep;
    }
    o' := o' + c.value;
    cs' := cs + [c.value];
    assert cs'[..k] == cs;
  }

  /** The FOREIGN KEY loop, with `sep` between the clauses. */
  method WriteReferences(sep: string, refers: seq<Refer>, head: string) returns (res: Result<string>)
    ensures ReferenceClauses(refers).Failure? ==> res == Failure(ReferenceClauses(refers).error)
    ensures ReferenceClauses(refers).Success? ==> res == Success(head + Join(sep, ReferenceClauses(refers).value))
  {
    var o := head;
    ghost var cs: seq<string> := [];
    for k := 0 to |refers|
      invariant |cs| == k
      invariant forall i :: 0 <= i < k ==> ReferenceClause(refers[i]) == Success(cs[i])
      invariant o == Written(head, sep, cs)
    {
      ghost var before := cs;
      var failed;
      o, cs, failed := WriteReferenceAt(sep, refers, k, head, o, cs);
      if failed.Some? {
        ReferenceClausesFirstFailure(refers, k);
        return Failure(failed.value);
      }
      assert forall i :: 0 <= i < k ==> cs[i] == before[i];
    }
    ReferenceClausesOf(refers, cs);
    res := Success(o);
  }

  /** The PRIMARY KEY part: the Serial rule, or the key names in order. */
  method WriteKeyClause(s: Schema, hasSerial: bool) returns (res: Result<string>)
    requires hasSerial == HasSerial(s.fields)
    ensures res == KeyClause(s)
  {
    if hasSerial {
      if |s.keys| != 1 {
        return Failure(SerialNotUnique(s.name));
      }
      return Success("");
    }
    if |s.keys| == 0 {
      return Success("");
    }
    var o := "";
    for k := 0 to |s.keys|
      invariant o == Join(", ", s.keys[..k])
    {
      JoinStep("", ", ", s.keys[..k], s.keys[k], o);
      SnocSlice(s.keys, k);
      if k > 0 {
        o := o + ", ";
      }
      o := o + s.keys[k];
    }
    assert s.keys[..|s.keys|] == s.keys;
    res := Success(", PRIMARY KEY (" + o + ")");
  }

  /** create_ddl(model) for a constructed model. */
  method BuildDdl(s: Schema) returns (res: Result<string>)
    requires Distinct(FieldNames(s.fields))
    ensures res == CreateDdl(s)
  {
    CreateDdlFailure(s);
    var cols, hasSerial := WriteColumns(s, "CREATE TABLE IF NOT EXISTS " + s.name + " (");
    if cols.Failure? {
      return Failure(cols.error);
    }
    var keys := CheckKeys(s);
    if keys.Fail? {
      return Failure(keys.error);
    }
    var pk := WriteKeyClause(s, hasSerial);
    if pk.Failure? {
      return Failure(pk.error);
    }
    var o := cols.value + pk.value;
    ghost var fkText := "";
    if |s.refers| > 0 {
      var fk := WriteReferences(", ", s.refers, o + ", ");
      if fk.Failure? {
        return Failure(fk.error);
      }
      fkText := ", " + Join(", ", ReferenceClauses(s.refers).value);
      assert fk.value == o + fkText;
      o := fk.value;
    } else {
      assert o + fkText == o;
    }
    DdlTextOf(", ", s, ColumnDefs(s.name, s.fields).value, pk.value, fkText);
    res := Success(o + ");");
  }
}

=== FILE: deferred.dfy ===
/** InsertValue, UpdateValue and RemoveValue: builders over a Database that
    turn every values(params...) call into a model (constructed, then each
    named field assigned its parameter) and queue the write of that model;
    their destructor runs the queued writes in order, each through its own
    transaction request. */
module Deferred {
  import opened Wrappers
  import opened DataClass
  import opened Engine
  import opened Sqlite

  /** Which builder: InsertValue runs Database::insert on each model,
      UpdateValue Database::update, RemoveValue Database::remove. */
  datatype Kind = Inserting | Updating | Removing

  function OpOf(kind: Kind, m: Instance): (op: WriteOp)
    ensures op.record == m
    ensures op.InsertOp? <==> kind.Inserting?
    ensures op.UpdateOp? <==> kind.Updating?
  {
    match kind
    case Inserting => InsertOp(m)
    case Updating => UpdateOp(m)
    case Removing => RemoveOp(m)
  }

  /** `Model model; ((model[Fields] = params), ...)`: construction, then
      each named field assigned its parameter in order; a model with
      repeated names or a name it does not declare throws. */
  function Built(s: Schema, fields: seq<string>, params: seq<Data>): (r: Result<Record>)
    requires |params| == |fields|
    ensures r.Success? ==> r.value.WellFormed() && r.value.schema == s
  {
    if !Distinct(FieldNames(s.fields)) then Failure(DuplicatedFields(s.name))
    else AssignRun(Empty(s), Row(fields, params), 0, |fields|)
  }

  /** Past the name check, the assignments are the single-model fill of
      the pairs (Engine.Fill), so FillReadsBack says what each field holds
      afterwards. */
  lemma BuiltIsFill(s: Schema, fields: seq<string>, params: seq<Data>)
    requires |params| == |fields| && Distinct(FieldNames(s.fields))
    ensures Built(s, fields, params) == Fill(Empty(s), fields, params)
  {
    AssignRunWhole(Empty(s), fields, params);
  }

  /** The model exists exactly when its names are distinct and it declares
      every named field; otherwise the error names the model or one of the
      fields it lacks. */
  lemma BuiltSucceeds(s: Schema, fields: seq<string>, params: seq<Data>)
    requires |params| == |fields|
    ensures Built(s, fields, params).Success? <==>
      Distinct(FieldNames(s.fields)) && forall k :: 0 <= k < |fields| ==> Declares(s.fields, fields[k])
    ensures !Distinct(FieldNames(s.fields)) ==> Built(s, fields, params) == Failure(DuplicatedFields(s.name))
    ensures Distinct(FieldNames(s.fields)) && Built(s, fields, params).Failure? ==>
      exists k :: 0 <= k < |fields| && !Declares(s.fields, fields[k])
        && Built(s, fields, params).error == NotAvailable(fields[k], s.name)
  {
    if Distinct(FieldNames(s.fields)) {
      BuiltIsFill(s, fields, params);
    }
  }

  /** With distinct names, all of them declared, every named field holds its
      parameter and every other field keeps its null. */
  lemma BuiltReadsBack(s: Schema, fields: seq<string>, params: seq<Data>, name: string)
    requires |params| == |fields| && Distinct(FieldNames(s.fields)) && Distinct(fields)
    requires forall k :: 0 <= k < |fields| ==> Declares(s.fields, fields[k])
    ensures Built(s, fields, params).Success?
    ensures forall k :: 0 <= k < |fields| ==> Lookup(Built(s, fields, params).value, fields[k]) == Success(params[k])
    ensures name !in fields ==> Lookup(Built(s, fields, params).value, name) == Lookup(Empty(s), name)
  {
    BuiltIsFill(s, fields, params);
    FillReadsBack(Empty(s), fields, params, name);
  }

  // ---------------------------------------------------------------------
  // Running the queue
  // ---------------------------------------------------------------------

  /** The queued callback: `mDb.transaction([=](Database &db) { item(); })`
      around one write whose error is not caught. */
  function Solo(op: WriteOp): Action
  {
    Action([Persist(op, false)])
  }

  /** The destructor's loop from the i-th queued write: one transaction
      request each, in queue order, up to the first that throws. */
  function RunEach(o: Oracle, w: World, ops: seq<WriteOp>, i: nat): (r: (World, Outcome))
    requires i <= |ops|
    decreases |ops| - i
    ensures w.inTransaction ==> r.1.Pass? && r.0.inTransaction
  {
    if i == |ops| then (w, Pass)
    else
      var e := Req(o, w, Solo(ops[i]));
      if e.1.Fail? then e else RunEach(o, e.0, ops, i + 1)
  }

  /** The writes from the i-th on, each as its own callback. */
  function Solos(ops: seq<WriteOp>, i: nat): (acts: seq<Action>)
    requires i <= |ops|
    ensures |acts| == |ops| - i
  {
    seq(|ops| - i, k requires 0 <= k < |ops| - i => Solo(ops[i + k]))
  }

  /** Inside an open transaction every queued write becomes one more
      callback of that transaction, in queue order, and nothing runs. */
  lemma {:induction false} EachQueuedInside(o: Oracle, w: World, ops: seq<WriteOp>, i: nat)
    requires i <= |ops| && w.inTransaction
    decreases |ops| - i
    ensures RunEach(o, w, ops, i) == (w.(pending := w.pending + Solos(ops, i)), Pass)
  {
    if i < |ops| {
      var next := w.(pending := w.pending + [Solo(ops[i])]);
      EachQueuedInside(o, next, ops, i + 1);
      assert Solos(ops, i) == [Solo(ops[i])] + Solos(ops, i + 1);
      assert Req(o, w, Solo(ops[i])) == (next, Pass);
      assert next.pending + Solos(ops, i + 1) == w.pending + Solos(ops, i);
    } else {
      assert w.pending + Solos(ops, i) == w.pending;
    }
  }

  /** The statements of writes run one transaction each, as the source
      means them: BEGIN, the write's statements, then COMMIT, or ROLLBACK
      and the write's error. */
  function OwnTransactions(o: Oracle, log: seq<string>, ops: seq<WriteOp>, i: nat): (seq<string>, Outcome)
    requires i <= |ops|
    decreases |ops| - i
  {
    if i == |ops| then (log, Pass)
    else
      var e := PerformRun(o, log + [Begin], ops[i]);
      if e.1.Fail? then (e.0 + [Rollback], e.1) else OwnTransactions(o, e.0 + [Commit], ops, i + 1)
  }

  /** One write requested with no transaction open. */
  lemma SoloRequest(o: Oracle, log: seq<string>, op: WriteOp)
    ensures var e := PerformRun(o, log + [Begin], op);
      Req(o, World(log, false, []), Solo(op)) ==
        if e.1.Fail? then (World(e.0 + [Rollback], true, []), e.1)
        else (World(e.0 + [Commit], false, []), Pass)
  {
    var started := World(log + [Begin], true, []);
    var e := PerformRun(o, log + [Begin], op);
    var ran := started.(log := e.0);
    assert StepRun(o, started, Persist(op, false)) == (ran, e.1);
    if e.1.Pass? {
      assert RunSteps(o, ran, Solo(op), 1) == (ran, Pass);
      assert RunSteps(o, started, Solo(op), 0) == (ran, Pass);
      assert Drain(o, ran, 0) == (ran, Pass);
    } else {
      assert RunSteps(o, started, Solo(op), 0) == (ran, e.1);
    }
  }

  /** With no transaction open, the destructor gives every queued write a
      transaction of its own: the statements are those of OwnTransactions,
      and after a failure the flag stays set. */
  lemma {:induction false} EachOwnTransaction(o: Oracle, log: seq<string>, ops: seq<WriteOp>, i: nat)
    requires i <= |ops|
    decreases |ops| - i
    ensures var e := OwnTransactions(o, log, ops, i);
      RunEach(o, World(log, false, []), ops, i) == (World(e.0, e.1.Fail?, []), e.1)
  {
    if i < |ops| {
      SoloRequest(o, log, ops[i]);
      var e := PerformRun(o, log + [Begin], ops[i]);
      if e.1.Pass? {
        EachOwnTransaction(o, e.0 + [Commit], ops, i + 1);
      }
    }
  }

  /** One `model[Field] = param` of a run of `n` left: the run that
      remains starts one pair later, or the run fails here. */
  method AssignField(model: Model, row: Row, at: nat, n: nat, ghost goal: Result<Record>) returns (r: Outcome)
    requires model.Valid() && 0 < n && at + n <= |row.columns| && at + n <= |row.values|
    requires goal == AssignRun(model.Value(), row, at, n)
    modifies model.cells
    ensures model.Valid()
    ensures r.Fail? ==> goal == Failure(r.error)
    ensures r.Pass? ==> goal == AssignRun(model.Value(), row, at + 1, n - 1)
  {
    r := model.Assign(row.columns[at], Some(row.values[at]));
  }

  /** The model of one values(params...) call, built in place: the
      default-constructed model, then `model[Field] = param` for each pair. */
  method Build(s: Schema, fields: seq<string>, params: seq<Data>) returns (r: Result<Record>)
    requires |params| == |fields|
    ensures r == Built(s, fields, params)
  {
    var c := CheckFields(s);
    if c.Fail? {
      return Failure(c.error);
    }
    var model := new Model(s);
    var row := Row(fields, params);
    ghost var goal := AssignRun(model.Value(), row, 0, |fields|);
    var pos: nat, left: nat := 0, |fields|;
    while left > 0
      invariant pos + left == |fields|
      invariant model.Valid() && model.schema == s
      invariant goal == AssignRun(model.Value(), row, pos, left)
    {
      var w := AssignField(model, row, pos, left, goal);
      if w.Fail? {
        return Failure(w.error);
      }
      pos, left := pos + 1, left - 1;
    }
    r := Success(model.Value());
  }

  // ---------------------------------------------------------------------
  // The builders
  // ---------------------------------------------------------------------

  /** InsertValue<Model, Fields...>, UpdateValue<...> or RemoveValue<...>
      over `db`, with `queued` its vector of deferred callbacks (each the
      write of one model). */
  class ValueBuilder {
    const db: SqliteDatabase
    const kind: Kind
    const schema: Schema
    /** Fields..., the names values() assigns. */
    const fields: seq<string>
    var queued: seq<WriteOp>

    constructor (db: SqliteDatabase, kind: Kind, schema: Schema, fields: seq<string>)
      ensures this.db == db && this.kind == kind && this.schema == schema && this.fields == fields
      ensures queued == []
    {
      this.db := db;
      this.kind := kind;
      this.schema := schema;
      this.fields := fields;
      queued := [];
    }

    /** values(params...): the model is built and its write queued; an
        exception while building queues nothing. */
    method Values(params: seq<Data>) returns (r: Outcome)
      requires |params| == |fields|
      modifies this
      ensures var b := Built(schema, fields, params);
        && r == Status(b)
        && queued == if b.Success? then old(queued) + [OpOf(kind, b.value)] else old(queued)
    {
      var b := Build(schema, fields, params);
      if b.Failure? {
        return Fail(b.error);
      }
      queued := queued + [OpOf(kind, b.value)];
      r := Pass;
    }

    /** The destructor: each queued callback through its own transaction
        request, in queue order; the first exception ends the loop. */
    method Finish() returns (r: Outcome)
      modifies db
      ensures (db.State(), r) == RunEach(db.oracle, old(db.State()), queued, 0)
      ensures db.migrations == old(db.migrations)
    {
      var k := 0;
      while k < |queued|
        invariant k <= |queued|
        invariant RunEach(db.oracle, db.State(), queued, k) == RunEach(db.oracle, old(db.State()), queued, 0)
        invariant db.migrations == old(db.migrations)
      {
        r := db.Transaction(Solo(queued[k]));
        if r.Fail? {
          return;
        }
        k := k + 1;
      }
      r := Pass;
    }
  }
}

=== FILE: engine.dfy ===
/** What SqliteDatabase sees of SQLite, and what the library's callbacks do
    with it.

    The engine is an oracle: it answers every statement from the history of
    statements it has received so far (BEGIN, COMMIT and ROLLBACK included),
    and reports the rowid of the last insertion for a history. Everything the
    library computes on top of that is deterministic and modelled here:
    classification of result cells, the row loop of query_string, the
    insert/update/remove/find_by_rowid round trips of Database, and the
    semantics of transaction with its flag and queue of deferred callbacks. */
module Engine {
  import opened Wrappers
  import opened Strings
  import opened DataClass
  import opened Database

  // ---------------------------------------------------------------------
  // Result cells and rows
  // ---------------------------------------------------------------------

  /** A column of a result row as the engine reports it. */
  datatype NativeCell = IntegerCell(i: Int64) | FloatCell(d: Double) | TextCell(s: string) | BlobCell | NullCell

  const TypeNotImplemented: string := "Type not implemented"

  /** The isInteger / isFloat / isText / isBlob chain of query_string. */
  function Classify(c: NativeCell): (r: Result<Data>)
    ensures r.Failure? <==> c.BlobCell?
    ensures r.Failure? ==> r.error == TypeNotImplemented
    ensures r.Success? ==> (GetInt(r.value) == if c.IntegerCell? then Some(c.i) else None)
    ensures r.Success? ==> (GetDecimal(r.value) == if c.FloatCell? then Some(c.d) else None)
    ensures r.Success? ==> (GetText(r.value) == if c.TextCell? then Some(c.s) else None)
    ensures r.Success? ==> (IsNull(r.value) <==> c.NullCell?)
  {
    match c
    case IntegerCell(i) => Success(IntValue(i))
    case FloatCell(d) => Success(DecimalValue(d))
    case TextCell(s) => Success(TextValue(s))
    case BlobCell => Failure(TypeNotImplemented)
    case NullCell => Success(NullValue)
  }

  /** The values vector of one row: every column classified, left to right. */
  function ClassifyRow(cells: seq<NativeCell>): (r: Result<seq<Data>>)
    ensures r.Success? <==> forall i :: 0 <= i < |cells| ==> !cells[i].BlobCell?
    ensures r.Failure? ==> r.error == TypeNotImplemented
    ensures r.Success? ==> |r.value| == |cells|
    ensures r.Success? ==> forall i :: 0 <= i < |cells| ==> Classify(cells[i]) == Success(r.value[i])
  {
    if cells == [] then Success([])
    else
      var last := cells[|cells| - 1];
      match ClassifyRow(cells[..|cells| - 1])
      case Failure(e) => Failure(e)
      case Success(vs) =>
        match Classify(last)
        case Failure(e) => Failure(e)
        case Success(d) => Success(vs + [d])
  }

  /** The arguments query_string hands to its callback: the column names and
      the classified values of the current row. */
  datatype Row = Row(columns: seq<string>, values: seq<Data>)

  /** The engine's answer to one statement: its column names and result rows,
      or the error it raised. */
  datatype Response = Rows(columns: seq<string>, rows: seq<seq<NativeCell>>) | Failed(message: string)

  predicate Rectangular(r: Response)
  {
    r.Rows? ==> forall i :: 0 <= i < |r.rows| ==> |r.rows[i]| == |r.columns|
  }

  /** Every row has one cell per column. */
  type Answer = r: Response | Rectangular(r) witness Failed("")

  /** The SQLite connection: an answer for every statement given the history
      before it, and getLastInsertRowid for every history. */
  datatype Oracle = Oracle(respond: (seq<string>, string) -> Answer, lastRowid: seq<string> -> Int64)

  // ---------------------------------------------------------------------
  // query_string
  // ---------------------------------------------------------------------

  /** The executeStep loop: classify the row, hand it to the callback, stop
      when the callback answers false or the rows run out. */
  function Stream<S>(columns: seq<string>, rows: seq<seq<NativeCell>>, state: S,
                     step: (S, Row) -> Result<(S, bool)>): Result<S>
  {
    if rows == [] then Success(state)
    else
      match ClassifyRow(rows[0])
      case Failure(e) => Failure(e)
      case Success(values) =>
        match step(state, Row(columns, values))
        case Failure(e) => Failure(e)
        case Success(next) =>
          if next.1 then Stream(columns, rows[1..], next.0, step) else Success(next.0)
  }

  predicate EndsWith(s: string, suffix: string)
  {
    |suffix| <= |s| && s[|s| - |suffix|..] == suffix
  }

  /** query_string: every failure, the engine's or the callback's, is
      rethrown as "<what>: <sql>". */
  function QueryResult<S>(answer: Response, sql: string, init: S, step: (S, Row) -> Result<(S, bool)>): (r: Result<S>)
    ensures r.Failure? ==> EndsWith(r.error, ": " + sql)
    ensures answer.Failed? ==> r == Failure(answer.message + ": " + sql)
    ensures answer.Rows? && answer.rows == [] ==> r == Success(init)
  {
    match answer
    case Failed(m) => Failure(m + ": " + sql)
    case Rows(columns, rows) =>
      match Stream(columns, rows, init, step)
      case Failure(e) => Failure(e + ": " + sql)
      case Success(s) => Success(s)
  }

  /** The `[](auto...) { return false; }` callback. */
  function IgnoreRows(u: (), row: Row): Result<((), bool)>
  {
    Success(((), false))
  }

  /** query_string(sql, ignore) on a history: the extended history and
      whether the statement went through. */
  function ExecuteRun(o: Oracle, log: seq<string>, sql: string): (r: (seq<string>, Outcome))
    ensures r.0 == log + [sql]
    ensures r.1.Fail? ==> EndsWith(r.1.error, ": " + sql)
    ensures r.1.Pass? <==> QueryResult(o.respond(log, sql), sql, (), IgnoreRows).Success?
  {
    match QueryResult(o.respond(log, sql), sql, (), IgnoreRows)
    case Failure(e) => (log + [sql], Fail(e))
    case Success(_) => (log + [sql], Pass)
  }

  // ---------------------------------------------------------------------
  // Filling a model from a row
  // ---------------------------------------------------------------------

  /** `for i < columns.size(): model[columns[i]] = values[i]`. */
  function Fill(r: Record, columns: seq<string>, values: seq<Data>): (res: Result<Record>)
    requires r.WellFormed()
    decreases |columns|
    ensures res.Success? ==> res.value.WellFormed() && res.value.schema == r.schema
    ensures res.Success? <==> forall i :: 0 <= i < |columns| && i < |values| ==> Declares(r.schema.fields, columns[i])
    ensures res.Failure? ==>
      (exists i :: 0 <= i < |columns| && i < |values| && !Declares(r.schema.fields, columns[i])
                   && res.error == NotAvailable(columns[i], r.schema.name))
  {
    if columns == [] || values == [] then Success(r)
    else
      match Write(r, columns[0], Some(values[0]))
      case Failure(e) => Failure(e)
      case Success(r1) =>
        var res := Fill(r1, columns[1..], values[1..]);
        assert forall i :: 0 < i < |columns| && i < |values| ==> columns[i] == columns[1..][i - 1];
        res
  }

  /** After the fill every column reads back its value, and every name that
      is not a column reads what it read before. */
  lemma {:induction false} FillReadsBack(r: Record, columns: seq<string>, values: seq<Data>, name: string)
    requires r.WellFormed() && |columns| == |values| && Distinct(columns)
    requires forall i :: 0 <= i < |columns| ==> Declares(r.schema.fields, columns[i])
    decreases |columns|
    ensures Fill(r, columns, values).Success?
    ensures forall i :: 0 <= i < |columns| ==> Lookup(Fill(r, columns, values).value, columns[i]) == Success(values[i])
    ensures name !in columns ==> Lookup(Fill(r, columns, values).value, name) == Lookup(r, name)
  {
    if columns != [] {
      var r1 := Write(r, columns[0], Some(values[0])).value;
      WriteThenLookup(r, columns[0], values[0], name);
      assert Distinct(columns[1..]) by {
        forall i, j | 0 <= i < j < |columns[1..]| ensures columns[1..][i] != columns[1..][j] {
          assert columns[1..][i] == columns[i + 1] && columns[1..][j] == columns[j + 1];
        }
      }
      assert forall i :: 0 <= i < |columns[1..]| ==> columns[1..][i] == columns[i + 1];
      FillReadsBack(r1, columns[1..], values[1..], name);
      FillReadsBack(r1, columns[1..], values[1..], columns[0]);
      var f := Fill(r1, columns[1..], values[1..]).value;
      assert Fill(r, columns, values).value == f;
      assert columns[0] !in columns[1..] by {
        forall i | 0 <= i < |columns[1..]| ensures columns[1..][i] != columns[0] {
          assert columns[1..][i] == columns[i + 1];
        }
      }
      WriteThenLookup(r, columns[0], values[0], columns[0]);
      forall i | 0 <= i < |columns| ensures Lookup(f, columns[i]) == Success(values[i]) {
        if i > 0 {
          assert columns[i] == columns[1..][i - 1] && values[i] == values[1..][i - 1];
        }
      }
      if name !in columns {
        assert name !in columns[1..];
      }
    }
  }

  /** `n` assignments `model[column] = value` taken from the row from
      position `at` on: each column names the cell that takes the value
      beside it, and a column the model does not declare throws. */
  function AssignRun(m: Record, row: Row, at: nat, n: nat): (r: Result<Record>)
    requires m.WellFormed() && at + n <= |row.columns| && at + n <= |row.values|
    decreases n
    ensures r.Success? ==> r.value.WellFormed() && r.value.schema == m.schema
  {
    if n == 0 then Success(m)
    else
      match Write(m, row.columns[at], Some(row.values[at]))
      case Failure(e) => Failure(e)
      case Success(m1) => AssignRun(m1, row, at + 1, n - 1)
  }

  /** The run of assignments is the single-model fill of the cells it steps
      over (`cs` and `vs` are that slice of the row), so FillReadsBack
      says what each cell reads back. */
  lemma {:induction false} AssignRunIsFill(m: Record, row: Row, at: nat, n: nat, cs: seq<string>, vs: seq<Data>)
    requires m.WellFormed() && at + n <= |row.columns| && at + n <= |row.values|
    requires |cs| == n && |vs| == n
    requires forall k :: 0 <= k < n ==> cs[k] == row.columns[at + k] && vs[k] == row.values[at + k]
    decreases n
    ensures AssignRun(m, row, at, n) == Fill(m, cs, vs)
  {
    if n > 0 {
      assert cs[0] == row.columns[at] && vs[0] == row.values[at];
      var w := Write(m, row.columns[at], Some(row.values[at]));
      if w.Success? {
        var cs', vs' := cs[1..], vs[1..];
        assert forall k :: 0 <= k < n - 1 ==> cs'[k] == cs[k + 1] && vs'[k] == vs[k + 1];
        AssignRunIsFill(w.value, row, at + 1, n - 1, cs', vs');
        assert Fill(m, cs, vs) == Fill(w.value, cs', vs');
      } else {
        assert Fill(m, cs, vs) == Failure(w.error);
      }
    }
  }

  /** A run over a whole row from its first cell is the fill of the row. */
  lemma AssignRunWhole(m: Record, columns: seq<string>, values: seq<Data>)
    requires m.WellFormed() && |columns| == |values|
    ensures AssignRun(m, Row(columns, values), 0, |columns|) == Fill(m, columns, values)
  {
    var row := Row(columns, values);
    assert forall k :: 0 <= k < |columns| ==> columns[k] == row.columns[k] && values[k] == row.values[k];
    AssignRunIsFill(m, row, 0, |columns|, columns, values);
  }

  /** The row callbacks' `Model model;` followed by the fill: a model whose
      names repeat fails its construction first. */
  function FillRecord(s: Schema, row: Row): (r: Result<Record>)
    ensures r.Success? ==> r.value.WellFormed() && r.value.schema == s
    ensures !Distinct(FieldNames(s.fields)) ==> r == Failure(DuplicatedFields(s.name))
  {
    if !Distinct(FieldNames(s.fields)) then Failure(DuplicatedFields(s.name))
    else Fill(Empty(s), row.columns, row.values)
  }

  // ---------------------------------------------------------------------
  // The round trips of Database
  // ---------------------------------------------------------------------

  /** find_by_rowid's callback: fill one model from the first row, stop. */
  function FirstModel(s: Schema, found: Option<Record>, row: Row): Result<(Option<Record>, bool)>
  {
    match FillRecord(s, row)
    case Failure(e) => Failure(e)
    case Success(m) => Success((Some(m), false))
  }

  /** That callback with the model's schema bound. */
  function FirstModelStep(s: Schema): (Option<Record>, Row) -> Result<(Option<Record>, bool)>
  {
    (found, row) => FirstModel(s, found, row)
  }

  /** find_by_rowid<Model>(rowid). */
  function FindRun(o: Oracle, log: seq<string>, s: Schema, rowid: Int64): (r: (seq<string>, Result<Option<Record>>))
    ensures r.0 == log + [FindByRowidSql(s.name, rowid)]
  {
    var sql := FindByRowidSql(s.name, rowid);
    (log + [sql], QueryResult(o.respond(log, sql), sql, None, FirstModelStep(s)))
  }

  /** find_by_rowid returns the model filled from the first row, and nothing
      when no row comes back. */
  lemma FindRunFirstRow(o: Oracle, log: seq<string>, s: Schema, rowid: Int64)
    requires o.respond(log, FindByRowidSql(s.name, rowid)).Rows?
    ensures var answer := o.respond(log, FindByRowidSql(s.name, rowid));
      answer.rows == [] ==> FindRun(o, log, s, rowid).1 == Success(None)
    ensures var answer := o.respond(log, FindByRowidSql(s.name, rowid));
      answer.rows != [] && ClassifyRow(answer.rows[0]).Success?
      && FillRecord(s, Row(answer.columns, ClassifyRow(answer.rows[0]).value)).Success? ==>
        FindRun(o, log, s, rowid).1 == Success(Some(FillRecord(s, Row(answer.columns, ClassifyRow(answer.rows[0]).value)).value))
  {
  }

  const UnableToRecover: string := "unable to recover model sequence"

  /** Database::insert: the INSERT, then the re-read by last rowid. */
  function InsertRun(o: Oracle, log: seq<string>, r: Instance): (res: (seq<string>, Result<Record>))
    ensures InsertSql(r).Failure? <==> res.0 == log
    ensures InsertSql(r).Failure? ==> res.1 == Failure(InsertSql(r).error)
    ensures res.1.Success? ==> res.1.value.schema == r.schema && res.1.value.WellFormed()
    ensures InsertSql(r).Success? ==> log + [InsertSql(r).value] <= res.0
  {
    match InsertSql(r)
    case Failure(e) => (log, Failure(e))
    case Success(sql) =>
      var l1 := log + [sql];
      match QueryResult(o.respond(log, sql), sql, (), IgnoreRows)
      case Failure(e) => (l1, Failure(e))
      case Success(_) =>
        var found := FindRun(o, l1, r.schema, o.lastRowid(l1));
        match found.1
        case Failure(e) => (found.0, Failure(e))
        case Success(None) => (found.0, Failure(UnableToRecover))
        case Success(Some(m)) => (found.0, Success(m))
  }

  /** What insert does once its INSERT text exists: a refused INSERT is the
      failure, with nothing more sent; an accepted one is followed by the
      re-read by the last rowid, where no row back is "unable to recover
      model sequence" and otherwise the result is the model find_by_rowid
      reads from the first row. */
  lemma InsertRunRereads(o: Oracle, log: seq<string>, r: Instance)
    requires InsertSql(r).Success?
    ensures var sql := InsertSql(r).value;
      var ins := QueryResult(o.respond(log, sql), sql, (), IgnoreRows);
      ins.Failure? ==> InsertRun(o, log, r) == (log + [sql], Failure(ins.error))
    ensures var sql := InsertSql(r).value;
      var l1 := log + [sql];
      QueryResult(o.respond(log, sql), sql, (), IgnoreRows).Success? ==>
        InsertRun(o, log, r).0 == l1 + [FindByRowidSql(r.schema.name, o.lastRowid(l1))]
    ensures var sql := InsertSql(r).value;
      var l1 := log + [sql];
      var f := FindRun(o, l1, r.schema, o.lastRowid(l1));
      QueryResult(o.respond(log, sql), sql, (), IgnoreRows).Success? ==>
        && (f.1.Failure? ==> InsertRun(o, log, r).1 == Failure(f.1.error))
        && (f.1 == Success(None) ==> InsertRun(o, log, r).1 == Failure(UnableToRecover))
        && (f.1.Success? && f.1.value.Some? ==> InsertRun(o, log, r).1 == Success(f.1.value.value))
    ensures var sql := InsertSql(r).value;
      var l1 := log + [sql];
      var answer := o.respond(l1, FindByRowidSql(r.schema.name, o.lastRowid(l1)));
      QueryResult(o.respond(log, sql), sql, (), IgnoreRows).Success? && answer.Rows? && answer.rows == [] ==>
        InsertRun(o, log, r).1 == Failure(UnableToRecover)
    ensures var sql := InsertSql(r).value;
      var l1 := log + [sql];
      var answer := o.respond(l1, FindByRowidSql(r.schema.name, o.lastRowid(l1)));
      QueryResult(o.respond(log, sql), sql, (), IgnoreRows).Success? && answer.Rows? && answer.rows != []
      && ClassifyRow(answer.rows[0]).Success?
      && FillRecord(r.schema, Row(answer.columns, ClassifyRow(answer.rows[0]).value)).Success? ==>
        InsertRun(o, log, r).1 == Success(FillRecord(r.schema, Row(answer.columns, ClassifyRow(answer.rows[0]).value)).value)
  {
    var l1 := log + [InsertSql(r).value];
    var answer := o.respond(l1, FindByRowidSql(r.schema.name, o.lastRowid(l1)));
    if answer.Rows? {
      FindRunFirstRow(o, l1, r.schema, o.lastRowid(l1));
    }
  }

  /** Database::update. */
  function UpdateRun(o: Oracle, log: seq<string>, r: Instance): (res: (seq<string>, Outcome))
    ensures UpdateSql(r).Failure? ==> res == (log, Fail(UpdateSql(r).error))
    ensures UpdateSql(r).Success? ==> res == ExecuteRun(o, log, UpdateSql(r).value)
  {
    match UpdateSql(r)
    case Failure(e) => (log, Fail(e))
    case Success(sql) => ExecuteRun(o, log, sql)
  }

  /** Database::remove; its `true` is the Success value. */
  function RemoveRun(o: Oracle, log: seq<string>, r: Instance): (res: (seq<string>, Result<bool>))
    ensures DeleteSql(r).Failure? ==> res == (log, Failure(DeleteSql(r).error))
    ensures DeleteSql(r).Success? ==> res.0 == log + [DeleteSql(r).value]
    ensures res.1.Success? ==> res.1.value
  {
    match DeleteSql(r)
    case Failure(e) => (log, Failure(e))
    case Success(sql) =>
      var e := ExecuteRun(o, log, sql);
      (e.0, if e.1.Pass? then Success(true) else Failure(e.1.error))
  }

  // ---------------------------------------------------------------------
  // Callbacks handed to transaction
  // ---------------------------------------------------------------------

  /** A write through the Database interface. */
  datatype WriteOp = InsertOp(record: Instance) | UpdateOp(record: Instance) | RemoveOp(record: Instance)

  /** One thing a callback does with the database it is given: run a
      statement, write a model (its error caught and discarded by the
      callback, or let through), request a nested transaction, or throw. */
  datatype Step = Statement(sql: string) | Persist(op: WriteOp, caught: bool) | Request(action: Action) | Raise(message: string)

  /** A `std::function<void(Database &)>`, as the steps it takes. */
  datatype Action = Action(steps: seq<Step>)

  /** The state of SqliteDatabase that transaction touches: the statements
      sent, mTransactionLock and mTransactionCallbacks. */
  datatype World = World(log: seq<string>, inTransaction: bool, pending: seq<Action>)

  const Begin: string := "BEGIN"
  const Commit: string := "COMMIT"
  const Rollback: string := "ROLLBACK"

  /** The write's effect on the history, and how it ended. */
  function PerformRun(o: Oracle, log: seq<string>, op: WriteOp): (r: (seq<string>, Outcome))
    ensures log <= r.0
  {
    match op
    case InsertOp(m) => var e := InsertRun(o, log, m); (e.0, if e.1.Success? then Pass else Fail(e.1.error))
    case UpdateOp(m) => UpdateRun(o, log, m)
    case RemoveOp(m) => var e := RemoveRun(o, log, m); (e.0, if e.1.Success? then Pass else Fail(e.1.error))
  }

  /** Sizes, for termination: a request counts more than the action it carries. */
  function Size(a: Action): nat
    decreases a, 1
  {
    1 + StepsFrom(a, 0)
  }

  function StepsFrom(a: Action, i: nat): nat
    decreases a, 0, |a.steps| - i
  {
    if i >= |a.steps| then 0
    else
      (match a.steps[i]
       case Request(b) => 1 + Size(b)
       case _ => 1) + StepsFrom(a, i + 1)
  }

  function StepWeight(s: Step): nat
  {
    match s
    case Request(b) => 1 + Size(b)
    case _ => 1
  }

  lemma StepsFromUnfold(a: Action, i: nat)
    requires i < |a.steps|
    ensures StepsFrom(a, i) == StepWeight(a.steps[i]) + StepsFrom(a, i + 1)
    ensures Requested(a, i) == (if a.steps[i].Request? then [a.steps[i].action] else []) + Requested(a, i + 1)
  {
  }

  function Total(q: seq<Action>): nat
  {
    if q == [] then 0 else Size(q[0]) + Total(q[1..])
  }

  lemma {:induction false} TotalAppend(p: seq<Action>, q: seq<Action>)
    ensures Total(p + q) == Total(p) + Total(q)
  {
    if p != [] {
      assert (p + q)[0] == p[0];
      assert (p + q)[1..] == p[1..] + q;
      TotalAppend(p[1..], q);
      assert Total(p + q) == Size(p[0]) + Total(p[1..] + q);
    } else {
      assert p + q == q;
    }
  }

  lemma TotalFront(q: seq<Action>, i: nat)
    requires i < |q|
    ensures Total(q[i..]) == Size(q[i]) + Total(q[i + 1..])
  {
    assert q[i..][1..] == q[i + 1..];
  }

  /** The actions the steps from i on request, in order. */
  function Requested(a: Action, i: nat): (r: seq<Action>)
    decreases |a.steps| - i
  {
    if i >= |a.steps| then []
    else (if a.steps[i].Request? then [a.steps[i].action] else []) + Requested(a, i + 1)
  }

  lemma {:induction false} RequestedBound(a: Action, i: nat)
    ensures Total(Requested(a, i)) <= StepsFrom(a, i)
    decreases |a.steps| - i
  {
    if i < |a.steps| {
      RequestedBound(a, i + 1);
      var head := if a.steps[i].Request? then [a.steps[i].action] else [];
      TotalAppend(head, Requested(a, i + 1));
      if a.steps[i].Request? {
        assert Total(head) == Size(a.steps[i].action) + Total([]);
      }
    }
  }

  lemma {:induction false} StepsFromMonotone(a: Action, i: nat, j: nat)
    requires i <= j
    ensures StepsFrom(a, j) <= StepsFrom(a, i)
    decreases j - i
  {
    if i < j {
      StepsFromMonotone(a, i + 1, j);
    }
  }

  /** A requested action is smaller than the action requesting it. */
  lemma StepInside(a: Action, i: nat)
    requires i < |a.steps| && a.steps[i].Request?
    ensures Size(a.steps[i].action) < Size(a)
  {
    StepsFromMonotone(a, 0, i);
  }

  /** Running queue entry i and queueing what it requests leaves less to do. */
  lemma DrainShrinks(q: seq<Action>, i: nat)
    requires i < |q|
    ensures Total((q + Requested(q[i], 0))[i + 1..]) < Total(q[i..])
  {
    assert (q + Requested(q[i], 0))[i + 1..] == q[i + 1..] + Requested(q[i], 0);
    TotalAppend(q[i + 1..], Requested(q[i], 0));
    RequestedBound(q[i], 0);
    TotalFront(q, i);
  }

  function Rank(w: World): int
  {
    if w.inTransaction then 0 else 1
  }

  /** The flag is clear only while nothing is queued. */
  predicate Coherent(w: World)
  {
    !w.inTransaction ==> w.pending == []
  }

  /** SqliteDatabase::transaction(a). With the flag already set the action is
      queued and nothing runs. Otherwise BEGIN, the action, every queued
      action in arrival order (including those queued meanwhile), COMMIT,
      and flag and queue are reset. An exception rolls back and leaves flag
      and queue as they are, so every later request is only queued. */
  function Req(o: Oracle, w: World, a: Action): (r: (World, Outcome))
    decreases Rank(w), Size(a), 2
    ensures w.log <= r.0.log
    ensures w.inTransaction ==> r == (w.(pending := w.pending + [a]), Pass)
    ensures !w.inTransaction ==> |r.0.log| >= |w.log| + 2 && r.0.log[|w.log|] == Begin
    ensures !w.inTransaction ==> r.0.log[|r.0.log| - 1] == if r.1.Pass? then Commit else Rollback
    ensures !w.inTransaction && r.1.Pass? ==> !r.0.inTransaction && r.0.pending == []
    ensures !w.inTransaction && r.1.Fail? ==> r.0.inTransaction
  {
    if w.inTransaction then (w.(pending := w.pending + [a]), Pass)
    else
      var started := World(w.log + [Begin], true, w.pending);
      var ran := RunSteps(o, started, a, 0);
      if ran.1.Fail? then (ran.0.(log := ran.0.log + [Rollback]), ran.1)
      else
        var drained := Drain(o, ran.0, 0);
        if drained.1.Fail? then (drained.0.(log := drained.0.log + [Rollback]), drained.1)
        else (World(drained.0.log + [Commit], false, []), Pass)
  }

  /** `callback(*this)`: the steps from i on, stopping at the first
      exception. */
  function RunSteps(o: Oracle, w: World, a: Action, i: nat): (r: (World, Outcome))
    requires i <= |a.steps|
    decreases Rank(w), StepsFrom(a, i), 1
    ensures w.log <= r.0.log
    ensures w.inTransaction ==> r.0.inTransaction
    ensures w.inTransaction && r.1.Pass? ==> r.0.pending == w.pending + Requested(a, i)
    ensures Coherent(w) ==> Coherent(r.0)
  {
    if i == |a.steps| then (w, Pass)
    else
      StepsFromUnfold(a, i);
      var next := StepRun(o, w, a.steps[i]);
      if next.1.Fail? then next else RunSteps(o, next.0, a, i + 1)
  }

  /** One step of a callback. */
  function StepRun(o: Oracle, w: World, s: Step): (r: (World, Outcome))
    decreases Rank(w), StepWeight(s), 0
    ensures w.log <= r.0.log
    ensures w.inTransaction ==> r.0.inTransaction
    ensures w.inTransaction && r.1.Pass? ==> r.0.pending == w.pending + (if s.Request? then [s.action] else [])
    ensures Coherent(w) ==> Coherent(r.0)
  {
    match s
    case Statement(sql) => var e := ExecuteRun(o, w.log, sql); (w.(log := e.0), e.1)
    case Persist(op, caught) => var e := PerformRun(o, w.log, op); (w.(log := e.0), if caught then Pass else e.1)
    case Request(b) => Req(o, w, b)
    case Raise(m) => (w, Fail(m))
  }

  /** The for_each over mTransactionCallbacks from entry i on. */
  function Drain(o: Oracle, w: World, i: nat): (r: (World, Outcome))
    requires w.inTransaction && i <= |w.pending|
    decreases 0, Total(w.pending[i..]), 3
    ensures w.log <= r.0.log
    ensures r.0.inTransaction
  {
    if i == |w.pending| then (w, Pass)
    else
      TotalFront(w.pending, i);
      var ran := RunSteps(o, w, w.pending[i], 0);
      if ran.1.Fail? then ran
      else
        DrainShrinks(w.pending, i);
        Drain(o, ran.0, i + 1)
  }

  // ---------------------------------------------------------------------
  // Order of execution
  // ---------------------------------------------------------------------

  /** Callbacks that only run statements and request nested transactions. */
  predicate Plain(a: Action)
    decreases a
  {
    forall i :: 0 <= i < |a.steps| ==> a.steps[i].Statement? || (a.steps[i].Request? && Plain(a.steps[i].action))
  }

  /** The statements of the steps from i on, in order. */
  function Statements(a: Action, i: nat): seq<string>
    decreases |a.steps| - i
  {
    if i >= |a.steps| then []
    else (if a.steps[i].Statement? then [a.steps[i].sql] else []) + Statements(a, i + 1)
  }

  /** Breadth-first order: the first queued action's statements, then the
      rest of the queue followed by what that action requested. */
  function Trace(q: seq<Action>): seq<string>
    decreases Total(q)
  {
    if q == [] then []
    else
      DrainShrinks(q, 0);
      assert (q + Requested(q[0], 0))[1..] == q[1..] + Requested(q[0], 0);
      Statements(q[0], 0) + Trace(q[1..] + Requested(q[0], 0))
  }

  /** An engine that accepts every statement. */
  ghost predicate Accepts(o: Oracle)
  {
    forall log: seq<string>, sql: string :: ExecuteRun(o, log, sql).1.Pass?
  }

  lemma {:induction false} PlainRequested(a: Action, i: nat)
    requires Plain(a)
    ensures forall k :: 0 <= k < |Requested(a, i)| ==> Plain(Requested(a, i)[k])
    decreases |a.steps| - i
  {
    if i < |a.steps| {
      PlainRequested(a, i + 1);
    }
  }

  /** Inside a transaction a plain callback runs its statements in order
      and queues its requests in order. */
  lemma {:induction false} RunPlainInside(o: Oracle, w: World, a: Action, i: nat)
    requires Accepts(o) && Plain(a) && w.inTransaction && i <= |a.steps|
    ensures RunSteps(o, w, a, i) == (World(w.log + Statements(a, i), true, w.pending + Requested(a, i)), Pass)
    decreases |a.steps| - i
  {
    if i < |a.steps| {
      match a.steps[i]
      case Statement(sql) =>
        var w1 := w.(log := w.log + [sql]);
        assert ExecuteRun(o, w.log, sql).1.Pass?;
        assert StepRun(o, w, a.steps[i]) == (w1, Pass);
        RunPlainInside(o, w1, a, i + 1);
        StepsFromUnfold(a, i);
        assert w1.log + Statements(a, i + 1) == w.log + Statements(a, i);
      case Request(b) =>
        var w1 := w.(pending := w.pending + [b]);
        assert StepRun(o, w, a.steps[i]) == (w1, Pass);
        RunPlainInside(o, w1, a, i + 1);
        StepsFromUnfold(a, i);
        assert Statements(a, i) == Statements(a, i + 1);
        assert w1.pending + Requested(a, i + 1) == w.pending + Requested(a, i);
    } else {
      assert w.log + Statements(a, i) == w.log && w.pending + Requested(a, i) == w.pending;
    }
  }

  /** Callbacks that only run statements. */
  predicate StatementsOnly(a: Action)
  {
    forall i :: 0 <= i < |a.steps| ==> a.steps[i].Statement?
  }

  /** In or out of a transaction, a callback that only runs statements
      sends them in order, and nothing else changes. */
  lemma {:induction false} RunStatementsOnly(o: Oracle, w: World, a: Action, i: nat)
    requires Accepts(o) && StatementsOnly(a) && i <= |a.steps|
    ensures RunSteps(o, w, a, i) == (w.(log := w.log + Statements(a, i)), Pass)
    decreases |a.steps| - i
  {
    if i < |a.steps| {
      var sql := a.steps[i].sql;
      var w1 := w.(log := w.log + [sql]);
      assert ExecuteRun(o, w.log, sql).1.Pass?;
      assert StepRun(o, w, a.steps[i]) == (w1, Pass);
      RunStatementsOnly(o, w1, a, i + 1);
      assert w1.log + Statements(a, i + 1) == w.log + Statements(a, i);
    } else {
      assert w.log + Statements(a, i) == w.log;
    }
  }

  /** Draining from position i: run callback i, then the rest of the queue
      with whatever it requested appended. */
  lemma DrainStep(o: Oracle, w: World, i: nat)
    requires w.inTransaction && i < |w.pending|
    ensures var ran := RunSteps(o, w, w.pending[i], 0);
      Drain(o, w, i) == if ran.1.Fail? then ran else Drain(o, ran.0, i + 1)
  {
  }

  lemma TraceSingle(a: Action)
    ensures Trace([a]) == Statements(a, 0) + Trace([] + Requested(a, 0))
  {
    assert [a][1..] == [];
  }

  lemma TraceFront(q: seq<Action>, i: nat)
    requires i < |q|
    ensures Trace(q[i..]) == Statements(q[i], 0) + Trace(q[i + 1..] + Requested(q[i], 0))
  {
    assert q[i..][0] == q[i] && q[i..][1..] == q[i + 1..];
  }

  lemma PlainQueue(q: seq<Action>, a: Action)
    requires Plain(a) && forall k :: 0 <= k < |q| ==> Plain(q[k])
    ensures forall k :: 0 <= k < |q + Requested(a, 0)| ==> Plain((q + Requested(a, 0))[k])
  {
    PlainRequested(a, 0);
  }

  lemma {:induction false} DrainPlain(o: Oracle, w: World, i: nat)
    requires Accepts(o) && w.inTransaction && i <= |w.pending|
    requires forall k :: 0 <= k < |w.pending| ==> Plain(w.pending[k])
    ensures Drain(o, w, i) .1 == Pass
    ensures Drain(o, w, i).0.log == w.log + Trace(w.pending[i..])
    decreases Total(w.pending[i..])
  {
    if i < |w.pending| {
      var p := w.pending[i];
      RunPlainInside(o, w, p, 0);
      var w1 := World(w.log + Statements(p, 0), true, w.pending + Requested(p, 0));
      DrainStep(o, w, i);
      PlainQueue(w.pending, p);
      DrainShrinks(w.pending, i);
      DrainPlain(o, w1, i + 1);
      SliceAppend(w.pending, Requested(p, 0), i + 1);
      TraceFront(w.pending, i);
      AppendAssoc(w.log, Statements(p, 0), Trace(w.pending[i + 1..] + Requested(p, 0)));
    }
  }

  /** A transaction requested with the flag clear, whose callbacks only run
      statements and request nested transactions, sends BEGIN, the
      statements in breadth-first order (each callback before anything it
      queued, queued callbacks in arrival order) and COMMIT, and leaves flag
      and queue clear. */
  lemma TransactionOrder(o: Oracle, log: seq<string>, a: Action)
    requires Accepts(o) && Plain(a)
    ensures Req(o, World(log, false, []), a) == (World(log + [Begin] + Trace([a]) + [Commit], false, []), Pass)
  {
    var started := World(log + [Begin], true, []);
    RunPlainInside(o, started, a, 0);
    var w1 := World(log + [Begin] + Statements(a, 0), true, [] + Requested(a, 0));
    PlainQueue([], a);
    DrainPlain(o, w1, 0);
    EndSlices(w1.pending);
    TraceSingle(a);
    AppendAssoc(log + [Begin], Statements(a, 0), Trace([] + Requested(a, 0)));
  }
}

=== FILE: migrations.dfy ===
/** The migrations of SqliteDatabase (include/jdb/database/SqliteDatabase.hpp,
    include/jdb/database/Migration.hpp): what a migration is, the order
    std::sort puts them in, which of them build runs for the version it
    reads from the bookkeeping table, and the whole of build as a function
    of the engine and the state before it. The class that performs all of
    this step by step is SqliteDatabase in module Sqlite. */
module Migrations {
  import opened Wrappers
  import opened Strings
  import opened DataClass
  import opened Database
  import opened Engine
  import opened Ddl

  /** A Migration: its `int` id and its callback. */
  datatype Migration = Migration(id: Int32, action: Action)

  /** No two migrations share an id: what add_migration maintains. */
  predicate IdsDistinct(ms: seq<Migration>)
  {
    forall i, j :: 0 <= i < j < |ms| ==> ms[i].id != ms[j].id
  }

  /** Some migration of the list has this id: the find_if of add_migration. */
  predicate HasId(ms: seq<Migration>, id: int)
  {
    exists k :: 0 <= k < |ms| && ms[k].id == id
  }

  const IdExists: string := "migration id already exists"

  /** add_migration on the list: refused when the id is taken, appended
      otherwise. */
  function AddMigrationTo(ms: seq<Migration>, m: Migration): (r: Result<seq<Migration>>)
  {
    if HasId(ms, m.id) then Failure(IdExists) else Success(ms + [m])
  }

  /** Adding keeps the ids distinct, and only a repeated id is refused. */
  lemma AddMigrationKeepsIdsDistinct(ms: seq<Migration>, m: Migration)
    requires IdsDistinct(ms)
    ensures AddMigrationTo(ms, m).Failure? <==> exists k :: 0 <= k < |ms| && ms[k].id == m.id
    ensures AddMigrationTo(ms, m).Success? ==> IdsDistinct(AddMigrationTo(ms, m).value)
  {
    if !HasId(ms, m.id) {
      var t := ms + [m];
      forall i, j | 0 <= i < j < |t| ensures t[i].id != t[j].id {
        assert t[i] == ms[i];
        if j < |ms| {
          assert t[j] == ms[j];
        }
      }
    }
  }

  // ---------------------------------------------------------------------
  // std::sort by id
  // ---------------------------------------------------------------------

  /** The key the comparator of build compares: `a.get_id() < b.get_id()`. */
  function IdOf(m: Migration): int
  {
    m.id
  }

  predicate SortedBy<T>(s: seq<T>, key: T -> int)
  {
    forall i :: 0 <= i < |s| - 1 ==> key(s[i]) <= key(s[i + 1])
  }

  predicate StrictlyAscending(ms: seq<Migration>)
  {
    forall i :: 0 <= i < |ms| - 1 ==> ms[i].id < ms[i + 1].id
  }

  /** `x` placed after the last element of the sorted `s` whose key does
      not exceed its own. */
  function InsertBy<T>(x: T, s: seq<T>, key: T -> int): (r: seq<T>)
    ensures |r| == |s| + 1
  {
    if s == [] then [x]
    else if key(s[|s| - 1]) <= key(x) then s + [x]
    else InsertBy(x, s[..|s| - 1], key) + [s[|s| - 1]]
  }

  /** The arrangement an insertion sort by `key` produces. */
  function SortBy<T>(s: seq<T>, key: T -> int): (r: seq<T>)
    ensures |r| == |s|
  {
    if s == [] then [] else InsertBy(s[|s| - 1], SortBy(s[..|s| - 1], key), key)
  }

  /** The order std::sort leaves the migrations in. */
  function SortById(s: seq<Migration>): (r: seq<Migration>)
    ensures |r| == |s|
  {
    SortBy(s, IdOf)
  }

  lemma {:induction false} InsertByPermutes<T>(x: T, s: seq<T>, key: T -> int)
    ensures multiset(InsertBy(x, s, key)) == multiset(s) + multiset{x}
  {
    if s != [] && key(s[|s| - 1]) > key(x) {
      var p := s[..|s| - 1];
      InsertByPermutes(x, p, key);
      assert s == p + [s[|s| - 1]];
    }
  }

  lemma {:induction false} SortByPermutes<T>(s: seq<T>, key: T -> int)
    ensures multiset(SortBy(s, key)) == multiset(s)
  {
    if s != [] {
      var p := s[..|s| - 1];
      SortByPermutes(p, key);
      InsertByPermutes(s[|s| - 1], SortBy(p, key), key);
      assert s == p + [s[|s| - 1]];
    }
  }

  /** Sorting rearranges the migrations: none is lost, none is repeated. */
  lemma SortByIdPermutes(s: seq<Migration>)
    ensures multiset(SortById(s)) == multiset(s)
  {
    SortByPermutes(s, IdOf);
  }

  lemma {:induction false} InsertByLast<T>(x: T, s: seq<T>, key: T -> int)
    ensures var r := InsertBy(x, s, key); r[|r| - 1] == x || (s != [] && r[|r| - 1] == s[|s| - 1])
  {
  }

  lemma {:induction false} InsertBySorted<T>(x: T, s: seq<T>, key: T -> int)
    requires SortedBy(s, key)
    ensures SortedBy(InsertBy(x, s, key), key)
  {
    if s != [] {
      var l := s[|s| - 1];
      var p := s[..|s| - 1];
      if key(l) <= key(x) {
        var r := s + [x];
        assert forall i :: 0 <= i < |s| ==> r[i] == s[i];
      } else {
        assert SortedBy(p, key);
        InsertBySorted(x, p, key);
        var t := InsertBy(x, p, key);
        InsertByLast(x, p, key);
        var r := t + [l];
        assert forall i :: 0 <= i < |t| ==> r[i] == t[i];
      }
    }
  }

  lemma {:induction false} SortBySorted<T>(s: seq<T>, key: T -> int)
    ensures SortedBy(SortBy(s, key), key)
  {
    if s != [] {
      SortBySorted(s[..|s| - 1], key);
      InsertBySorted(s[|s| - 1], SortBy(s[..|s| - 1], key), key);
    }
  }

  /** std::sort's promise: ids never decrease along the sorted list. */
  lemma SortByIdSorted(s: seq<Migration>)
    ensures forall i :: 0 <= i < |s| - 1 ==> SortById(s)[i].id <= SortById(s)[i + 1].id
  {
    SortBySorted(s, IdOf);
  }

  lemma {:induction false} InsertByIdAscending(m: Migration, s: seq<Migration>)
    requires StrictlyAscending(s)
    requires forall k :: 0 <= k < |s| ==> s[k].id != m.id
    ensures StrictlyAscending(InsertBy(m, s, IdOf))
  {
    if s != [] {
      var l := s[|s| - 1];
      var p := s[..|s| - 1];
      if l.id <= m.id {
        var r := s + [m];
        assert forall i :: 0 <= i < |s| ==> r[i] == s[i];
      } else {
        assert StrictlyAscending(p);
        assert forall k :: 0 <= k < |p| ==> p[k] == s[k];
        InsertByIdAscending(m, p);
        var t := InsertBy(m, p, IdOf);
        InsertByLast(m, p, IdOf);
        var r := t + [l];
        assert forall i :: 0 <= i < |t| ==> r[i] == t[i];
      }
    }
  }

  /** With distinct ids the sorted list is strictly ascending. */
  lemma {:induction false} SortByIdAscending(s: seq<Migration>)
    requires IdsDistinct(s)
    ensures StrictlyAscending(SortById(s))
  {
    if s != [] {
      var p := s[..|s| - 1];
      var l := s[|s| - 1];
      assert IdsDistinct(p);
      SortByIdAscending(p);
      SortByIdPermutes(p);
      var t := SortById(p);
      forall k | 0 <= k < |t| ensures t[k].id != l.id {
        assert t[k] in multiset(p);
        var i :| 0 <= i < |p| && p[i] == t[k];
        assert p[i] == s[i];
      }
      InsertByIdAscending(l, t);
    }
  }

  lemma AscendingIdsDistinct(s: seq<Migration>)
    requires StrictlyAscending(s)
    ensures IdsDistinct(s)
  {
    forall i, j | 0 <= i < j < |s| ensures s[i].id < s[j].id {
      AscendingChain(s, i, j);
    }
  }

  lemma {:induction false} AscendingChain(s: seq<Migration>, i: nat, j: nat)
    requires StrictlyAscending(s) && i < j < |s|
    ensures s[i].id < s[j].id
    decreases j - i
  {
    if i + 1 < j {
      AscendingChain(s, i + 1, j);
    }
  }

  /** Where the shift loop of the in-place sort stops: after the elements
      whose keys exceed the moving one's, at one whose key does not. The
      moving element goes there. */
  lemma {:induction false} InsertByAt<T>(x: T, s: seq<T>, key: T -> int, j: nat)
    requires j <= |s| && (j == 0 || key(s[j - 1]) <= key(x))
    requires forall k :: j <= k < |s| ==> key(s[k]) > key(x)
    ensures InsertBy(x, s, key) == s[..j] + [x] + s[j..]
    decreases |s|
  {
    if j == |s| {
      assert s[..j] == s && s[j..] == [];
    } else {
      var n := |s| - 1;
      var p := s[..n];
      assert forall k :: j <= k < |p| ==> p[k] == s[k];
      InsertByAt(x, p, key, j);
      assert p[..j] == s[..j];
      AppendAssoc(p[..j] + [x], p[j..], [s[n]]);
      assert p[j..] + [s[n]] == s[j..];
    }
  }

  /** One pass of the insertion sort over the vector's storage. */
  method InsertInPlaceBy<T>(a: array<T>, i: nat, key: T -> int)
    requires i < a.Length
    modifies a
    ensures a[..i + 1] == InsertBy(old(a[i]), old(a[..i]), key)
    ensures forall k :: i < k < a.Length ==> a[k] == old(a[k])
  {
    var x := a[i];
    ghost var s := a[..i];
    var j := i;
    while j > 0 && key(a[j - 1]) > key(x)
      invariant 0 <= j <= i
      invariant forall k :: 0 <= k < j ==> a[k] == s[k]
      invariant forall k :: j < k <= i ==> a[k] == s[k - 1]
      invariant forall k :: i < k < a.Length ==> a[k] == old(a[k])
      invariant forall k :: j <= k < i ==> key(s[k]) > key(x)
    {
      assert a[j - 1] == s[j - 1];
      a[j] := a[j - 1];
      j := j - 1;
    }
    InsertByAt(x, s, key, j);
    a[j] := x;
    InsertedAt(a[..i + 1], s, j, x);
  }

  /** std::sort with a comparator on `key`, in place. */
  method SortInPlaceBy<T>(a: array<T>, key: T -> int)
    modifies a
    ensures a[..] == SortBy(old(a[..]), key)
  {
    ghost var original := a[..];
    var i := 0;
    while i < a.Length
      invariant 0 <= i <= a.Length
      invariant a[..i] == SortBy(original[..i], key)
      invariant forall k :: i <= k < a.Length ==> a[k] == original[k]
    {
      InsertInPlaceBy(a, i, key);
      assert original[..i + 1][..i] == original[..i];
      i := i + 1;
    }
    assert a[..] == a[..a.Length] && original == original[..a.Length];
  }

  // ---------------------------------------------------------------------
  // Which migrations build runs
  // ---------------------------------------------------------------------

  /** The for loop of build: a migration whose id does not exceed the
      version is skipped, otherwise it runs and its id becomes the version. */
  function Due(ms: seq<Migration>, version: int): (r: seq<Migration>)
    ensures forall k :: 0 <= k < |r| ==> r[k] in ms && r[k].id > version
    ensures StrictlyAscending(r)
  {
    if ms == [] then []
    else if ms[0].id <= version then Due(ms[1..], version)
    else [ms[0]] + Due(ms[1..], ms[0].id)
  }

  /** Over a strictly ascending list, every migration newer than the version
      runs, and nothing else. */
  lemma {:induction false} DueComplete(ms: seq<Migration>, version: int, m: Migration)
    requires StrictlyAscending(ms)
    ensures m in Due(ms, version) <==> m in ms && m.id > version
  {
    if ms != [] {
      var t := ms[1..];
      assert StrictlyAscending(t);
      if m in ms && m.id > version && m != ms[0] {
        var k :| 0 <= k < |ms| && ms[k] == m;
        assert k > 0;
        if k > 1 {
          AscendingChain(ms, 0, k);
        }
        assert t[k - 1] == m;
      }
      if ms[0].id <= version {
        DueComplete(t, version, m);
      } else {
        DueComplete(t, ms[0].id, m);
      }
    }
  }

  // ---------------------------------------------------------------------
  // The version kept in the bookkeeping table
  // ---------------------------------------------------------------------

  const CreateVersionTable: string := "CREATE TABLE IF NOT EXISTS migracao (version INTEGER NOT NULL);"
  const SelectMigracao: string := "SELECT * FROM migracao;"
  const BadOptionalAccess: string := "bad optional access"

  /** migracaoModel with its id set to 1 and its version set. */
  function MigracaoRecord(version: Int64): (r: Instance)
    ensures r.schema == MigracaoSchema
    ensures Lookup(r, "version") == Success(IntValue(version))
    ensures Lookup(r, "id") == Success(IntValue(1))
  {
    MigracaoNames();
    Record(MigracaoSchema, [IntValue(1), IntValue(version)])
  }

  /** Both writes of build accept the model. */
  lemma MigracaoWrites(version: Int64)
    ensures InsertSql(MigracaoRecord(version)).Success?
    ensures UpdateSql(MigracaoRecord(version)).Success?
  {
    var r := MigracaoRecord(version);
    assert forall i :: 0 <= i < |r.cells| ==> Compatible(r.schema.fields[i], r.cells[i]);
    assert Declares(r.schema.fields, r.schema.keys[0]);
    WriteFailsOnlyOnMissingKey(r);
  }

  /** The SELECT callback's loop over the columns from i on. For a column
      called "version" it reads an integer from the cell at `i` (`asWritten`
      false) or, as the source does, from the cell at 0; a cell that is not
      an integer fails the way std::optional::value does. */
  function ScanVersion(row: Row, i: nat, version: Int64, asWritten: bool): (r: Result<Int64>)
    decreases |row.columns| - i
    ensures (forall j :: i <= j < |row.columns| ==> row.columns[j] != "version") ==> r == Success(version)
    ensures r.Failure? ==> r.error == BadOptionalAccess
  {
    if i >= |row.columns| then Success(version)
    else if row.columns[i] != "version" then ScanVersion(row, i + 1, version, asWritten)
    else
      var j := if asWritten then 0 else i;
      match (if j < |row.values| then GetInt(row.values[j]) else None)
      case None => Failure(BadOptionalAccess)
      case Some(x) => ScanVersion(row, i + 1, x, asWritten)
  }

  /** What a single "version" column makes the scan return, given the cell
      it reads from. */
  function ReadCell(d: Data): Result<Int64>
  {
    match GetInt(d)
    case None => Failure(BadOptionalAccess)
    case Some(x) => Success(x)
  }

  /** With one "version" column, at `k`, the corrected scan returns that
      column's integer. */
  lemma {:induction false} ScanVersionReadsColumn(row: Row, i: nat, version: Int64, k: nat)
    requires |row.values| == |row.columns| && i <= k < |row.columns| && row.columns[k] == "version"
    requires forall j :: i <= j < |row.columns| && j != k ==> row.columns[j] != "version"
    ensures ScanVersion(row, i, version, false) == ReadCell(row.values[k])
    decreases |row.columns| - i
  {
    if i < k {
      ScanVersionReadsColumn(row, i + 1, version, k);
    }
  }

  /** With one "version" column, the scan as written returns the integer of
      the first column, whatever the version column holds. */
  lemma {:induction false} ScanVersionReadsFirst(row: Row, i: nat, version: Int64, k: nat)
    requires |row.values| == |row.columns| && i <= k < |row.columns| && row.columns[k] == "version"
    requires forall j :: i <= j < |row.columns| && j != k ==> row.columns[j] != "version"
    ensures ScanVersion(row, i, version, true) == ReadCell(row.values[0])
    decreases |row.columns| - i
  {
    if i < k {
      ScanVersionReadsFirst(row, i + 1, version, k);
    }
  }

  /** The callback: the scan over the first row, then `return false`. */
  function VersionStep(asWritten: bool): (Int64, Row) -> Result<(Int64, bool)>
  {
    (version, row) =>
      match ScanVersion(row, 0, version, asWritten)
      case Failure(e) => Failure(e)
      case Success(x) => Success((x, false))
  }

  /** `SELECT * FROM migracao;` with the model's version starting at 0. */
  function ReadVersion(o: Oracle, log: seq<string>, asWritten: bool): (r: Result<Int64>)
    ensures r.Failure? ==> EndsWith(r.error, ": " + SelectMigracao)
  {
    QueryResult(o.respond(log, SelectMigracao), SelectMigracao, 0, VersionStep(asWritten))
  }

  /** An empty table leaves the version at 0; otherwise only the first row
      is read. */
  lemma ReadVersionFirstRow(o: Oracle, log: seq<string>, asWritten: bool)
    requires o.respond(log, SelectMigracao).Rows?
    ensures var a := o.respond(log, SelectMigracao);
      a.rows == [] ==> ReadVersion(o, log, asWritten) == Success(0)
    ensures var a := o.respond(log, SelectMigracao);
      a.rows != [] && ClassifyRow(a.rows[0]).Success?
      && ScanVersion(Row(a.columns, ClassifyRow(a.rows[0]).value), 0, 0, asWritten).Success? ==>
        ReadVersion(o, log, asWritten) == ScanVersion(Row(a.columns, ClassifyRow(a.rows[0]).value), 0, 0, asWritten)
  {
  }

  // ---------------------------------------------------------------------
  // build
  // ---------------------------------------------------------------------

  function MigrationFailed(id: int, e: string): string
  {
    "Unable to proceed with migration [migracao v" + IntToString(id) + "]: " + e
  }

  /** The loop over the sorted migrations: each one due sets the version,
      runs its callback directly (no transaction of its own) and updates the
      bookkeeping row; any exception ends build with the migration's id. */
  function MigrateRun(o: Oracle, w: World, ms: seq<Migration>, version: Int64): (r: (World, Outcome))
    decreases |ms|
    ensures (forall k :: 0 <= k < |ms| ==> ms[k].id <= version) ==> r == (w, Pass)
  {
    if ms == [] then (w, Pass)
    else if ms[0].id <= version then MigrateRun(o, w, ms[1..], version)
    else
      var ran := RunSteps(o, w, ms[0].action, 0);
      if ran.1.Fail? then (ran.0, Fail(MigrationFailed(ms[0].id, ran.1.error)))
      else
        var up := UpdateRun(o, ran.0.log, MigracaoRecord(ms[0].id));
        var w1 := ran.0.(log := up.0);
        if up.1.Fail? then (w1, Fail(MigrationFailed(ms[0].id, up.1.error)))
        else MigrateRun(o, w1, ms[1..], ms[0].id)
  }

  /** The loop only appends to the history. */
  lemma {:induction false} MigrateRunExtends(o: Oracle, w: World, ms: seq<Migration>, version: Int64)
    ensures w.log <= MigrateRun(o, w, ms, version).0.log
    decreases |ms|
  {
    if ms != [] {
      var r := MigrateRun(o, w, ms, version);
      if ms[0].id <= version {
        assert r == MigrateRun(o, w, ms[1..], version);
        MigrateRunExtends(o, w, ms[1..], version);
      } else {
        var ran := RunSteps(o, w, ms[0].action, 0);
        if ran.1.Pass? {
          var up := UpdateRun(o, ran.0.log, MigracaoRecord(ms[0].id));
          var w1 := ran.0.(log := up.0);
          MigracaoWrites(ms[0].id);
          assert up.0 == ran.0.log + [UpdateSql(MigracaoRecord(ms[0].id)).value];
          PrefixTrans(w.log, ran.0.log, w1.log);
          if up.1.Pass? {
            var rest := MigrateRun(o, w1, ms[1..], ms[0].id);
            assert r == rest;
            MigrateRunExtends(o, w1, ms[1..], ms[0].id);
            PrefixTrans(w.log, w1.log, rest.0.log);
          }
        }
      }
    }
  }

  /** `error` is the error of some migration of `ms` newer than `version`. */
  ghost predicate NamesNewer(ms: seq<Migration>, version: Int64, error: string)
  {
    exists k, e :: (0 <= k < |ms| && ms[k].id > version && error == MigrationFailed(ms[k].id, e))
  }

  lemma NamesNewerTail(ms: seq<Migration>, version: Int64, later: Int64, error: string)
    requires ms != [] && later >= version && NamesNewer(ms[1..], later, error)
    ensures NamesNewer(ms, version, error)
  {
    var k, e :| 0 <= k < |ms[1..]| && ms[1..][k].id > later && error == MigrationFailed(ms[1..][k].id, e);
    assert ms[k + 1] == ms[1..][k];
  }

  /** A failure names a migration newer than the version read, and carries
      the error it raised. */
  lemma {:induction false} MigrateRunFailure(o: Oracle, w: World, ms: seq<Migration>, version: Int64)
    requires MigrateRun(o, w, ms, version).1.Fail?
    ensures NamesNewer(ms, version, MigrateRun(o, w, ms, version).1.error)
    decreases |ms|
  {
    var r := MigrateRun(o, w, ms, version);
    if ms[0].id <= version {
      assert r == MigrateRun(o, w, ms[1..], version);
      MigrateRunFailure(o, w, ms[1..], version);
      NamesNewerTail(ms, version, version, r.1.error);
    } else {
      var ran := RunSteps(o, w, ms[0].action, 0);
      if ran.1.Fail? {
        assert r.1.error == MigrationFailed(ms[0].id, ran.1.error);
      } else {
        var up := UpdateRun(o, ran.0.log, MigracaoRecord(ms[0].id));
        if up.1.Fail? {
          assert r.1.error == MigrationFailed(ms[0].id, up.1.error);
        } else {
          var w1 := ran.0.(log := up.0);
          assert r == MigrateRun(o, w1, ms[1..], ms[0].id);
          MigrateRunFailure(o, w1, ms[1..], ms[0].id);
          NamesNewerTail(ms, version, ms[0].id, r.1.error);
        }
      }
    }
  }

  /** The reference for the loop: every migration of the list in order,
      whatever its id, each its callback and then the UPDATE of the
      bookkeeping row to its id; the first exception ends the run with the
      migration's id. */
  function RunAll(o: Oracle, w: World, ms: seq<Migration>): (r: (World, Outcome))
    decreases |ms|
  {
    if ms == [] then (w, Pass)
    else
      var ran := RunSteps(o, w, ms[0].action, 0);
      if ran.1.Fail? then (ran.0, Fail(MigrationFailed(ms[0].id, ran.1.error)))
      else
        var up := UpdateRun(o, ran.0.log, MigracaoRecord(ms[0].id));
        var w1 := ran.0.(log := up.0);
        if up.1.Fail? then (w1, Fail(MigrationFailed(ms[0].id, up.1.error)))
        else RunAll(o, w1, ms[1..])
  }

  /** The loop of build is the unconditional run of the due migrations:
      skipping by the version as it advances selects exactly Due. */
  lemma {:induction false} MigrateRunIsRunAll(o: Oracle, w: World, ms: seq<Migration>, version: Int64)
    ensures MigrateRun(o, w, ms, version) == RunAll(o, w, Due(ms, version))
    decreases |ms|
  {
    if ms != [] {
      if ms[0].id <= version {
        MigrateRunIsRunAll(o, w, ms[1..], version);
      } else {
        var d := Due(ms, version);
        assert d[0] == ms[0] && d[1..] == Due(ms[1..], ms[0].id);
        var ran := RunSteps(o, w, ms[0].action, 0);
        if ran.1.Pass? {
          var up := UpdateRun(o, ran.0.log, MigracaoRecord(ms[0].id));
          var w1 := ran.0.(log := up.0);
          if up.1.Pass? {
            MigrateRunIsRunAll(o, w1, ms[1..], ms[0].id);
          }
        }
      }
    }
  }

  /** What running the migrations sends: for each in order, its statements
      and then the UPDATE that records its id as the version. */
  function MigrationLog(ms: seq<Migration>): seq<string>
    decreases |ms|
  {
    if ms == [] then []
    else
      MigracaoWrites(ms[0].id);
      Statements(ms[0].action, 0) + [UpdateSql(MigracaoRecord(ms[0].id)).value] + MigrationLog(ms[1..])
  }

  /** One migration whose callback only runs statements, on an engine that
      accepts every statement: its statements, then the version UPDATE. */
  lemma MigrationStep(o: Oracle, w: World, ms: seq<Migration>) returns (sql: string)
    requires Accepts(o) && ms != [] && StatementsOnly(ms[0].action)
    ensures UpdateSql(MigracaoRecord(ms[0].id)).Success? && sql == UpdateSql(MigracaoRecord(ms[0].id)).value
    ensures MigrationLog(ms) == Statements(ms[0].action, 0) + [sql] + MigrationLog(ms[1..])
    ensures RunAll(o, w, ms) == RunAll(o, w.(log := w.log + Statements(ms[0].action, 0) + [sql]), ms[1..])
  {
    var m := ms[0];
    RunStatementsOnly(o, w, m.action, 0);
    MigracaoWrites(m.id);
    sql := UpdateSql(MigracaoRecord(m.id)).value;
    var w0 := w.(log := w.log + Statements(m.action, 0));
    assert ExecuteRun(o, w0.log, sql).1.Pass?;
    assert UpdateRun(o, w0.log, MigracaoRecord(m.id)) == (w0.log + [sql], Pass);
  }

  /** On an engine that accepts every statement, migrations whose callbacks
      only run statements all pass and send MigrationLog, in order. */
  lemma {:induction false} RunAllStatements(o: Oracle, w: World, ms: seq<Migration>)
    requires Accepts(o)
    requires forall m :: m in ms ==> StatementsOnly(m.action)
    ensures RunAll(o, w, ms) == (w.(log := w.log + MigrationLog(ms)), Pass)
    decreases |ms|
  {
    if ms != [] {
      var m := ms[0];
      var sql := MigrationStep(o, w, ms);
      var w1 := w.(log := w.log + Statements(m.action, 0) + [sql]);
      assert forall x :: x in ms[1..] ==> x in ms;
      RunAllStatements(o, w1, ms[1..]);
      AppendAssoc(w.log, Statements(m.action, 0) + [sql], MigrationLog(ms[1..]));
      AppendAssoc(w.log, Statements(m.action, 0), [sql]);
    } else {
      assert w.log + MigrationLog(ms) == w.log;
    }
  }

  /** `if (version == 0) insert(migracaoModel);` */
  function SeedRun(o: Oracle, log: seq<string>, version: Int64): (r: (seq<string>, Outcome))
    ensures version != 0 ==> r == (log, Pass)
    ensures version == 0 ==> InsertSql(MigracaoRecord(0)).Success? && log + [InsertSql(MigracaoRecord(0)).value] <= r.0
  {
    MigracaoWrites(0);
    if version != 0 then (log, Pass)
    else
      var ins := InsertRun(o, log, MigracaoRecord(0));
      (ins.0, if ins.1.Success? then Pass else Fail(ins.1.error))
  }

  /** build: the state after it, the migration list it leaves (sorted once
      the version has been read) and how it ended. */
  function BuildRun(o: Oracle, w: World, ms: seq<Migration>, asWritten: bool): (r: (World, seq<Migration>, Outcome))
    ensures r.1 == ms || r.1 == SortById(ms)
  {
    var created := ExecuteRun(o, w.log, CreateVersionTable);
    var w1 := w.(log := created.0);
    if created.1.Fail? then (w1, ms, created.1)
    else
      var w2 := w1.(log := w1.log + [SelectMigracao]);
      match ReadVersion(o, w1.log, asWritten)
      case Failure(e) => (w2, ms, Fail(e))
      case Success(version) =>
        var seeded := SeedRun(o, w2.log, version);
        var w3 := w2.(log := seeded.0);
        if seeded.1.Fail? then (w3, ms, seeded.1)
        else
          var sorted := SortById(ms);
          var m := MigrateRun(o, w3, sorted, version);
          (m.0, sorted, m.1)
  }

  /** build starts with the CREATE TABLE of the version table and only
      appends to the history. */
  lemma BuildRunExtends(o: Oracle, w: World, ms: seq<Migration>, asWritten: bool)
    ensures w.log + [CreateVersionTable] <= BuildRun(o, w, ms, asWritten).0.log
  {
    var r := BuildRun(o, w, ms, asWritten);
    var created := ExecuteRun(o, w.log, CreateVersionTable);
    var w1 := w.(log := created.0);
    assert w1.log == w.log + [CreateVersionTable];
    if created.1.Pass? {
      var w2 := w1.(log := w1.log + [SelectMigracao]);
      PrefixTrans(w1.log, w1.log, w2.log);
      var rv := ReadVersion(o, w1.log, asWritten);
      if rv.Success? {
        var seeded := SeedRun(o, w2.log, rv.value);
        var w3 := w2.(log := seeded.0);
        if rv.value == 0 {
          PrefixTrans(w2.log, w2.log + [InsertSql(MigracaoRecord(0)).value], w3.log);
        }
        PrefixTrans(w1.log, w2.log, w3.log);
        if seeded.1.Pass? {
          var m := MigrateRun(o, w3, SortById(ms), rv.value);
          assert r.0 == m.0;
          MigrateRunExtends(o, w3, SortById(ms), rv.value);
          PrefixTrans(w1.log, w3.log, m.0.log);
        } else {
          assert r.0 == w3;
        }
      } else {
        assert r.0 == w2;
      }
    }
  }

  /** Once the version table is created and the version read and seeded,
      build leaves the migrations sorted and runs, one after the other,
      exactly those newer than the version read, in ascending id order. */
  lemma BuildRunsDue(o: Oracle, w: World, ms: seq<Migration>, asWritten: bool)
    requires IdsDistinct(ms)
    ensures var created := ExecuteRun(o, w.log, CreateVersionTable);
      var rv := ReadVersion(o, created.0, asWritten);
      created.1.Pass? && rv.Success? && SeedRun(o, created.0 + [SelectMigracao], rv.value).1.Pass? ==>
        var due := Due(SortById(ms), rv.value);
        var run := RunAll(o, w.(log := SeedRun(o, created.0 + [SelectMigracao], rv.value).0), due);
        && BuildRun(o, w, ms, asWritten) == (run.0, SortById(ms), run.1)
        && StrictlyAscending(due)
        && forall m :: m in due <==> m in ms && m.id > rv.value
  {
    var created := ExecuteRun(o, w.log, CreateVersionTable);
    var rv := ReadVersion(o, created.0, asWritten);
    if created.1.Pass? && rv.Success? && SeedRun(o, created.0 + [SelectMigracao], rv.value).1.Pass? {
      var sorted := SortById(ms);
      var seeded := SeedRun(o, created.0 + [SelectMigracao], rv.value);
      MigrateRunIsRunAll(o, w.(log := seeded.0), sorted, rv.value);
      SortByIdAscending(ms);
      SortByIdPermutes(ms);
      forall m ensures m in Due(sorted, rv.value) <==> m in ms && m.id > rv.value {
        DueComplete(sorted, rv.value, m);
        assert m in sorted <==> m in multiset(sorted);
        assert m in ms <==> m in multiset(ms);
      }
    }
  }
}

=== FILE: repositories.dfy ===
/*
  Repository<T> (include/jdb/database/Repository.hpp): the read queries of
  one model (select with its row cap, load_all, count_by, load_by,
  first_by / last_by, find) and its writes (save, update, remove and their
  _all forms). Every query is a text built on a stream and handed to
  query_string with a row callback; the callback is a pure step function
  here, and each method is proved against the query_string result of the
  text it sends.

  Filters and orders come from the for_each_where / for_each_order
  recursions over the Fields... pack. As written, the recursive calls drop
  the stream argument, so only filters and orders of one field compile; the
  model writes what the recursion evidently intends: " AND " (", ") before
  every element after the first.
*/
module Repositories {
  import opened Wrappers
  import opened Strings
  import opened DataClass
  import opened Database
  import opened Engine
  import opened Sqlite

  // ---------------------------------------------------------------------
  // Filters and orders
  // ---------------------------------------------------------------------

  /** One condition of for_each_where: null as IS NULL, a bool as true or
      false, a number as equality, text as a LIKE substring pattern. */
  function Condition(field: string, v: Data): (r: string)
    ensures !v.BoolValue? ==> r == KeyPredicate(field, v)
  {
    match v
    case NullValue => "(" + field + " IS NULL)"
    case BoolValue(b) => "(" + field + " = " + (if b then "true" else "false") + ")"
    case IntValue(i) => "(" + field + " = " + IntToString(i) + ")"
    case DecimalValue(d) => "(" + field + " = " + d.streamed + ")"
    case TextValue(s) => "(" + field + " LIKE '%" + s + "%')"
  }

  /** The i-th field paired with the i-th value; values past the last
      field are ignored by the recursion. */
  function Conditions(fields: seq<string>, values: seq<Data>): (ps: seq<string>)
    requires |fields| <= |values|
    ensures |ps| == |fields|
  {
    seq(|fields|, i requires 0 <= i < |fields| => Condition(fields[i], values[i]))
  }

  function Filter(fields: seq<string>, values: seq<Data>): string
    requires |fields| <= |values|
  {
    Join(" AND ", Conditions(fields, values))
  }

  function Order(fields: seq<string>): string
  {
    Join(", ", fields)
  }

  /** A filter condition reads like the primary-key condition of
      get_where_from_primary_keys for every value except a bool, which
      the filter writes as true/false and the key condition as 1/0. */
  lemma ConditionAgreesWithKey(field: string, v: Data)
    ensures Condition(field, v) == KeyPredicate(field, v) <==> !v.BoolValue?
  {
    if v.BoolValue? {
      var n := |field| + 4;
      assert Condition(field, v)[n] == (if v.b then 't' else 'f');
      assert KeyPredicate(field, v)[n] == (if v.b then '1' else '0');
    }
  }

  /** find filters on the key names with the given values; when those are
      the record's own key cells and none is a bool, the filter is the
      WHERE clause update and remove use for that record. */
  lemma FilterAgreesWithKeys(r: Record, ks: seq<Field>, values: seq<Data>)
    requires |r.cells| == |r.schema.fields| && |values| == |ks|
    requires forall i :: 0 <= i < |ks| ==> values[i] == KeyCell(r, ks[i]) && !values[i].BoolValue?
    ensures " WHERE " + Filter(FieldNames(ks), values) == WhereText(r, ks)
  {
    ConditionsAreKeys(r, ks, values);
  }

  lemma ConditionsAreKeys(r: Record, ks: seq<Field>, values: seq<Data>)
    requires |r.cells| == |r.schema.fields| && |values| == |ks|
    requires forall i :: 0 <= i < |ks| ==> values[i] == KeyCell(r, ks[i]) && !values[i].BoolValue?
    ensures Conditions(FieldNames(ks), values) == KeyPredicates(r, ks)
  {
    var cs := Conditions(FieldNames(ks), values);
    var kp := KeyPredicates(r, ks);
    forall i | 0 <= i < |ks| ensures cs[i] == kp[i] {
      ConditionAtKey(r, ks, values, i);
    }
  }

  lemma ConditionAtKey(r: Record, ks: seq<Field>, values: seq<Data>, i: nat)
    requires |r.cells| == |r.schema.fields| && |values| == |ks| && i < |ks|
    requires values[i] == KeyCell(r, ks[i]) && !values[i].BoolValue?
    ensures Conditions(FieldNames(ks), values)[i] == KeyPredicates(r, ks)[i]
  {
    var names := FieldNames(ks);
    ConditionAgreesWithKey(names[i], values[i]);
  }

  lemma ConditionsSnoc(fields: seq<string>, values: seq<Data>, i: nat)
    requires i < |fields| <= |values|
    ensures Conditions(fields[..i + 1], values) == Conditions(fields[..i], values) + [Condition(fields[i], values[i])]
  {
  }

  /** The visitor of for_each_where for one field and value. */
  method WriteCondition(out: string, field: string, v: Data) returns (o: string)
    ensures o == out + Condition(field, v)
  {
    var c: string;
    match v {
      case NullValue =>
        c := "(" + field + " IS NULL)";
      case BoolValue(b) =>
        c := "(" + field + " = " + (if b then "true" else "false") + ")";
      case IntValue(i) =>
        c := "(" + field + " = " + IntToString(i) + ")";
      case DecimalValue(d) =>
        c := "(" + field + " = " + d.streamed + ")";
      case TextValue(s) =>
        c := "(" + field + " LIKE '%" + s + "%')";
    }
    o := out + c;
  }

  /** for_each_where<0, Fields...>(out, values...). */
  method WriteFilter(out: string, fields: seq<string>, values: seq<Data>) returns (o: string)
    requires |fields| <= |values|
    ensures o == out + Filter(fields, values)
  {
    o := out;
    ghost var ps: seq<string> := [];
    EndSlices(fields);
    for index := 0 to |fields|
      invariant ps == Conditions(fields[..index], values)
      invariant o == Written(out, " AND ", ps)
    {
      ConditionsSnoc(fields, values, index);
      var c := Condition(fields[index], values[index]);
      JoinStep(out, " AND ", ps, c, o);
      if index != 0 {
        o := o + " AND ";
      }
      o := WriteCondition(o, fields[index], values[index]);
      ps := ps + [c];
    }
  }

  /** for_each_order<0, Fields...>(out). */
  method WriteOrder(out: string, fields: seq<string>) returns (o: string)
    ensures o == out + Order(fields)
  {
    o := out;
    EndSlices(fields);
    for index := 0 to |fields|
      invariant o == Written(out, ", ", fields[..index])
    {
      SnocSlice(fields, index);
      JoinStep(out, ", ", fields[..index], fields[index], o);
      if index != 0 {
        o := o + ", ";
      }
      o := o + fields[index];
    }
  }

  // ---------------------------------------------------------------------
  // Row callbacks
  // ---------------------------------------------------------------------

  function Min(a: int, b: int): int
  {
    if a < b then a else b
  }

  /** A result row read into a model (`Model item;` and the column loop),
      when its cells classify and its columns are fields of the model. */
  function Filled(s: Schema, columns: seq<string>, row: seq<NativeCell>): Option<Record>
  {
    match ClassifyRow(row)
    case Failure(_) => None
    case Success(values) =>
      match FillRecord(s, Row(columns, values))
      case Failure(_) => None
      case Success(m) => Some(m)
  }

  predicate AllFill(s: Schema, columns: seq<string>, rows: seq<seq<NativeCell>>)
  {
    forall i :: 0 <= i < |rows| ==> Filled(s, columns, rows[i]).Some?
  }

  /** The models of all rows, in row order. */
  function FilledRows(s: Schema, columns: seq<string>, rows: seq<seq<NativeCell>>): (ms: seq<Record>)
    requires AllFill(s, columns, rows)
    ensures |ms| == |rows|
  {
    seq(|rows|, i requires 0 <= i < |rows| => Filled(s, columns, rows[i]).value)
  }

  lemma FilledRowsFront(s: Schema, columns: seq<string>, rows: seq<seq<NativeCell>>, k: nat)
    requires 1 <= k <= |rows| && AllFill(s, columns, rows)
    ensures AllFill(s, columns, rows[..k]) && AllFill(s, columns, rows[1..]) && AllFill(s, columns, rows[1..k])
    ensures FilledRows(s, columns, rows[..k]) == [Filled(s, columns, rows[0]).value] + FilledRows(s, columns, rows[1..k])
  {
    assert forall i :: 0 <= i < k ==> rows[..k][i] == rows[i];
    forall i | 0 <= i < |rows| - 1 ensures Filled(s, columns, rows[1..][i]).Some? {
      assert rows[1..][i] == rows[i + 1];
    }
    forall i | 0 <= i < k - 1 ensures Filled(s, columns, rows[1..k][i]).Some? {
      assert rows[1..k][i] == rows[i + 1];
    }
    var a := FilledRows(s, columns, rows[..k]);
    var b := [Filled(s, columns, rows[0]).value] + FilledRows(s, columns, rows[1..k]);
    forall i | 0 <= i < k ensures a[i] == b[i] {
      if i > 0 {
        assert rows[1..k][i - 1] == rows[i];
      }
    }
  }

  /** select's callback: the item is constructed, nothing more is kept
      once Limit items are held (and the stream stops), otherwise the row
      is filled in and kept. */
  function Collect(s: Schema, limit: nat, items: seq<Record>, row: Row): (r: Result<(seq<Record>, bool)>)
    ensures r.Success? ==> (r.value.1 <==> |items| < limit)
    ensures r.Success? && r.value.1 ==> |r.value.0| == |items| + 1 && r.value.0[..|items|] == items
    ensures r.Success? && !r.value.1 ==> r.value.0 == items
  {
    if !Distinct(FieldNames(s.fields)) then Failure(DuplicatedFields(s.name))
    else if |items| >= limit then Success((items, false))
    else
      match FillRecord(s, row)
      case Failure(e) => Failure(e)
      case Success(m) => Success((items + [m], true))
  }

  function CollectStep(s: Schema, limit: nat): (seq<Record>, Row) -> Result<(seq<Record>, bool)>
  {
    (items, row) => Collect(s, limit, items, row)
  }

  /** Whatever the rows, select never holds more than Limit items, and
      never drops one it holds. */
  lemma {:induction false} CollectBound(s: Schema, limit: nat, columns: seq<string>, rows: seq<seq<NativeCell>>, items: seq<Record>)
    requires |items| <= limit
    ensures var r := Stream(columns, rows, items, CollectStep(s, limit));
      r.Success? ==> items <= r.value && |r.value| <= limit
    decreases |rows|
  {
    if rows != [] {
      match ClassifyRow(rows[0]) {
        case Failure(_) =>
        case Success(values) =>
          var next := Collect(s, limit, items, Row(columns, values));
          if next.Success? && next.value.1 {
            var later := next.value.0;
            CollectBound(s, limit, columns, rows[1..], later);
            assert Stream(columns, rows, items, CollectStep(s, limit)) == Stream(columns, rows[1..], later, CollectStep(s, limit));
            var r := Stream(columns, rows[1..], later, CollectStep(s, limit));
            if r.Success? {
              PrefixTrans(items, later, r.value);
            }
          }
      }
    }
  }

  /** When every row reads into a model, select keeps the models of the
      first rows, as many as fit under Limit, in row order. */
  lemma {:induction false} CollectRows(s: Schema, limit: nat, columns: seq<string>, rows: seq<seq<NativeCell>>, items: seq<Record>)
    requires Distinct(FieldNames(s.fields)) && |items| <= limit && AllFill(s, columns, rows)
    ensures var k := Min(limit - |items|, |rows|);
      AllFill(s, columns, rows[..k])
      && Stream(columns, rows, items, CollectStep(s, limit)) == Success(items + FilledRows(s, columns, rows[..k]))
    decreases |rows|
  {
    var k := Min(limit - |items|, |rows|);
    if rows == [] || k == 0 {
      assert rows[..k] == [];
      assert items + FilledRows(s, columns, rows[..k]) == items;
      if rows != [] {
        var values := ClassifyRow(rows[0]).value;
        assert Collect(s, limit, items, Row(columns, values)) == Success((items, false));
        assert Stream(columns, rows, items, CollectStep(s, limit)) == Success(items);
      }
    } else {
      var values := ClassifyRow(rows[0]).value;
      var m := Filled(s, columns, rows[0]).value;
      assert Collect(s, limit, items, Row(columns, values)) == Success((items + [m], true));
      FilledRowsFront(s, columns, rows, k);
      CollectRows(s, limit, columns, rows[1..], items + [m]);
      assert Min(limit - |items + [m]|, |rows[1..]|) == k - 1;
      assert rows[1..][..k - 1] == rows[1..k];
      AppendAssoc(items, [m], FilledRows(s, columns, rows[1..k]));
    }
  }

  /** select returns at most Limit models. */
  lemma SelectAtMostLimit(answer: Response, sql: string, s: Schema, limit: nat)
    ensures var r := QueryResult(answer, sql, [], CollectStep(s, limit));
      r.Success? ==> |r.value| <= limit
  {
    if answer.Rows? {
      CollectBound(s, limit, answer.columns, answer.rows, []);
    }
  }

  /** When every row reads into a model, select returns the models of the
      first min(Limit, rows) rows, in row order. */
  lemma SelectFirstRows(answer: Response, sql: string, s: Schema, limit: nat)
    requires answer.Rows? && Distinct(FieldNames(s.fields)) && AllFill(s, answer.columns, answer.rows)
    ensures var k := Min(limit, |answer.rows|);
      AllFill(s, answer.columns, answer.rows[..k])
      && QueryResult(answer, sql, [], CollectStep(s, limit)) == Success(FilledRows(s, answer.columns, answer.rows[..k]))
  {
    CollectRows(s, limit, answer.columns, answer.rows, []);
    var k := Min(limit, |answer.rows|);
    assert [] + FilledRows(s, answer.columns, answer.rows[..k]) == FilledRows(s, answer.columns, answer.rows[..k]);
  }

  /** load_by's callback: every row filled into a new item and kept. */
  function Gather(s: Schema, items: seq<Record>, row: Row): (r: Result<(seq<Record>, bool)>)
    ensures r.Failure? <==> FillRecord(s, row).Failure?
    ensures r.Success? ==>
      r.value.1 && |r.value.0| == |items| + 1 && r.value.0[..|items|] == items && r.value.0[|items|].schema == s
  {
    match FillRecord(s, row)
    case Failure(e) => Failure(e)
    case Success(m) => Success((items + [m], true))
  }

  function GatherStep(s: Schema): (seq<Record>, Row) -> Result<(seq<Record>, bool)>
  {
    (items, row) => Gather(s, items, row)
  }

  /** load_by keeps the model of every row, in row order. */
  lemma {:induction false} GatherRows(s: Schema, columns: seq<string>, rows: seq<seq<NativeCell>>, items: seq<Record>)
    requires AllFill(s, columns, rows)
    ensures Stream(columns, rows, items, GatherStep(s)) == Success(items + FilledRows(s, columns, rows))
    decreases |rows|
  {
    if rows == [] {
      assert items + FilledRows(s, columns, rows) == items;
    } else {
      var values := ClassifyRow(rows[0]).value;
      var m := Filled(s, columns, rows[0]).value;
      assert Gather(s, items, Row(columns, values)) == Success((items + [m], true));
      FilledRowsFront(s, columns, rows, |rows|);
      GatherRows(s, columns, rows[1..], items + [m]);
      assert rows[..|rows|] == rows && rows[1..|rows|] == rows[1..];
      AppendAssoc(items, [m], FilledRows(s, columns, rows[1..]));
    }
  }

  /** One row fails to read, and every row before it reads: load_by fails
      with that row's error, whatever comes after it. */
  lemma {:induction false} GatherStopsAtBadRow(s: Schema, columns: seq<string>, rows: seq<seq<NativeCell>>, items: seq<Record>, k: nat)
    requires k < |rows| && AllFill(s, columns, rows[..k]) && Filled(s, columns, rows[k]).None?
    ensures Stream(columns, rows, items, GatherStep(s)).Failure?
    decreases k
  {
    if k == 0 {
      match ClassifyRow(rows[0]) {
        case Failure(_) =>
        case Success(values) =>
          assert FillRecord(s, Row(columns, values)).Failure?;
      }
    } else {
      assert rows[..k][0] == rows[0];
      var values := ClassifyRow(rows[0]).value;
      var m := Filled(s, columns, rows[0]).value;
      assert Gather(s, items, Row(columns, values)) == Success((items + [m], true));
      var tail := rows[1..][..k - 1];
      forall i | 0 <= i < k - 1 ensures Filled(s, columns, tail[i]).Some? {
        assert tail[i] == rows[..k][i + 1];
      }
      assert rows[1..][k - 1] == rows[k];
      GatherStopsAtBadRow(s, columns, rows[1..], items + [m], k - 1);
    }
  }

  /** first_by / last_by's callback: the first row filled into an item,
      then the stream stops. */
  function TakeFirst(s: Schema, items: seq<Record>, row: Row): Result<(seq<Record>, bool)>
  {
    match FillRecord(s, row)
    case Failure(e) => Failure(e)
    case Success(m) => Success((items + [m], false))
  }

  function TakeFirstStep(s: Schema): (seq<Record>, Row) -> Result<(seq<Record>, bool)>
  {
    (items, row) => TakeFirst(s, items, row)
  }

  /** `items.empty() ? {} : items[0]`, after the query. */
  function FirstOf(r: Result<seq<Record>>): Result<Option<Record>>
  {
    match r
    case Failure(e) => Failure(e)
    case Success(items) => if |items| == 0 then Success(None) else Success(Some(items[0]))
  }

  /** first_by / last_by: nothing for no rows, the first row's model when
      it reads, and the rows after it are never looked at. */
  lemma EdgeRow(answer: Response, sql: string, s: Schema)
    requires answer.Rows?
    ensures answer.rows == [] ==> FirstOf(QueryResult(answer, sql, [], TakeFirstStep(s))) == Success(None)
    ensures answer.rows != [] && Filled(s, answer.columns, answer.rows[0]).Some? ==>
      FirstOf(QueryResult(answer, sql, [], TakeFirstStep(s))) == Success(Some(Filled(s, answer.columns, answer.rows[0]).value))
    ensures answer.rows != [] ==>
      (QueryResult(answer, sql, [], TakeFirstStep(s)) == QueryResult(Rows(answer.columns, answer.rows[..1]), sql, [], TakeFirstStep(s)))
  {
    if answer.rows != [] {
      var one := answer.rows[..1];
      assert one[0] == answer.rows[0] && one[1..] == [];
      match ClassifyRow(answer.rows[0]) {
        case Failure(_) =>
        case Success(values) =>
          var t := TakeFirst(s, [], Row(answer.columns, values));
          assert Stream(answer.columns, answer.rows, [], TakeFirstStep(s)) == Stream(answer.columns, one, [], TakeFirstStep(s));
      }
    }
  }

  /** find: when every row reads, the first row's model, or nothing when no
      row matches. */
  lemma FindFirstMatch(answer: Response, sql: string, s: Schema)
    requires answer.Rows? && AllFill(s, answer.columns, answer.rows)
    ensures FirstOf(QueryResult(answer, sql, [], GatherStep(s)))
      == if answer.rows == [] then Success(None) else Success(Some(Filled(s, answer.columns, answer.rows[0]).value))
  {
    GatherRows(s, answer.columns, answer.rows, []);
    assert [] + FilledRows(s, answer.columns, answer.rows) == FilledRows(s, answer.columns, answer.rows);
  }

  const BadOptionalAccess: string := "bad optional access"

  /** count_by's callback: the first cell of the row as an integer
      (get_int().value(), which throws for any other alternative), then
      the stream stops. */
  function CountFirst(result: Int64, row: Row): (r: Result<(Int64, bool)>)
    ensures r.Success? <==> |row.values| > 0 && row.values[0].IntValue?
    ensures r.Success? ==> !r.value.1
    ensures r.Failure? ==> r.error == BadOptionalAccess
  {
    if |row.values| > 0 && row.values[0].IntValue? then Success((row.values[0].i, false))
    else Failure(BadOptionalAccess)
  }

  /** count_by: 0 without rows; otherwise the integer in the first column
      of the first row, and an error when that cell holds anything else. */
  lemma CountReadsFirstCell(answer: Response, sql: string)
    requires answer.Rows?
    ensures answer.rows == [] ==> QueryResult(answer, sql, 0, CountFirst) == Success(0)
    ensures answer.rows != [] && ClassifyRow(answer.rows[0]).Success? ==>
      var vs := ClassifyRow(answer.rows[0]).value;
      QueryResult(answer, sql, 0, CountFirst)
        == if |vs| > 0 && vs[0].IntValue? then Success(vs[0].i) else Failure(BadOptionalAccess + ": " + sql)
  {
  }

  // ---------------------------------------------------------------------
  // Query texts
  // ---------------------------------------------------------------------

  /** select<Extras>: the extras are the formatted Extras text. */
  function SelectSql(table: string, extras: string): string
  {
    "SELECT * from " + table + " " + extras
  }

  const LoadAllExtras: string := "ORDER BY ROWID"
  const DefaultLimit: nat := 100

  function CountSql(table: string, fields: seq<string>, values: seq<Data>): string
    requires |fields| <= |values|
  {
    "SELECT COUNT (*) from " + table + " WHERE " + Filter(fields, values)
  }

  function LoadBySql(table: string, fields: seq<string>, values: seq<Data>): string
    requires |fields| <= |values|
  {
    "SELECT * from " + table + " WHERE " + Filter(fields, values) + " ORDER BY ROWID"
  }

  /** first_by sorts ascending, last_by descending. */
  datatype Direction = Ascending | Descending

  function Tail(d: Direction): string
  {
    match d
    case Ascending => " ASC LIMIT 1"
    case Descending => " DESC LIMIT 1"
  }

  /** first_by / last_by: without values, no WHERE and the fields alone
      order the rows; with values, the rows are filtered and ordered by
      ROWID first. */
  function EdgeSql(table: string, fields: seq<string>, values: seq<Data>, d: Direction): string
    requires |fields| <= |values| || |values| == 0
  {
    (if |values| == 0 then "SELECT * from " + table + " ORDER BY "
     else "SELECT * from " + table + " WHERE " + Filter(fields, values) + " ORDER BY ROWID, ")
    + Order(fields) + Tail(d)
  }

  /** first_by and last_by send the same text up to the direction. */
  lemma EdgeSqlDirections(table: string, fields: seq<string>, values: seq<Data>)
    requires |fields| <= |values| || |values| == 0
    ensures var a := EdgeSql(table, fields, values, Ascending);
      var b := EdgeSql(table, fields, values, Descending);
      |a| == |b| - 1 && a[..|a| - 12] == b[..|b| - 13]
      && a[|a| - 12..] == " ASC LIMIT 1" && b[|b| - 13..] == " DESC LIMIT 1"
  {
    var head := if |values| == 0 then "SELECT * from " + table + " ORDER BY "
      else "SELECT * from " + table + " WHERE " + Filter(fields, values) + " ORDER BY ROWID, ";
    var p := head + Order(fields);
    var a := EdgeSql(table, fields, values, Ascending);
    var b := EdgeSql(table, fields, values, Descending);
    assert a == p + " ASC LIMIT 1";
    assert b == p + " DESC LIMIT 1";
    assert a[..|a| - 12] == p;
    assert b[..|b| - 13] == p;
  }

  /** A filtered query reads its table, filter and ROWID order in that
      order; the count query differs from load_by's only in its head and in
      the ordering. */
  lemma LoadBySqlShape(table: string, fields: seq<string>, values: seq<Data>)
    requires |fields| <= |values|
    ensures var q := LoadBySql(table, fields, values);
      var c := CountSql(table, fields, values);
      q == "SELECT * from " + table + " WHERE " + Filter(fields, values) + " ORDER BY ROWID"
      && c[22..] == q[14..|q| - 15]
  {
    var q := LoadBySql(table, fields, values);
    var c := CountSql(table, fields, values);
    var mid := table + " WHERE " + Filter(fields, values);
    assert c == "SELECT COUNT (*) from " + mid;
    assert q == "SELECT * from " + mid + " ORDER BY ROWID";
    assert c[22..] == mid;
    assert q[14..|q| - 15] == mid;
  }

  // ---------------------------------------------------------------------
  // Writes inside one transaction
  // ---------------------------------------------------------------------

  /** A transaction callback that writes each model in turn and catches each
      write's error (save_all, remove_all and the compound update, whose
      per-model calls return the error instead of throwing). */
  function Caught(ops: seq<WriteOp>): (a: Action)
    ensures |a.steps| == |ops|
  {
    Action(seq(|ops|, i requires 0 <= i < |ops| => Persist(ops[i], true)))
  }

  /** The history after the writes from i on, each after the previous. */
  function WritesLog(o: Oracle, log: seq<string>, ops: seq<WriteOp>, i: nat): (r: seq<string>)
    decreases |ops| - i
    ensures log <= r
  {
    if i >= |ops| then log
    else
      var next := WritesLog(o, PerformRun(o, log, ops[i]).0, ops, i + 1);
      PrefixTrans(log, PerformRun(o, log, ops[i]).0, next);
      next
  }

  /** Caught writes never throw: the callback runs to its end, touching
      neither the flag nor the queue. */
  lemma {:induction false} RunCaught(o: Oracle, w: World, ops: seq<WriteOp>, i: nat)
    requires i <= |ops|
    ensures RunSteps(o, w, Caught(ops), i) == (w.(log := WritesLog(o, w.log, ops, i)), Pass)
    decreases |ops| - i
  {
    if i < |ops| {
      var a := Caught(ops);
      assert a.steps[i] == Persist(ops[i], true);
      var e := PerformRun(o, w.log, ops[i]);
      assert StepRun(o, w, a.steps[i]) == (w.(log := e.0), Pass);
      RunCaught(o, w.(log := e.0), ops, i + 1);
    }
  }

  /** Outside a transaction, a callback of caught writes commits: BEGIN,
      each write's statements in order, COMMIT, flag and queue reset.
      Inside one it is only queued. */
  lemma CaughtRequest(o: Oracle, w: World, ops: seq<WriteOp>)
    requires Coherent(w)
    ensures !w.inTransaction ==>
      Req(o, w, Caught(ops)) == (World(WritesLog(o, w.log + [Begin], ops, 0) + [Commit], false, []), Pass)
    ensures w.inTransaction ==> Req(o, w, Caught(ops)) == (w.(pending := w.pending + [Caught(ops)]), Pass)
  {
    if !w.inTransaction {
      var started := World(w.log + [Begin], true, w.pending);
      RunCaught(o, started, ops, 0);
      var ran := started.(log := WritesLog(o, w.log + [Begin], ops, 0));
      assert RunSteps(o, started, Caught(ops), 0) == (ran, Pass);
      assert Drain(o, ran, 0) == (ran, Pass);
    }
  }

  function InsertOps(items: seq<Instance>): (ops: seq<WriteOp>)
    ensures |ops| == |items|
  {
    seq(|items|, i requires 0 <= i < |items| => InsertOp(items[i]))
  }

  function RemoveOps(items: seq<Instance>): (ops: seq<WriteOp>)
    ensures |ops| == |items|
  {
    seq(|items|, i requires 0 <= i < |items| => RemoveOp(items[i]))
  }

  /** The error, if any, as `std::optional<std::string>`. */
  function Message(r: Outcome): Option<string>
  {
    match r
    case Pass => None
    case Fail(e) => Some(e)
  }

  // ---------------------------------------------------------------------
  // The repository of one model
  // ---------------------------------------------------------------------

  class Repository {
    const db: SqliteDatabase
    /** T, the model this repository reads and writes. */
    const schema: Schema

    constructor (db: SqliteDatabase, schema: Schema)
      ensures this.db == db && this.schema == schema
    {
      this.db := db;
      this.schema := schema;
    }

    /** select<Extras, Limit>(values...): at most Limit models, in the order
        the engine returns them. */
    method Select(extras: string, limit: nat) returns (r: Result<seq<Record>>)
      modifies db
      ensures db.log == old(db.log) + [SelectSql(schema.name, extras)]
      ensures db.inTransaction == old(db.inTransaction) && db.pending == old(db.pending) && db.migrations == old(db.migrations)
      ensures r == QueryResult(db.oracle.respond(old(db.log), SelectSql(schema.name, extras)),
                               SelectSql(schema.name, extras), [], CollectStep(schema, limit))
      ensures r.Success? ==> |r.value| <= limit
    {
      var sql := "SELECT * from " + schema.name + " " + extras;
      ghost var answer := db.oracle.respond(db.log, sql);
      r := db.QueryString(sql, [], CollectStep(schema, limit));
      SelectAtMostLimit(answer, sql, schema, limit);
    }

    /** load_all(): select<"ORDER BY ROWID">, so at most 100 models. */
    method LoadAll() returns (r: Result<seq<Record>>)
      modifies db
      ensures db.log == old(db.log) + [SelectSql(schema.name, LoadAllExtras)]
      ensures db.inTransaction == old(db.inTransaction) && db.pending == old(db.pending) && db.migrations == old(db.migrations)
      ensures r == QueryResult(db.oracle.respond(old(db.log), SelectSql(schema.name, LoadAllExtras)),
                               SelectSql(schema.name, LoadAllExtras), [], CollectStep(schema, DefaultLimit))
      ensures r.Success? ==> |r.value| <= DefaultLimit
    {
      r := Select(LoadAllExtras, DefaultLimit);
    }

    /** count_by<Fields...>(values...): the first cell of the answer. */
    method CountBy(fields: seq<string>, values: seq<Data>) returns (r: Result<Int64>)
      requires 1 <= |fields| <= |values|
      modifies db
      ensures db.log == old(db.log) + [CountSql(schema.name, fields, values)]
      ensures db.inTransaction == old(db.inTransaction) && db.pending == old(db.pending) && db.migrations == old(db.migrations)
      ensures r == QueryResult(db.oracle.respond(old(db.log), CountSql(schema.name, fields, values)),
                               CountSql(schema.name, fields, values), 0, CountFirst)
    {
      var o := WriteFilter("SELECT COUNT (*) from " + schema.name + " WHERE ", fields, values);
      r := db.QueryString(o, 0, CountFirst);
    }

    /** load_by<Fields...>(values...): every matching model, by ROWID. */
    method LoadBy(fields: seq<string>, values: seq<Data>) returns (r: Result<seq<Record>>)
      requires 1 <= |fields| <= |values|
      modifies db
      ensures db.log == old(db.log) + [LoadBySql(schema.name, fields, values)]
      ensures db.inTransaction == old(db.inTransaction) && db.pending == old(db.pending) && db.migrations == old(db.migrations)
      ensures r == QueryResult(db.oracle.respond(old(db.log), LoadBySql(schema.name, fields, values)),
                               LoadBySql(schema.name, fields, values), [], GatherStep(schema))
    {
      var o := WriteFilter("SELECT * from " + schema.name + " WHERE ", fields, values);
      o := o + " ORDER BY ROWID";
      r := db.QueryString(o, [], GatherStep(schema));
    }

    /** first_by (Ascending) and last_by (Descending). */
    method Edge(fields: seq<string>, values: seq<Data>, d: Direction) returns (r: Result<Option<Record>>)
      requires 1 <= |fields| && (|fields| <= |values| || |values| == 0)
      modifies db
      ensures db.log == old(db.log) + [EdgeSql(schema.name, fields, values, d)]
      ensures db.inTransaction == old(db.inTransaction) && db.pending == old(db.pending) && db.migrations == old(db.migrations)
      ensures r == FirstOf(QueryResult(db.oracle.respond(old(db.log), EdgeSql(schema.name, fields, values, d)),
                                       EdgeSql(schema.name, fields, values, d), [], TakeFirstStep(schema)))
    {
      var o: string;
      if |values| == 0 {
        o := "SELECT * from " + schema.name + " ORDER BY ";
      } else {
        o := WriteFilter("SELECT * from " + schema.name + " WHERE ", fields, values);
        o := o + " ORDER BY ROWID, ";
      }
      o := WriteOrder(o, fields);
      o := o + (if d.Ascending? then " ASC LIMIT 1" else " DESC LIMIT 1");
      var items := db.QueryString(o, [], TakeFirstStep(schema));
      if items.Failure? {
        return Failure(items.error);
      }
      if |items.value| == 0 {
        return Success(None);
      }
      r := Success(Some(items.value[0]));
    }

    /** find(values...): the primary keys are checked when Keys{} is built,
        then load_by<Keys...> and the first model, if any. */
    method Find(values: seq<Data>) returns (r: Result<Option<Record>>)
      requires 1 <= |schema.keys| <= |values|
      modifies db
      ensures !Distinct(schema.keys) ==> r == Failure("Duplicated primary key") && db.log == old(db.log)
      ensures Distinct(schema.keys) ==> db.log == old(db.log) + [LoadBySql(schema.name, schema.keys, values)]
      ensures db.inTransaction == old(db.inTransaction) && db.pending == old(db.pending) && db.migrations == old(db.migrations)
      ensures Distinct(schema.keys) ==>
        r == FirstOf(QueryResult(db.oracle.respond(old(db.log), LoadBySql(schema.name, schema.keys, values)),
                                 LoadBySql(schema.name, schema.keys, values), [], GatherStep(schema)))
    {
      var keys := CheckPrimary(schema.keys);
      if keys.Fail? {
        return Failure(keys.error);
      }
      var items := LoadBy(schema.keys, values);
      if items.Failure? {
        return Failure(items.error);
      }
      if |items.value| == 0 {
        return Success(None);
      }
      r := Success(Some(items.value[0]));
    }

    /** save(item): insert's result, its error returned rather than thrown. */
    method Save(item: Instance) returns (r: Result<Record>)
      modifies db
      ensures (db.log, r) == InsertRun(db.oracle, old(db.log), item)
      ensures db.inTransaction == old(db.inTransaction) && db.pending == old(db.pending) && db.migrations == old(db.migrations)
    {
      r := db.Insert(item);
    }

    /** update(item): the error's text, if any. */
    method Update(item: Instance) returns (r: Option<string>)
      modifies db
      ensures (db.log, r) == (UpdateRun(db.oracle, old(db.log), item).0, Message(UpdateRun(db.oracle, old(db.log), item).1))
      ensures db.inTransaction == old(db.inTransaction) && db.pending == old(db.pending) && db.migrations == old(db.migrations)
    {
      var e := db.Update(item);
      r := Message(e);
    }

    /** remove(item): the error's text, if any. */
    method Remove(item: Instance) returns (r: Option<string>)
      modifies db
      ensures var e := RemoveRun(db.oracle, old(db.log), item);
        db.log == e.0 && r == (if e.1.Success? then None else Some(e.1.error))
      ensures db.inTransaction == old(db.inTransaction) && db.pending == old(db.pending) && db.migrations == old(db.migrations)
    {
      var e := db.Remove(item);
      r := if e.Success? then None else Some(e.error);
    }

    /** save_all(items): one transaction whose callback saves each item,
        discarding each save's error; only the transaction itself throws. */
    method SaveAll(items: seq<Instance>) returns (r: Outcome)
      modifies db
      ensures (db.State(), r) == Req(db.oracle, old(db.State()), Caught(InsertOps(items)))
      ensures db.migrations == old(db.migrations)
    {
      r := db.Transaction(Caught(InsertOps(items)));
    }

    /** remove_all(items): the same for remove; the transaction's error is
        returned as text. */
    method RemoveAll(items: seq<Instance>) returns (r: Option<string>)
      modifies db
      ensures var e := Req(db.oracle, old(db.State()), Caught(RemoveOps(items)));
        db.State() == e.0 && r == Message(e.1)
      ensures db.migrations == old(db.migrations)
    {
      var e := db.Transaction(Caught(RemoveOps(items)));
      r := Message(e);
    }
  }
}

=== FILE: sqlite.dfy ===
/** SqliteDatabase (include/jdb/database/SqliteDatabase.hpp): the object that
    owns the connection, the transaction flag, the queue of deferred
    transaction callbacks and the list of migrations. Each method is proved
    against the function of module Engine or Migrations that describes its
    effect on the history of statements and on the object's fields. */
module Sqlite {
  import opened Wrappers
  import opened Strings
  import opened DataClass
  import opened Database
  import opened Engine
  import opened Ddl
  import opened Migrations

  // ---------------------------------------------------------------------
  // The constructor's tables
  // ---------------------------------------------------------------------

  /** How the constructor reports an error raised for one of its tables. */
  function OnTable(table: string, e: string): string
  {
    "On '" + table + "' -> " + e
  }

  /** Everything the constructor checks about a table before sending its
      CREATE TABLE: Keys{}, Refers{}, the Table{} construction and
      create_ddl. */
  predicate TableAccepted(t: Schema)
  {
    Distinct(t.keys) && Distinct(ReferNames(t.refers)) && Distinct(FieldNames(t.fields))
    && CreateDdl(t).Success?
  }

  /** The body of the constructor's try block for one table, with the catch
      that prefixes the table's name. */
  function TableRun(o: Oracle, log: seq<string>, t: Schema): (r: (seq<string>, Outcome))
    ensures log <= r.0
    ensures r.1.Fail? ==> exists e :: r.1.error == OnTable(t.name, e)
    ensures !TableAccepted(t) ==> r.0 == log && r.1.Fail?
    ensures TableAccepted(t) ==> r.0 == log + [CreateDdl(t).value]
    ensures TableAccepted(t) && ExecuteRun(o, log, CreateDdl(t).value).1.Pass? ==> r.1.Pass?
  {
    if !Distinct(t.keys) then (log, Fail(OnTable(t.name, "Duplicated primary key")))
    else if !Distinct(ReferNames(t.refers)) then (log, Fail(OnTable(t.name, "Duplicated foreign key")))
    else if !Distinct(FieldNames(t.fields)) then (log, Fail(OnTable(t.name, DuplicatedFields(t.name))))
    else
      match CreateDdl(t)
      case Failure(e) => (log, Fail(OnTable(t.name, e)))
      case Success(sql) =>
        var e := ExecuteRun(o, log, sql);
        (e.0, if e.1.Pass? then Pass else Fail(OnTable(t.name, e.1.error)))
  }

  /** The for_each over the tables, stopping at the first exception. */
  function TablesRun(o: Oracle, log: seq<string>, tables: seq<Schema>): (r: (seq<string>, Outcome))
    decreases |tables|
    ensures log <= r.0
  {
    if tables == [] then (log, Pass)
    else
      var e := TableRun(o, log, tables[0]);
      if e.1.Fail? then e else TablesRun(o, e.0, tables[1..])
  }

  /** The for_each from table k on: table k, then the rest unless it failed. */
  lemma TablesRunStep(o: Oracle, log: seq<string>, tables: seq<Schema>, k: nat)
    requires k < |tables|
    ensures var e := TableRun(o, log, tables[k]);
      TablesRun(o, log, tables[k..]) == if e.1.Fail? then e else TablesRun(o, e.0, tables[k + 1..])
  {
    assert tables[k..][0] == tables[k] && tables[k..][1..] == tables[k + 1..];
  }

  lemma TablesRunDone(o: Oracle, log: seq<string>, tables: seq<Schema>)
    ensures TablesRun(o, log, tables[|tables|..]) == (log, Pass)
  {
    assert tables[|tables|..] == [];
  }

  /** The statement of the bookkeeping table. */
  function MigracaoDdlText(): string
  {
    MigracaoDdl();
    CreateDdl(MigracaoSchema).value
  }

  /** The constructor: the bookkeeping table (its error not wrapped), then
      every table in order. */
  function SetupRun(o: Oracle, log: seq<string>, tables: seq<Schema>): (r: (seq<string>, Outcome))
    ensures log + [MigracaoDdlText()] <= r.0
  {
    var m := ExecuteRun(o, log, MigracaoDdlText());
    if m.1.Fail? then m else TablesRun(o, m.0, tables)
  }

  /** The statements the accepted tables send, in order. */
  function DdlTexts(tables: seq<Schema>): seq<string>
    decreases |tables|
  {
    if tables == [] then []
    else if TableAccepted(tables[0]) then [CreateDdl(tables[0]).value] + DdlTexts(tables[1..])
    else DdlTexts(tables[1..])
  }

  /** With an engine that accepts everything and tables that pass their
      checks, the constructor creates the bookkeeping table and then each
      table in the order given. */
  lemma {:induction false} SetupCreatesInOrder(o: Oracle, log: seq<string>, tables: seq<Schema>)
    requires Accepts(o)
    requires forall k :: 0 <= k < |tables| ==> TableAccepted(tables[k])
    ensures SetupRun(o, log, tables) == (log + [MigracaoDdlText()] + DdlTexts(tables), Pass)
  {
    assert ExecuteRun(o, log, MigracaoDdlText()).1.Pass?;
    TablesInOrder(o, log + [MigracaoDdlText()], tables);
  }

  lemma {:induction false} TablesInOrder(o: Oracle, log: seq<string>, tables: seq<Schema>)
    requires Accepts(o)
    requires forall k :: 0 <= k < |tables| ==> TableAccepted(tables[k])
    ensures TablesRun(o, log, tables) == (log + DdlTexts(tables), Pass)
    decreases |tables|
  {
    if tables != [] {
      var t := tables[0];
      assert TableAccepted(t);
      var c := CreateDdl(t).value;
      assert ExecuteRun(o, log, c).1.Pass?;
      assert TableRun(o, log, t) == (log + [c], Pass);
      assert TablesRun(o, log, tables) == TablesRun(o, log + [c], tables[1..]);
      assert forall k :: 0 <= k < |tables[1..]| ==> tables[1..][k] == tables[k + 1];
      TablesInOrder(o, log + [c], tables[1..]);
      assert DdlTexts(tables) == [c] + DdlTexts(tables[1..]);
      AppendAssoc(log, [c], DdlTexts(tables[1..]));
    } else {
      assert log + DdlTexts(tables) == log;
    }
  }

  /** The cells of one result row, classified left to right. */
  method ClassifyCells(cells: seq<NativeCell>) returns (r: Result<seq<Data>>)
    ensures r == ClassifyRow(cells)
  {
    var values: seq<Data> := [];
    for i := 0 to |cells|
      invariant ClassifyRow(cells[..i]) == Success(values)
    {
      assert cells[..i + 1][..i] == cells[..i];
      match cells[i]
      case IntegerCell(x) => values := values + [IntValue(x)];
      case FloatCell(d) => values := values + [DecimalValue(d)];
      case TextCell(s) => values := values + [TextValue(s)];
      case BlobCell => return Failure(TypeNotImplemented);
      case NullCell => values := values + [NullValue];
    }
    assert cells[..|cells|] == cells;
    r := Success(values);
  }

  class SqliteDatabase {
    /** mDb, the connection. */
    const oracle: Oracle
    /** Every statement sent over the connection so far. */
    var log: seq<string>
    /** mTransactionLock. */
    var inTransaction: bool
    /** mTransactionCallbacks. */
    var pending: seq<Action>
    /** mMigrations. */
    var migrations: seq<Migration>

    /** add_migration never lets two migrations share an id. */
    predicate Valid()
      reads this
    {
      IdsDistinct(migrations)
    }

    function State(): World
      reads this
    {
      World(log, inTransaction, pending)
    }

    /** Opening the connection: nothing sent, no transaction, nothing queued,
        no migrations. The tables are created by Initialize. */
    constructor (o: Oracle)
      ensures oracle == o && log == [] && !inTransaction && pending == [] && migrations == []
      ensures Valid()
    {
      oracle := o;
      log := [];
      inTransaction := false;
      pending := [];
      migrations := [];
    }

    /** The rest of the constructor: the bookkeeping table, then each table
        with its checks, stopping at the first error. */
    method Initialize(tables: seq<Schema>) returns (r: Outcome)
      modifies this
      ensures (log, r) == SetupRun(oracle, old(log), tables)
      ensures inTransaction == old(inTransaction) && pending == old(pending) && migrations == old(migrations)
    {
      MigracaoNames();
      var ddl := BuildDdl(MigracaoSchema);
      MigracaoDdl();
      r := Execute(ddl.value);
      if r.Fail? {
        return;
      }
      r := CreateTables(tables);
    }

    /** The constructor's for_each over the tables: stops at the first table
        that throws. */
    method CreateTables(tables: seq<Schema>) returns (r: Outcome)
      modifies this
      ensures (log, r) == TablesRun(oracle, old(log), tables)
      ensures inTransaction == old(inTransaction) && pending == old(pending) && migrations == old(migrations)
    {
      ghost var whole := TablesRun(oracle, log, tables);
      var k := 0;
      while k < |tables|
        invariant 0 <= k <= |tables|
        invariant inTransaction == old(inTransaction) && pending == old(pending) && migrations == old(migrations)
        invariant TablesRun(oracle, log, tables[k..]) == whole
      {
        TablesRunStep(oracle, log, tables, k);
        r := CreateTable(tables[k]);
        if r.Fail? {
          return;
        }
        k := k + 1;
      }
      TablesRunDone(oracle, log, tables);
      r := Pass;
    }

    /** One table of the constructor's for_each. */
    method CreateTable(t: Schema) returns (r: Outcome)
      modifies this
      ensures (log, r) == TableRun(oracle, old(log), t)
      ensures inTransaction == old(inTransaction) && pending == old(pending) && migrations == old(migrations)
    {
      var keys := CheckPrimary(t.keys);
      if keys.Fail? {
        return Fail(OnTable(t.name, keys.error));
      }
      var refers := CheckForeign(t.refers);
      if refers.Fail? {
        return Fail(OnTable(t.name, refers.error));
      }
      var fields := CheckFields(t);
      if fields.Fail? {
        return Fail(OnTable(t.name, fields.error));
      }
      var ddl := BuildDdl(t);
      if ddl.Failure? {
        return Fail(OnTable(t.name, ddl.error));
      }
      r := Execute(ddl.value);
      if r.Fail? {
        r := Fail(OnTable(t.name, r.error));
      }
    }

    /** query_string: every row classified and handed to the callback until
        it answers false; any failure rethrown with the statement. */
    method QueryString<S>(sql: string, init: S, step: (S, Row) -> Result<(S, bool)>) returns (r: Result<S>)
      modifies this
      ensures log == old(log) + [sql]
      ensures inTransaction == old(inTransaction) && pending == old(pending) && migrations == old(migrations)
      ensures r == QueryResult(oracle.respond(old(log), sql), sql, init, step)
    {
      var answer := oracle.respond(log, sql);
      log := log + [sql];
      if answer.Failed? {
        return Failure(answer.message + ": " + sql);
      }
      var rows := answer.rows;
      var columns: seq<string> := [];
      var state := init;
      var k := 0;
      while k < |rows|
        invariant 0 <= k <= |rows|
        invariant log == old(log) + [sql]
        invariant inTransaction == old(inTransaction) && pending == old(pending) && migrations == old(migrations)
        invariant columns == if k == 0 then [] else answer.columns
        invariant Stream(answer.columns, rows, init, step) == Stream(answer.columns, rows[k..], state, step)
      {
        if columns == [] {
          columns := answer.columns;
        }
        assert rows[k..][0] == rows[k] && rows[k..][1..] == rows[k + 1..];
        var values := ClassifyCells(rows[k]);
        if values.Failure? {
          return Failure(values.error + ": " + sql);
        }
        var next := step(state, Row(columns, values.value));
        if next.Failure? {
          return Failure(next.error + ": " + sql);
        }
        state := next.value.0;
        if !next.value.1 {
          return Success(state);
        }
        k := k + 1;
      }
      assert rows[k..] == [];
      r := Success(state);
    }

    /** query_string with the callback that ignores every row. */
    method Execute(sql: string) returns (r: Outcome)
      modifies this
      ensures (log, r) == ExecuteRun(oracle, old(log), sql)
      ensures inTransaction == old(inTransaction) && pending == old(pending) && migrations == old(migrations)
    {
      var done := QueryString(sql, (), IgnoreRows);
      r := if done.Success? then Pass else Fail(done.error);
    }

    /** get_last_rowid. */
    method LastRowid() returns (id: Int64)
      ensures id == oracle.lastRowid(log)
    {
      id := oracle.lastRowid(log);
    }

    method FindByRowid(s: Schema, rowid: Int64) returns (r: Result<Option<Record>>)
      modifies this
      ensures (log, r) == FindRun(oracle, old(log), s, rowid)
      ensures inTransaction == old(inTransaction) && pending == old(pending) && migrations == old(migrations)
    {
      r := QueryString(FindByRowidSql(s.name, rowid), None, FirstModelStep(s));
    }

    /** Database::insert: the INSERT, then the model re-read by its rowid. */
    method Insert(m: Instance) returns (res: Result<Record>)
      modifies this
      ensures (log, res) == InsertRun(oracle, old(log), m)
      ensures inTransaction == old(inTransaction) && pending == old(pending) && migrations == old(migrations)
    {
      var sql := BuildInsert(m);
      if sql.Failure? {
        return Failure(sql.error);
      }
      var done := Execute(sql.value);
      if done.Fail? {
        return Failure(done.error);
      }
      var rowid := LastRowid();
      var found := FindByRowid(m.schema, rowid);
      if found.Failure? {
        return Failure(found.error);
      }
      if found.value.None? {
        return Failure(UnableToRecover);
      }
      res := Success(found.value.value);
    }

    /** Database::update. */
    method Update(m: Instance) returns (r: Outcome)
      modifies this
      ensures (log, r) == UpdateRun(oracle, old(log), m)
      ensures inTransaction == old(inTransaction) && pending == old(pending) && migrations == old(migrations)
    {
      var sql := BuildUpdate(m);
      if sql.Failure? {
        return Fail(sql.error);
      }
      r := Execute(sql.value);
    }

    /** Database::remove. */
    method Remove(m: Instance) returns (r: Result<bool>)
      modifies this
      ensures (log, r) == RemoveRun(oracle, old(log), m)
      ensures inTransaction == old(inTransaction) && pending == old(pending) && migrations == old(migrations)
    {
      var sql := BuildDelete(m);
      if sql.Failure? {
        return Failure(sql.error);
      }
      var done := Execute(sql.value);
      r := if done.Pass? then Success(true) else Failure(done.error);
    }

    method Perform(op: WriteOp) returns (r: Outcome)
      modifies this
      ensures (log, r) == PerformRun(oracle, old(log), op)
      ensures inTransaction == old(inTransaction) && pending == old(pending) && migrations == old(migrations)
    {
      match op
      case InsertOp(m) =>
        var e := Insert(m);
        r := if e.Success? then Pass else Fail(e.error);
      case UpdateOp(m) =>
        r := Update(m);
      case RemoveOp(m) =>
        var e := Remove(m);
        r := if e.Success? then Pass else Fail(e.error);
    }

    /** One step of a callback run against this database. */
    method Step(s: Step) returns (r: Outcome)
      modifies this
      decreases Rank(State()), StepWeight(s), 0
      ensures (State(), r) == StepRun(oracle, old(State()), s)
      ensures migrations == old(migrations)
    {
      match s
      case Statement(sql) =>
        r := Execute(sql);
      case Persist(op, caught) =>
        r := Perform(op);
        if caught {
          r := Pass;
        }
      case Request(b) =>
        r := Transaction(b);
      case Raise(m) =>
        r := Fail(m);
    }

    /** `callback(*this)`: the steps in order, up to the first exception. */
    method Run(a: Action) returns (r: Outcome)
      modifies this
      decreases Rank(State()), Size(a), 1
      ensures (State(), r) == RunSteps(oracle, old(State()), a, 0)
      ensures migrations == old(migrations)
    {
      var i := 0;
      while i < |a.steps|
        invariant 0 <= i <= |a.steps|
        invariant RunSteps(oracle, State(), a, i) == RunSteps(oracle, old(State()), a, 0)
        invariant old(inTransaction) ==> inTransaction
        invariant migrations == old(migrations)
      {
        StepsFromUnfold(a, i);
        StepsFromMonotone(a, 0, i);
        r := Step(a.steps[i]);
        if r.Fail? {
          return;
        }
        i := i + 1;
      }
      r := Pass;
    }

    /** transaction: queued while the flag is set; otherwise BEGIN, the
        callback, the queue in arrival order (growing while it is run),
        COMMIT, and flag and queue cleared. An exception sends ROLLBACK and
        leaves flag and queue as they are. */
    method Transaction(a: Action) returns (r: Outcome)
      modifies this
      decreases Rank(State()), Size(a), 2
      ensures (State(), r) == Req(oracle, old(State()), a)
      ensures migrations == old(migrations)
    {
      if inTransaction {
        pending := pending + [a];
        return Pass;
      }
      inTransaction := true;
      log := log + [Begin];
      r := Run(a);
      if r.Fail? {
        log := log + [Rollback];
        return;
      }
      ghost var ran := State();
      var k := 0;
      while k < |pending|
        invariant inTransaction && k <= |pending|
        invariant Drain(oracle, State(), k) == Drain(oracle, ran, 0)
        invariant migrations == old(migrations)
        decreases Total(pending[k..])
      {
        TotalFront(pending, k);
        ghost var queue := pending;
        r := Run(pending[k]);
        if r.Fail? {
          log := log + [Rollback];
          return;
        }
        DrainShrinks(queue, k);
        k := k + 1;
      }
      log := log + [Commit];
      pending := [];
      inTransaction := false;
      r := Pass;
    }

    // -------------------------------------------------------------------
    // Migrations
    // -------------------------------------------------------------------

    /** add_migration: refused when the id is already taken. */
    method AddMigration(m: Migration) returns (r: Outcome)
      requires Valid()
      modifies this
      ensures Valid()
      ensures AddMigrationTo(old(migrations), m) == if r.Pass? then Success(migrations) else Failure(IdExists)
      ensures r.Fail? ==> r.error == IdExists && migrations == old(migrations)
      ensures State() == old(State())
    {
      var k := 0;
      while k < |migrations|
        invariant 0 <= k <= |migrations|
        invariant forall j :: 0 <= j < k ==> migrations[j].id != m.id
      {
        if migrations[k].id == m.id {
          return Fail(IdExists);
        }
        k := k + 1;
      }
      AddMigrationKeepsIdsDistinct(migrations, m);
      migrations := migrations + [m];
      r := Pass;
    }

    /** The std::sort of build, on the vector's storage. */
    method SortMigrations()
      modifies this
      ensures migrations == SortById(old(migrations))
      ensures State() == old(State())
    {
      var ms := migrations;
      var a := new Migration[|ms|];
      for i := 0 to |ms|
        invariant a[..i] == ms[..i]
        invariant State() == old(State())
      {
        a[i] := ms[i];
      }
      assert a[..] == ms;
      SortInPlaceBy(a, IdOf);
      migrations := a[..];
    }

    /** build, with the version read from the "version" column (see
        ReadVersion for the column the source reads). */
    method Build() returns (r: Outcome)
      requires Valid()
      modifies this
      ensures Valid()
      ensures (State(), migrations, r) == BuildRun(oracle, old(State()), old(migrations), false)
    {
      r := Execute(CreateVersionTable);
      if r.Fail? {
        return;
      }
      var read := QueryString(SelectMigracao, 0 as Int64, VersionStep(false));
      if read.Failure? {
        return Fail(read.error);
      }
      var version: Int64 := read.value;
      if version == 0 {
        MigracaoWrites(0);
        var seeded := Insert(MigracaoRecord(0));
        if seeded.Failure? {
          return Fail(seeded.error);
        }
      }
      ghost var before := migrations;
      SortMigrations();
      SortByIdAscending(before);
      AscendingIdsDistinct(migrations);
      r := Migrate(version);
    }

    /** The for loop of build over the (sorted) migrations, from the version
        read. */
    method Migrate(version0: Int64) returns (r: Outcome)
      modifies this
      ensures (State(), r) == MigrateRun(oracle, old(State()), old(migrations), version0)
      ensures migrations == old(migrations)
    {
      var version: Int64 := version0;
      var k := 0;
      while k < |migrations|
        invariant 0 <= k <= |migrations|
        invariant migrations == old(migrations)
        invariant MigrateRun(oracle, State(), migrations[k..], version) == MigrateRun(oracle, old(State()), migrations, version0)
      {
        var m := migrations[k];
        assert migrations[k..][0] == m && migrations[k..][1..] == migrations[k + 1..];
        if m.id > version {
          version := m.id;
          r := Run(m.action);
          if r.Fail? {
            return Fail(MigrationFailed(m.id, r.error));
          }
          r := Update(MigracaoRecord(version));
          if r.Fail? {
            return Fail(MigrationFailed(m.id, r.error));
          }
        }
        k := k + 1;
      }
      assert migrations[k..] == [];
      r := Pass;
    }
  }
}

=== FILE: strings.dfy ===
/** Text helpers that stand for the std::ostream operations the library uses:
    separator-joined lists written under a `first` flag, decimal output of
    64-bit integers, and std::quoted. */
module Strings {
  import opened Wrappers

  /** The list `parts` written with `sep` between consecutive elements, the
      way every `if (!first) out << sep;` loop of the library writes it. */
  function Join(sep: string, parts: seq<string>): string
  {
    if |parts| == 0 then ""
    else if |parts| == 1 then parts[0]
    else Join(sep, parts[..|parts| - 1]) + sep + parts[|parts| - 1]
  }

  /** A stream that holds `prefix` followed by the joined list. */
  function Written(prefix: string, sep: string, parts: seq<string>): string
  {
    prefix + Join(sep, parts)
  }

  /** Appending one more element to a written list. */
  lemma JoinSnoc(sep: string, parts: seq<string>, p: string)
    ensures Join(sep, parts + [p]) == if parts == [] then p else Join(sep, parts) + sep + p
  {
    assert (parts + [p])[..|parts|] == parts;
  }

  /** Appending one part to a joined list under a "first" flag or counter:
      the separator goes before every part but the first. */
  lemma JoinStep(prefix: string, sep: string, parts: seq<string>, p: string, o: string)
    requires o == prefix + Join(sep, parts)
    ensures (if parts == [] then o + p else o + sep + p) == prefix + Join(sep, parts + [p])
  {
    JoinSnoc(sep, parts, p);
    if parts != [] {
      assert o + sep + p == prefix + (Join(sep, parts) + sep + p);
    }
  }

  /** Concatenation regroups freely (proved once, for any element type). */
  lemma AppendAssoc<T>(a: seq<T>, b: seq<T>, c: seq<T>)
    ensures a + b + c == a + (b + c)
  {
  }

  /** The picture an insertion pass leaves: the elements before j in
      place, x at j, the rest of s shifted one place up. */
  lemma InsertedAt<T>(b: seq<T>, s: seq<T>, j: nat, x: T)
    requires j <= |s| && |b| == |s| + 1
    requires forall k :: 0 <= k < j ==> b[k] == s[k]
    requires b[j] == x
    requires forall k :: j < k < |b| ==> b[k] == s[k - 1]
    ensures b == s[..j] + [x] + s[j..]
  {
    var r := s[..j] + [x] + s[j..];
    forall k | 0 <= k < |b| ensures b[k] == r[k] {
      if k > j {
        assert r[k] == s[j..][k - j - 1];
      }
    }
  }

  lemma PrefixTrans<T>(a: seq<T>, b: seq<T>, c: seq<T>)
    requires a <= b && b <= c
    ensures a <= c
  {
    assert c[..|a|] == b[..|a|];
  }

  /** An element in front of the rest of the sequence after it. */
  lemma ConsSlice<T>(s: seq<T>, i: nat)
    requires i < |s|
    ensures [s[i]] + s[i + 1..] == s[i..]
  {
  }

  /** The prefixes at both ends. */
  lemma EndSlices<T>(s: seq<T>)
    ensures s[..0] == [] && s[..|s|] == s && s[0..] == s
  {
  }

  /** A suffix of a concatenation that starts inside its first part. */
  lemma SliceAppend<T>(a: seq<T>, b: seq<T>, j: nat)
    requires j <= |a|
    ensures (a + b)[j..] == a[j..] + b
  {
  }

  /** A prefix grown by the element after it. */
  lemma SnocSlice<T>(s: seq<T>, i: nat)
    requires i < |s|
    ensures s[..i + 1] == s[..i] + [s[i]]
  {
  }

  // ---------------------------------------------------------------------
  // Decimal integers (`out << int64_t`, std::to_string(int64_t))
  // ---------------------------------------------------------------------

  const MinInt64: int := -0x8000_0000_0000_0000
  const MaxInt64: int := 0x7fff_ffff_ffff_ffff

  type Int64 = x: int | MinInt64 <= x <= MaxInt64

  const MinInt32: int := -0x8000_0000
  const MaxInt32: int := 0x7fff_ffff

  type Int32 = x: int | MinInt32 <= x <= MaxInt32

  function DigitChar(d: nat): (c: char)
    requires d < 10
    ensures '0' <= c <= '9'
  {
    "0123456789"[d]
  }

  function DigitValue(c: char): nat
    requires '0' <= c <= '9'
  {
    c as int - '0' as int
  }

  lemma DigitRoundTrip(d: nat)
    requires d < 10
    ensures DigitValue(DigitChar(d)) == d
  {
  }

  /** Decimal digits of n, most significant first, no leading zeros. */
  function NatToString(n: nat): (s: string)
    ensures |s| >= 1 && AllDigits(s)
  {
    if n < 10 then [DigitChar(n)] else NatToString(n / 10) + [DigitChar(n % 10)]
  }

  /** What `out << v` writes for an integer: an optional minus sign and the digits. */
  function IntToString(i: int): (s: string)
    ensures |s| >= 1
  {
    if i < 0 then "-" + NatToString(-i) else NatToString(i)
  }

  predicate AllDigits(s: string)
  {
    forall i :: 0 <= i < |s| ==> '0' <= s[i] <= '9'
  }

  /** Reads a string of digits back as a number. */
  function ParseNat(s: string): nat
    requires AllDigits(s)
  {
    if |s| == 0 then 0 else ParseNat(s[..|s| - 1]) * 10 + DigitValue(s[|s| - 1])
  }

  /** An optional minus sign followed by digits. */
  predicate IntText(s: string)
  {
    |s| >= 1 && (if s[0] == '-' then AllDigits(s[1..]) else AllDigits(s))
  }

  /** Reads back what IntToString wrote. */
  function ParseInt(s: string): int
    requires IntText(s)
  {
    if s[0] == '-' then -(ParseNat(s[1..]) as int) else ParseNat(s)
  }

  lemma {:induction false} ParseNatToString(n: nat)
    ensures ParseNat(NatToString(n)) == n
  {
    if n >= 10 {
      var s := NatToString(n / 10) + [DigitChar(n % 10)];
      assert s[..|s| - 1] == NatToString(n / 10);
      ParseNatToString(n / 10);
      DigitRoundTrip(n % 10);
    } else {
      DigitRoundTrip(n);
    }
  }

  lemma ParseSigned(t: string)
    requires |t| >= 1 && AllDigits(t)
    ensures IntText("-" + t) && ParseInt("-" + t) == -(ParseNat(t) as int)
  {
    assert ("-" + t)[1..] == t;
  }

  lemma ParseUnsigned(t: string)
    requires |t| >= 1 && AllDigits(t)
    ensures IntText(t) && ParseInt(t) == ParseNat(t)
  {
    assert t[0] != '-';
  }

  /** The decimal text of an integer determines the integer. */
  lemma {:induction false} ParseIntToString(i: int)
    ensures IntText(IntToString(i)) && ParseInt(IntToString(i)) == i
  {
    if i < 0 {
      var n: nat := -i;
      var t := NatToString(n);
      assert IntToString(i) == "-" + t;
      ParseSigned(t);
      ParseNatToString(n);
    } else {
      var t := NatToString(i);
      assert IntToString(i) == t;
      ParseUnsigned(t);
      ParseNatToString(i);
    }
  }

  lemma IntToStringInjective(i: int, j: int)
    requires IntToString(i) == IntToString(j)
    ensures i == j
  {
    ParseIntToString(i);
    ParseIntToString(j);
  }

  // ---------------------------------------------------------------------
  // std::quoted(s, delim, '\\')
  // ---------------------------------------------------------------------

  /** The body of std::quoted: every delimiter and every backslash gets a
      backslash in front of it. */
  function Escape(s: string, delim: char): (r: string)
    ensures |r| >= |s|
  {
    if s == [] then []
    else (if s[0] == delim || s[0] == '\\' then ['\\', s[0]] else [s[0]]) + Escape(s[1..], delim)
  }

  /** What `out << std::quoted(s, delim)` writes. */
  function Quoted(s: string, delim: char): (r: string)
    ensures |r| >= 2 && r[0] == delim && r[|r| - 1] == delim
  {
    [delim] + Escape(s, delim) + [delim]
  }

  /** The reading side of std::quoted (`in >> std::quoted(s)`) on the
      escaped body: a backslash takes the next character literally, an
      unescaped delimiter cannot occur inside. */
  function Unescape(t: string, delim: char): Option<string>
  {
    if t == [] then Some([])
    else if t[0] == '\\' then
      (if |t| < 2 then None else
         match Unescape(t[2..], delim)
         case None => None
         case Some(rest) => Some([t[1]] + rest))
    else if t[0] == delim then None
    else
      match Unescape(t[1..], delim)
      case None => None
      case Some(rest) => Some([t[0]] + rest)
  }

  function Unquote(q: string, delim: char): Option<string>
  {
    if |q| >= 2 && q[0] == delim && q[|q| - 1] == delim then Unescape(q[1..|q| - 1], delim) else None
  }

  lemma {:induction false} UnescapeEscape(s: string, delim: char)
    ensures Unescape(Escape(s, delim), delim) == Some(s)
  {
    if s != [] {
      UnescapeEscape(s[1..], delim);
      var head := if s[0] == delim || s[0] == '\\' then ['\\', s[0]] else [s[0]];
      var e := head + Escape(s[1..], delim);
      assert Escape(s, delim) == e;
      if s[0] == delim || s[0] == '\\' {
        assert e[0] == '\\' && e[1] == s[0];
        assert e[2..] == Escape(s[1..], delim);
        assert Unescape(e, delim) == Some([s[0]] + s[1..]);
      } else {
        assert e[0] == s[0];
        assert e[1..] == Escape(s[1..], delim);
        assert Unescape(e, delim) == Some([s[0]] + s[1..]);
      }
      assert [s[0]] + s[1..] == s;
    }
  }

  /** Reading back a quoted string gives the original text: quoting loses
      nothing, whatever quotes and backslashes the text holds. */
  lemma UnquoteQuoted(s: string, delim: char)
    ensures Unquote(Quoted(s, delim), delim) == Some(s)
  {
    var q := Quoted(s, delim);
    assert q[1..|q| - 1] == Escape(s, delim);
    UnescapeEscape(s, delim);
  }
}

=== FILE: wrappers.dfy ===
/** Failure-carrying return types: the C++ code reports errors by throwing
    std::runtime_error with a fixed message; the model returns them. */
module Wrappers {

  datatype Option<+T> = None | Some(value: T)

  datatype Result<+T> = Success(value: T) | Failure(error: string)

  /** The result of an operation that returns nothing but may throw. */
  datatype Outcome = Pass | Fail(error: string)

  /** Whether a result is a value or an error, without the value. */
  function Status<T>(r: Result<T>): (o: Outcome)
  {
    match r
    case Success(_) => Pass
    case Failure(e) => Fail(e)
  }

  /** Results taken in order: all their values, or the first failure. */
  function Firsts<T>(rs: seq<Result<T>>): (r: Result<seq<T>>)
    ensures r.Success? ==> |r.value| == |rs|
  {
    if rs == [] then Success([])
    else
      match Firsts(rs[..|rs| - 1])
      case Failure(e) => Failure(e)
      case Success(vs) =>
        match rs[|rs| - 1]
        case Failure(e) => Failure(e)
        case Success(v) => Success(vs + [v])
  }

  lemma {:induction false} FirstsSucceed<T>(rs: seq<Result<T>>)
    ensures Firsts(rs).Success? <==> forall i :: 0 <= i < |rs| ==> rs[i].Success?
    ensures Firsts(rs).Success? ==> forall i :: 0 <= i < |rs| ==> Firsts(rs).value[i] == rs[i].value
    decreases |rs|
  {
    if rs != [] {
      var n := |rs| - 1;
      var init := rs[..n];
      FirstsSucceed(init);
      assert forall i :: 0 <= i < n ==> init[i] == rs[i];
      if Firsts(init).Success? && rs[n].Success? {
        var vs := Firsts(init).value;
        assert Firsts(rs) == Success(vs + [rs[n].value]);
        forall i | 0 <= i < |rs| ensures Firsts(rs).value[i] == rs[i].value {
          if i < n {
            assert (vs + [rs[n].value])[i] == vs[i];
          }
        }
      }
    }
  }

  lemma {:induction false} FirstsFailure<T>(rs: seq<Result<T>>)
    requires Firsts(rs).Failure?
    ensures exists i :: (0 <= i < |rs| && rs[i].Failure? && Firsts(rs).error == rs[i].error
      && forall j :: 0 <= j < i ==> rs[j].Success?)
    decreases |rs|
  {
    var n := |rs| - 1;
    var init := rs[..n];
    assert forall j :: 0 <= j < n ==> init[j] == rs[j];
    if Firsts(init).Failure? {
      FirstsFailure(init);
      var i :| 0 <= i < |init| && init[i].Failure? && Firsts(init).error == init[i].error
        && forall j :: 0 <= j < i ==> init[j].Success?;
      assert rs[i] == init[i];
    } else {
      FirstsSucceed(init);
    }
  }

  lemma FirstsStep<T>(rs: seq<Result<T>>, i: nat, vs: seq<T>)
    requires i < |rs| && Firsts(rs[..i]) == Success(vs)
    ensures Firsts(rs[..i + 1]) == match rs[i]
      case Failure(e) => Failure(e)
      case Success(v) => Success(vs + [v])
  {
    assert rs[..i + 1][..i] == rs[..i];
  }

  /** One more result taken: its value appended, or its failure final. */
  lemma FirstsAdvance<T>(rs: seq<Result<T>>, i: nat, vs: seq<T>)
    requires i < |rs| && Firsts(rs[..i]) == Success(vs)
    ensures rs[i].Success? ==> Firsts(rs[..i + 1]) == Success(vs + [rs[i].value])
    ensures rs[i].Failure? ==> Firsts(rs) == Failure(rs[i].error)
  {
    FirstsStep(rs, i, vs);
    if rs[i].Failure? {
      FirstsPrefixFailure(rs, i + 1);
    }
  }

  /** A failure among the first k results is the failure of them all. */
  lemma {:induction false} FirstsPrefixFailure<T>(rs: seq<Result<T>>, k: nat)
    requires k <= |rs| && Firsts(rs[..k]).Failure?
    ensures Firsts(rs) == Failure(Firsts(rs[..k]).error)
    decreases |rs| - k
  {
    if k < |rs| {
      assert rs[..k + 1][..k] == rs[..k];
      PrefixFailureStep(rs, k);
      FirstsPrefixFailure(rs, k + 1);
    } else {
      assert rs[..k] == rs;
    }
  }

  lemma PrefixFailureStep<T>(rs: seq<Result<T>>, k: nat)
    requires k < |rs| && Firsts(rs[..k]).Failure?
    ensures Firsts(rs[..k + 1]) == Failure(Firsts(rs[..k]).error)
  {
    assert rs[..k + 1][..k] == rs[..k];
  }
}
